=== FILE: README.md ===
# moirai, modelled in Dafny

moirai is a command-line tool and terminal UI for named `oh-my-opencode.json`
profiles. Each profile lives in the configuration directory as
`oh-my-opencode.json.<name>`. The active configuration is a symbolic link to one
of them. Backups are `oh-my-opencode.json.<name>.bak.<timestamp>`. A profile
maps agent names to model names, and the tool reports and fills in the known
agents that have no model.

This project models the decision and transformation logic of that tool as
pure Dafny functions over immutable values, and proves what the code promises
about them:

- `Keys` (key.dfy): the byte-level key decoder of the bundled terminal
  runtime. It covers control bytes, ESC/CSI sequences and multi-byte UTF-8,
  with a UTF-8 encoder as its inverse.
- `Tea` (tea.dfy): the runtime's command chain and event loop. The model,
  its commands and the terminal are function values and inputs. A fuel bound
  replaces the unbounded loops.
- `TuiState`, `Overlays`, `Render`, `Viewport`, `Selection` and the three
  screen modules: the UI's state record and its handlers.
  - `TuiState`, `Overlays`, `Render`, `Viewport`, `Selection`: the state
    record, the status bar and confirm dialog, text helpers, the diff
    viewport and selection clamping.
  - `ProfilesScreen`, `AgentsScreen`, `ModelsScreen`: the handlers of the
    profiles, agents and model-picker screens, updated by copy.
  - Deferred work (`tea.Cmd` closures) is a `Cmd` value. Running it is a
    separate function over the results of the I/O it performs.
- `TuiActions` (actions.dfy): the diff-against-latest-backup combinator.
- `Profile`: missing agents, autofill, presets and profile discovery.
- `Backup`, `Link`, `Fs`: backup naming, listing and restore, the active link
  and `ApplyProfile`. They work over an abstract one-directory file system
  (`Fs.FileSystem`: a map from names to nodes).
- `ModelCache`, `Opencode`: the model-list cache format and `opencode models`
  output parsing.
- `Util`: `ExpandUser`.
- `Cli`: global flag parsing, `diff` argument shapes and the exit codes of
  `doctor` and `autofill`.
- `Text`, `Order`, `Wrappers`: the string, ordering and result helpers the
  modules above share. They stand for Go's `strings`, `sort` and error values.

Strings are `seq<char>` and a rune is a `char`, so rune length is `|s|`. The
decoder reads `seq<byte>`. Time stamps, the home directory, `os.Stat` results
outside the modelled directory, process output and the results of JSON loading
and atomic saving are parameters.

## Model

| member | source | states |
|---|---|---|
| Keys.KeyString | third_party/bubbletea/key.go:33-58 | rune keys print as their runes, unknown keys as "", every named key as a name of two or more characters (so it never collides with a one-rune key) |
| Keys.ReadKeyMsg | third_party/bubbletea/key.go:66-103 | empty input is an EOF error; 0x03, CR/LF and 0x7f decode to ctrl+c, enter and backspace with one byte consumed; any other ASCII byte is a one-rune key; a non-ASCII lead reads on to the shortest prefix that is a full rune, fails exactly when the whole input is not one, and the key is unknown exactly when those bytes decode to RuneError, otherwise it is that rune; no input ever yields KeyDelete; consumption stays within the input |
| Keys.ReadEscape | third_party/bubbletea/key.go:105-141 | an escape sequence consumes at least the ESC and never more than the input |
| Keys.RuneLength | third_party/bubbletea/key.go:85-96 | the UTF-8 accumulation stops at the first prefix that is a full rune, at most four bytes long, and fails exactly when no prefix up to the end of the input is one |
| Keys.DecodeRune | third_party/bubbletea/key.go:97-101 | RuneError for a byte that cannot lead, a truncated encoding, a second byte outside the range the lead accepts, or a later byte that is not a continuation; otherwise a valid non-surrogate code point of at least 0x80 |
| Keys.InvalidLeadIsUnknown | third_party/bubbletea/key.go:81-101 | a byte in 0x80-0xC1 or 0xF5-0xFF is read alone and gives the unknown key |
| Keys.BadSecondByteIsUnknown | third_party/bubbletea/key.go:84-101 | a multi-byte lead followed by a byte outside its accepted range stops the read after two bytes and gives the unknown key |
| Keys.LoneEscIsEsc | third_party/bubbletea/key.go:105-110 | a lone ESC at the end of input is the esc key, one byte, no error |
| Keys.EscPeeksOnly | third_party/bubbletea/key.go:113-115 | ESC followed by anything but `[` is esc and consumes only the ESC |
| Keys.EscBracketAtEndFails | third_party/bubbletea/key.go:116-121 | ESC `[` at the end of input is an error |
| Keys.ArrowKeys | third_party/bubbletea/key.go:123-127 | ESC `[` `A` and ESC `[` `B` are up and down, three bytes, whatever follows |
| Keys.PageKeys | third_party/bubbletea/key.go:128-136 | ESC `[` `5` `~` and ESC `[` `6` `~` are pgup and pgdown, four bytes |
| Keys.PageKeyWithoutTilde | third_party/bubbletea/key.go:128-137 | a `5` or `6` not followed by `~` decodes to the unknown key |
| Keys.UnknownCsiIsEsc | third_party/bubbletea/key.go:138-139 | any other byte after ESC `[` is esc, three bytes |
| Keys.DecodeEncoded | third_party/bubbletea/key.go:85-101 | the UTF-8 encoding of a non-ASCII rune is a full rune, no proper prefix of it is, and it decodes back to the rune |
| Keys.RuneLengthOfEncoded | third_party/bubbletea/key.go:85-96 | the accumulation loop reads exactly the encoding of a rune, whatever bytes follow |
| Keys.Utf8RoundTrip | third_party/bubbletea/key.go:85-101 | decoding the encoding of a non-ASCII rune gives that rune as a key (RuneError itself gives the unknown key), consuming exactly its encoding |
| Keys.TruncatedRuneFails | third_party/bubbletea/key.go:88-91 | input that ends at any point inside the encoding of a multi-byte rune is a read error |
| Tea.RunCmdChain | third_party/bubbletea/tea.go:123-135 | a command yielding QuitMsg ends the chain with the model unchanged and quit set, before update sees it; a non-quit message goes to update and a nil command from update ends the chain without quit |
| Tea.ChainFuelMonotone | third_party/bubbletea/tea.go:123-135 | once the chain finishes, more fuel gives the same result, so the bound does not change what a finishing chain does |
| Tea.Delivered | third_party/bubbletea/tea.go:125-132 | the messages update receives in a chain never include QuitMsg, one per step |
| Tea.ChainIsFold | third_party/bubbletea/tea.go:125-132 | the chain's final model is update folded over exactly the delivered messages, in order, each once |
| Tea.DecodeAll | third_party/bubbletea/tea.go:84-87 | the loop reads at most one key per input byte, stopping at the first read error |
| Tea.Loop | third_party/bubbletea/tea.go:84-120 | the loop always returns a model; it draws one frame per handled key, one fewer when the last key quit; it handles at most one key per input byte; ending without an error means a key was handled (the quit) |
| Tea.QuitKeyEndsLoop | third_party/bubbletea/tea.go:90-101 | a key whose command chain quits ends the loop with the model update returned, before any resize or redraw, and without error |
| Tea.Run | third_party/bubbletea/tea.go:41-82 | a nil model is rejected up front and a raw-mode failure returns no model; otherwise the first frame is the view of the start model resized by window-size query 0; when the init command's chain finishes without quitting, a second frame shows the model that chain left (its delivered messages folded in) and the loop starts from that model, its frames, model, error and key count becoming the run's; no error means a model is returned |
| Tea.RunFollowsTrace | third_party/bubbletea/tea.go:41-114 | when neither the init chain nor any key's chain quits, the run draws the start-up frames and then exactly one frame per decoded key along the reference trace, and ends with the read error holding the last model drawn |
| Tea.LoopFollowsTrace | third_party/bubbletea/tea.go:84-114 | for any program, as long as no key's command chain quits, the loop handles every decoded key in order as update, then the chain's delivered messages folded in, then the resize answered by that key's own window-size query, drawing one frame of each resulting model, and ends with the read error holding the last model drawn |
| Tea.QuietLoopReplaysInput | third_party/bubbletea/tea.go:84-109 | for a model that never issues commands, the loop applies update, then the resize reported by that key's own window-size query, to every decoded key in order and ends with the read error once the input is used up |
| Overlays.SetStatus | internal/tui/overlays.go:25-31 | the status gets the kind and message, and clears on the next key exactly when the message is non-empty; nothing else changes |
| Overlays.ClearStatusForKey | internal/tui/overlays.go:33-41 | the status resets to its zero value unless the flag is off, the message is empty or the key is `?`, in which case nothing changes |
| Overlays.StatusLastsOneKey | internal/tui/overlays.go:25-41 | a non-empty status survives `?` and is gone after any other key, and the rest of the state is as before the status was set |
| Overlays.OpenConfirm | internal/tui/overlays.go:113-119 | the dialog opens with the prompt and callback; nothing else changes |
| Overlays.HandleConfirmKey | internal/tui/overlays.go:121-135 | `y`/`Y` close the dialog and then run the callback (no command for a nil one); `n`/`N`/`esc` close it with no command; any other key changes nothing |
| Overlays.StatusHints | internal/tui/overlays.go:223-245 | an open dialog's hints win over help's, which win over the screen's |
| Overlays.DeclineRestoresHints | internal/tui/overlays.go:121-135 | declining an open dialog replaces the dialog hints by those the state shows without it |
| Overlays.IsCtrlU | internal/tui/overlays.go:332-337 | ctrl+u is a rune key whose text is "ctrl+u" or the single rune 0x15; no other key is |
| Overlays.CtrlUFromTerminal | internal/tui/overlays.go:332-337 | the byte 0x15 from the terminal decodes to a key that counts as ctrl+u |
| Render.TruncateRunes | internal/tui/overlays.go:297-309 | at most max(0, maxRunes) runes; input that fits is unchanged; otherwise the first maxRunes-1 runes and `…` |
| Render.PadRight | internal/tui/overlays.go:289-295 | `s` followed by spaces only, max(width, len(s)) runes long |
| Render.StripAnsi | internal/tui/overlays.go:315-330 | the result contains no ESC |
| Render.StripPlain | internal/tui/overlays.go:315-330 | an ESC-free string is returned unchanged |
| Render.StripAppend | internal/tui/overlays.go:315-330 | stripping a concatenation strips each part in turn, carrying the in-escape state across |
| Render.StripSgr | internal/tui/overlays.go:315-330 | one ESC…`m` sequence is deleted entirely |
| Render.RenderStyled | internal/tui/theme.go:8-13 | an empty start returns the text unchanged; otherwise start, text and end |
| Render.PredefinedStylesAreSgr | internal/tui/theme.go:15-23 | every predefined style starts with one or more ESC…`m` sequences and ends with the reset sequence |
| Render.StripSgrRun | internal/tui/overlays.go:315-330 | a run of ESC…`m` sequences is deleted entirely |
| Render.StripRendered | internal/tui/theme.go:8-23 | stripping escapes from a predefined style applied to ESC-free text gives back the text |
| Render.FrameNewlineFree | internal/tui/overlays.go:271-286 | with a newline-free title and lines, no framed row contains a newline |
| Render.Widest | internal/tui/overlays.go:251-256 | the widest of the title and lines: at least each of them and equal to one of them |
| Render.ContentWidth | internal/tui/overlays.go:247-263 | the content width is the widest line capped at max(10, width-4), with width 80 when not positive |
| Render.Frame | internal/tui/overlays.go:271-286 | len(lines)+4 rows, all of width content+4: top border, title, separator, one row per line, bottom border |
| Render.BoxRows | internal/tui/overlays.go:247-287 | len(lines)+4 rows of equal rune width, the content width plus 4 |
| Render.RenderBoxRows | internal/tui/overlays.go:247-287 | splitting the rendered box at newlines gives back its len(lines)+4 rows, when title and lines are single lines |
| Viewport.NewDiffViewport | internal/tui/viewport.go:13-18 | width 1, height 1, offset 0, no lines, and the offset invariant holds |
| Viewport.Clamp | internal/tui/viewport.go:62-77 | establishes the offset invariant (0 when height ≤ 0, else 0 ≤ y ≤ max(0, len(lines)-height)), changes only y, and leaves a valid offset alone |
| Viewport.SetContent | internal/tui/viewport.go:20-24 | lines are the newline split of the content, the size is kept and the invariant holds |
| Viewport.SetContentLineCount | internal/tui/viewport.go:20-24 | there is one more line than the content has newlines |
| Viewport.Scroll | internal/tui/viewport.go:38-56 | from any offset, a shift by delta then a clamp: the target when in range, else 0 or the largest offset; from a valid offset never past the target nor backwards; the invariant holds |
| Viewport.LineDown | internal/tui/viewport.go:38-41 | from any offset: y+n when in range, else 0 or the largest offset; from a valid offset never up; the invariant holds |
| Viewport.LineUp | internal/tui/viewport.go:43-46 | from any offset: y-n when in range, else 0 or the largest offset; from a valid offset never down; the invariant holds |
| Viewport.PageDown | internal/tui/viewport.go:48-51 | from any offset: y+height when in range, else 0 or the largest offset; from a valid offset never up; the invariant holds |
| Viewport.PageUp | internal/tui/viewport.go:53-56 | from any offset: y-height when in range, else 0 or the largest offset; from a valid offset never down; the invariant holds |
| Viewport.GotoTop | internal/tui/viewport.go:58-60 | sets y to 0 and nothing else; the invariant holds |
| Viewport.PageDownUp | internal/tui/viewport.go:48-56 | a page down and a page up within range return to the start |
| Viewport.View | internal/tui/viewport.go:26-36 | "" when height ≤ 0 or there are no lines; otherwise the lines from y to at most y+height, joined by newlines |
| Viewport.ValidCanView | internal/tui/viewport.go:26-36 | the offset invariant makes the slice in View safe |
| Viewport.ViewShowsWindow | internal/tui/viewport.go:26-36 | the view splits back into exactly the window of lines, at most height of them |
| Viewport.ViewWholeContent | internal/tui/viewport.go:20-36 | a window taller than the content's line count, at the top, shows the content exactly |
| Selection.Move | internal/tui/model.go:106-116 | no change in an empty list; otherwise an index in range nearest to selected+delta |
| Selection.MoveKeepsValid | internal/tui/model.go:106-116 | a valid selection stays valid, and a step that stays inside the list is taken exactly |
| Selection.FilterBy | internal/tui/screens_models.go:121-128 | keeps the elements that pass and only those, in order: a subsequence of the input |
| Selection.FilterByCounts | internal/tui/screens_models.go:121-128 | every element that passes is kept as often as it occurs in the input, and no other element is kept |
| Selection.FilterAllKept | internal/tui/screens_profiles.go:134-135 | when every element passes, filtering returns the list itself |
| Selection.FilterIdempotent | internal/tui/screens_models.go:117-129 | filtering twice by the same test equals filtering once |
| Selection.IndexOf | internal/tui/screens_profiles.go:157-163 | the first index with the key, or none exactly when no element has it |
| ProfilesScreen.InitialSelection | internal/tui/model.go:22-34 | -1 exactly for no profiles, otherwise an index in range |
| ProfilesScreen.NewModel | internal/tui/model.go:22-42 | selection -1 for no profiles; the first profile named activeName when hasActive and there is one; 0 otherwise; every other field at its zero value |
| ProfilesScreen.Init | internal/tui/model.go:44-46 | no command |
| ProfilesScreen.MoveSelection | internal/tui/model.go:106-116 | no change with no profiles; otherwise a selection within the profiles list; nothing else changes |
| ProfilesScreen.Update | internal/tui/model.go:48-63 | `q`/`esc`/`ctrl+c` quit; `j`/`down` and `k`/`up` move; `enter` only sets the status text; the only command is Quit; other keys and messages change nothing |
| ProfilesScreen.UpdateKeepsSelection | internal/tui/model.go:48-63 | Update keeps a valid selection valid and never touches the profiles |
| ProfilesScreen.VisibleFor | internal/tui/screens_profiles.go:134-135 | no filter shows exactly the profiles, in order |
| ProfilesScreen.VisibleMatches | internal/tui/screens_profiles.go:136-145 | the visible profiles are exactly those whose lower-cased name contains the lower-cased filter, each as often as it occurs, as an order-preserving subsequence |
| ProfilesScreen.Reanchor | internal/tui/screens_profiles.go:147-156 | a valid index for the new list; with no previous name, a selection still in range is kept, else 0 |
| ProfilesScreen.ReanchorFinds | internal/tui/screens_profiles.go:157-163 | a previously selected name still visible is selected at its first index; a vanished one gives 0 |
| ProfilesScreen.UpdateProfilesFilter | internal/tui/screens_profiles.go:129-164 | only the visible list and the selection change; the visible list follows the filter and the selection follows the previously selected name; -1 exactly when nothing is visible |
| ProfilesScreen.UpdatedIsCoherent | internal/tui/screens_profiles.go:129-164 | after recomputing, the visible list matches the filter and the selection is valid for it |
| ProfilesScreen.MoveVisibleSelection | internal/tui/screens_profiles.go:98-116 | the corrected move: no change with nothing visible, otherwise a selection within the visible list |
| ProfilesScreen.HandleFilterKey | internal/tui/screens_profiles.go:70-104 | ctrl+u clears the filter; esc and enter leave filter mode keeping the text; backspace/delete drop the last rune of a non-empty filter; rune keys (`j` and `k` too) append; only the arrow keys move, clamped to the visible list (the corrected move of the Findings row); never a command |
| ProfilesScreen.HandleListKey | internal/tui/screens_profiles.go:106-126 | `esc` quits, `/` enters filter mode, `j`/`k`/arrows move clamped to the visible list (the corrected move of the Findings row), enter/e/b/d hand over to the actions they open, and anything else changes nothing with no command |
| ProfilesScreen.HandleProfilesKey | internal/tui/screens_profiles.go:67-127 | filter mode takes the filter keys, otherwise the list keys, both moving with the corrected clamp; the only command the screen issues itself is Quit, and a hand-over leaves the state alone |
| ProfilesScreen.ProfilesKeyKeepsList | internal/tui/screens_profiles.go:67-127 | no key the screen handles changes the profiles or the confirm dialog |
| ProfilesScreen.FilterKeyKeeps | internal/tui/screens_profiles.go:70-104 | no filter-mode key changes the profiles or the dialog, and each keeps the visible list and selection coherent |
| ProfilesScreen.ClearKeeps | internal/tui/screens_profiles.go:71-75 | ctrl+u leaves a coherent screen from any state |
| ProfilesScreen.DeleteKeeps | internal/tui/screens_profiles.go:83-91 | backspace/delete keep the screen coherent |
| ProfilesScreen.TypeKeeps | internal/tui/screens_profiles.go:92-95 | typing leaves a coherent screen from any state |
| ProfilesScreen.FilterMoveKeeps | internal/tui/screens_profiles.go:98-103 | the arrow keys in filter mode keep the screen coherent |
| ProfilesScreen.MoveVisibleKeeps | internal/tui/screens_profiles.go:98-116 | the corrected move keeps a coherent screen coherent and touches neither profiles nor dialog |
| ProfilesScreen.FilterOtherKeeps | internal/tui/screens_profiles.go:76-104 | esc, enter and the keys filter mode ignores change at most the filter-mode flag |
| ProfilesScreen.ListKeyKeepsCoherent | internal/tui/screens_profiles.go:106-126 | every list key the screen handles keeps it coherent |
| ProfilesScreen.HandleProfilesKeyKeepsCoherent | internal/tui/screens_profiles.go:67-127 | every key the screen handles keeps the visible list equal to the filtered profiles and the selection valid for it |
| ProfilesScreen.ClearFilterRestores | internal/tui/screens_profiles.go:71-75 | whatever was typed, ctrl+u restores the full list in its original order |
| ProfilesScreen.FilterGa | internal/tui/screens_profiles.go:136-145 | the filter "ga" over alpha, beta, gamma shows only gamma |
| ProfilesScreen.MoveSelectionLeavesVisibleList | internal/tui/model.go:106-116 | after filtering alpha, beta, gamma to gamma, the move as written selects index 1 of a one-row list, while the corrected move selects 0 |
| AgentsScreen.EntriesFor | internal/tui/screens_agents.go:255-268 | one row per name in order, with its configured model or ""; missing exactly when the model is blank |
| AgentsScreen.CustomAgents | internal/tui/screens_agents.go:269-278 | the configured agents not in the known list, strictly ascending |
| AgentsScreen.CollectAgentEntries | internal/tui/screens_agents.go:252-291 | one row per known agent plus one per other configured agent |
| AgentsScreen.AgentRows | internal/tui/screens_agents.go:252-291 | the first rows are the known agents in order with their models; the rest are every configured unknown agent, once, ascending, with its model; missing exactly when the trimmed model is empty |
| AgentsScreen.RowsLayout | internal/tui/screens_agents.go:279-290 | appending the sorted custom rows after the known rows gives the layout AgentRows states |
| AgentsScreen.EntriesShowMissing | internal/tui/screens_agents.go:255-268 | the known rows marked missing are exactly the agents MissingAgents reports |
| AgentsScreen.MoveAgentsSelection | internal/tui/screens_agents.go:209-220 | no change with no rows; otherwise a selection in range; nothing else changes |
| AgentsScreen.SelectedAgent | internal/tui/screens_agents.go:245-250 | a row exactly when the selection is in range, and it is the selected row |
| AgentsScreen.AnchorAgent | internal/tui/screens_agents.go:228-242 | -1 for no rows; the first row with the selected name; 0 when no name was selected or it is gone |
| AgentsScreen.UpdateAgentsEntries | internal/tui/screens_agents.go:222-243 | only rows and selection change; rows are rebuilt from the configuration and the selection follows the previously selected agent |
| AgentsScreen.OpenAgents | internal/tui/screens_agents.go:57-67 | with no selected profile only the status is set; otherwise a load of the selected profile is issued |
| AgentsScreen.ReloadAgents | internal/tui/screens_agents.go:69-78 | with no loaded profile only the agents status is set; otherwise the loaded profile is loaded again |
| AgentsScreen.HandleAgentsLoad | internal/tui/screens_agents.go:161-178 | an error changes only the status; success shows the agents screen for the profile with fresh rows, first row selected, clean and without status, and nothing else changes |
| AgentsScreen.SaveAgents | internal/tui/screens_agents.go:80-99 | nothing unsaved gives "No changes to save." and no command; no loaded profile gives "No profile loaded."; otherwise a save of the current configuration is issued |
| AgentsScreen.RunSaveAgents | internal/tui/screens_agents.go:90-98 | back up, then save, stopping at the first failure; no error exactly when both succeed |
| AgentsScreen.HandleAgentsSave | internal/tui/screens_agents.go:180-188 | an error is shown and keeps the changes unsaved; success clears the flag and shows "Saved" |
| AgentsScreen.SaveRoundTrip | internal/tui/screens_agents.go:80-99 | after a save the profile is unsaved exactly when the backup or the save failed |
| AgentsScreen.AutofillAgents | internal/tui/screens_agents.go:101-116 | disabled autofill gives its message and no command; no loaded profile gives "No profile loaded."; otherwise an autofill with the "openai" preset is issued |
| AgentsScreen.Filled | internal/tui/screens_agents.go:117-123 | the count filled is the drop in missing agents, never negative, all of them when none remain |
| AgentsScreen.RunAutofillAgents | internal/tui/screens_agents.go:116-134 | reports a change exactly when autofill changed something; only a change is backed up and saved, stopping at the first failure; saved exactly when both succeed; filled = max(0, before - after) |
| AgentsScreen.AutofillCountsAllMissing | internal/tui/screens_agents.go:117-123 | with a non-blank preset model, the count filled is the number of missing agents before |
| AgentsScreen.HandleAgentsAutofill | internal/tui/screens_agents.go:190-207 | an error is shown, and after a change the rows are rebuilt and the profile is unsaved; no change says so; otherwise rows are rebuilt, unsaved exactly when not saved, with the count in the status |
| AgentsScreen.AutofillKeepsCustom | internal/tui/screens_agents.go:269-278 | autofill leaves the set of configured agents outside the known list unchanged |
| AgentsScreen.AutofillKeepsRowCount | internal/tui/screens_agents.go:252-291 | autofill never changes the number of rows |
| AgentsScreen.AutofillRoundTrip | internal/tui/screens_agents.go:101-135 | after an autofill round the profile is unsaved exactly when a change was not saved, a no-change round keeps the flag, and rows and selection stay coherent |
| ModelsScreen.FilterModelList | internal/tui/screens_models.go:117-129 | an empty query returns the list; otherwise exactly the case-insensitive substring matches, each as often as it occurs, as an order-preserving subsequence |
| ModelsScreen.FilterModelListIdempotent | internal/tui/screens_models.go:117-129 | filtering the filtered list again with the same query changes nothing |
| ModelsScreen.UpdateModelFilter | internal/tui/screens_models.go:93-102 | results follow the search; the selection is -1 exactly for no results, kept when still in range, 0 otherwise; nothing else changes |
| ModelsScreen.MoveModelSelection | internal/tui/screens_models.go:104-115 | the selection clamps within the results and nothing else changes |
| ModelsScreen.MoveModelKeepsCoherent | internal/tui/screens_models.go:104-115 | moving keeps the picker coherent, and a step inside the results is exact |
| ModelsScreen.ApplyChosen | internal/tui/screens_models.go:79-90 | a failed set shows its error and returns to the agents screen; a successful one stores the new configuration, marks a change unsaved, rebuilds the rows and re-selects the previously selected agent, and returns; no other field changes |
| ModelsScreen.SelectModel | internal/tui/screens_models.go:72-91 | no selection gives "No model selected." and returns with the configuration untouched; otherwise the target agent's model is set, unsaved only if something changed, the rows are rebuilt with the previously selected agent selected again and no other field changes; it always returns to the agents screen |
| ModelsScreen.HandleModelPickerKey | internal/tui/screens_models.go:41-70 | esc returns to the agents screen untouched; enter selects; backspace/delete drop a rune of a non-empty search; rune keys (`j`/`k` too) append; only arrows move; never a command |
| ModelsScreen.PickerKeyKeepsCoherent | internal/tui/screens_models.go:41-115 | every key keeps the results equal to the filtered list and the selection valid; esc keeps the configuration and does not mark it unsaved |
| ModelsScreen.LettersSearch | internal/tui/screens_models.go:57-60 | `j` and `k` are typed into the search, not moves |
| ModelsScreen.ParseModelList | internal/tui/screens_models.go:144-155 | exactly the trimmed lines that are neither empty nor comments, in file order with repeats; as a set, the cache lines without comments |
| ModelsScreen.ModelLinesIsFilter | internal/tui/screens_models.go:144-155 | the line loop keeps a trimmed line exactly when it is neither empty nor a comment, in order |
| ModelsScreen.ParseModelListIsCacheWithoutComments | internal/tui/screens_models.go:144-155 | the picker's parse is the cache parse with comment lines filtered out, in order |
| ModelsScreen.LoadModelList | internal/tui/screens_models.go:131-168 | never empty: the parsed list, or the eight default models when reading fails or nothing parses |
| TuiActions.DiffAgainstLastBackup | internal/tui/actions.go:27-40 | lookup error gives ("", false, err); no backup ("", false, no error); a failed diff ("", true, err); else (diff, true, no error) |
| TuiActions.HasBackupMeansListed | internal/tui/actions.go:27-40 | hasBackup exactly when the backups list and is non-empty; the diff is against the newest; no backup and no error means an empty listing |
| Profile.MissingAgents | internal/profile/validate.go:9-26 | sorted; for no configuration all known agents; otherwise exactly the known agents absent or with a blank model |
| Profile.NoneMissing | internal/profile/validate.go:15-26 | nothing is missing exactly when every known agent has a non-blank model |
| Profile.PresetByName | internal/profile/autofill.go:12-19 | only "openai" resolves, to the "gpt-4o-mini" preset |
| Profile.FillAgents | internal/profile/autofill.go:30-44 | missing known agents get the preset model, others keep theirs, unknown agents are untouched; changed exactly when some known agent was missing |
| Profile.ApplyAutofill | internal/profile/autofill.go:22-45 | no configuration gives false; otherwise the map of FillAgents, keeping the schema, and true exactly when some known agent was missing |
| Profile.AutofillCompletes | internal/profile/autofill.go:30-44 | with a non-blank preset model nothing is missing afterwards and a second autofill changes nothing |
| Profile.NoneMissingIffUnchanged | internal/profile/autofill.go:30-44 | autofill changes something exactly when MissingAgents is non-empty |
| Profile.ProfilesIn | internal/profile/discover.go:27-46 | exactly the non-directory entries without `.bak.` that extend the profile prefix, named by the rest and joined to the directory, one profile per such entry |
| Profile.DiscoverProfiles | internal/profile/discover.go:20-53 | a listing error is returned; otherwise one profile per profile entry of the listing, sorted by name, each with a non-empty name that is not a backup, and strictly ascending when the listing names each entry once |
| Profile.ProfilesInAscending | internal/profile/discover.go:27-46 | a listing with strictly ascending names gives profiles with distinct names |
| Profile.DiscoverFromReadDir | internal/profile/discover.go:20-53 | over an `os.ReadDir` listing, discovery succeeds and lists each profile once, strictly ascending by name |
| Backup.ProbeName | internal/backup/backup.go:33-42 | candidate 0 is the base; every later candidate strictly extends `base-` |
| Backup.ProbeNameInjective | internal/backup/backup.go:41-42 | different probe numbers give different names, so the probe sequence ends |
| Backup.ProbesCount | internal/backup/backup.go:41-49 | n probes are n distinct names |
| Backup.FirstFree | internal/backup/backup.go:41-49 | the first probe from i that does not exist, every earlier one existing; or the first stat error that is not "not exist" |
| Backup.UniqueBackupName | internal/backup/backup.go:21-50 | the base when free; otherwise the least free `base-i`; the result never names an existing entry; a stat error other than "not exist" is returned |
| Backup.UniqueNameIsLeast | internal/backup/backup.go:21-50 | no free probe comes before the chosen one |
| Backup.BackupActive | internal/backup/backup.go:53-65 | on success the active file is copied under the first free name after `oh-my-opencode.json.bak.<timestamp>`; failure changes nothing |
| Backup.BackupProfile | internal/backup/backup.go:68-87 | an empty name is rejected; a stat error is returned; on success the profile is copied under the first free name after `<profile>.bak.<timestamp>`; failure changes nothing |
| Backup.BackupProfileKeepsProfile | internal/backup/backup.go:78-86 | the backup lands on a name that was free, holds the profile's content, and the profile itself is unchanged |
| Backup.BackupNames | internal/backup/backup.go:99-113 | exactly the names of non-directory entries that strictly extend `<profile>.bak.`, one per such entry |
| Backup.BackupNamesDistinct | internal/backup/backup.go:99-113 | a listing with strictly ascending names gives each backup name once |
| Backup.ListProfileBackups | internal/backup/backup.go:90-119 | an empty name is rejected; a listing error is returned; otherwise exactly the non-directory backups of the profile, each once, in strictly descending order |
| Backup.ListedBackups | internal/backup/backup.go:99-117 | the sorted names are exactly the profile's non-directory backups in the directory |
| Backup.LatestProfileBackup | internal/backup/backup.go:122-131 | errors as the listing; none exactly when the listing is empty; otherwise one of the listed backups |
| Backup.LatestIsGreatest | internal/backup/backup.go:115-131 | the latest backup is the greatest name in the listing |
| Backup.BackupIsListed | internal/backup/backup.go:68-119 | a backup just made shows up among the profile's backups |
| Backup.WrittenIsListed | internal/backup/backup.go:99-113 | a file written under a name that strictly extends `<profile>.bak.` is listed among the profile's backups |
| Backup.RestoreProfileFromBackup | internal/backup/backup.go:134-185 | empty name or path, a missing profile, a backup outside the directory or not extending `<profile>.bak.` are rejected before anything changes; on success a pre-backup is made first, the profile gets the backup's content and the pre-backup path is returned |
| Link.ActiveProfile | internal/link/link.go:13-59 | a missing active path or one that is not a link is no profile; a returned name is non-empty, the link's base is the profile prefix plus the name, contains no `.bak.`, and leads to a non-directory |
| Link.ActiveLinkReported | internal/link/link.go:13-59 | conversely, on any file system, a link whose target's base has the profile prefix, something after it and no `.bak.`, and which stat reaches as a non-directory, reports that profile's name |
| Link.InactiveLinks | internal/link/link.go:31-56 | a link to a backup, to a name without the prefix or with nothing after it, to nothing, or to a directory is no active profile |
| Link.ApplyProfile | internal/link/apply.go:12-57 | an empty name, a missing or directory profile, or an active path that is neither link nor regular file are errors that change nothing; otherwise the active path becomes a link to the profile, replacing a link directly and a regular file only after backing it up under a free name |
| Link.Relink | internal/link/apply.go:34-56 | creating the link succeeds exactly when the directory is writable and sets only the active path |
| Link.ReplacedFile | internal/link/apply.go:50-56 | replacing a regular active file keeps its old content under a name that was free |
| Link.ApplyThenActive | internal/link/apply.go:12-57 | after a successful apply of a profile whose name has no `/` and whose file name has no `.bak.`, ActiveProfile reports that profile |
| ModelCache.CacheLayout | internal/models/cache.go:20-30 | both cache files sit directly in `<configHome>/opencode/moirai` |
| ModelCache.ParseLines | internal/models/cache.go:93-104 | exactly the trimmed input lines that are not empty, in file order with repeats (`#` lines included), each a single trimmed line |
| ModelCache.Serialize | internal/models/cache.go:56-59 | the text ends with a newline exactly when it is non-empty |
| ModelCache.ParseSerialize | internal/models/cache.go:56-59 | parsing the saved text of trimmed, non-empty, single-line entries gives them back in order |
| ModelCache.ParseLinesStable | internal/models/cache.go:56-59 | parsed lists can be stored, and saving and parsing them again changes nothing |
| ModelCache.LoadCachedModels | internal/models/cache.go:34-47 | a missing file is (nothing, false) without error; other read errors are returned; ok exactly when the parse is non-empty |
| ModelCache.SaveThenLoad | internal/models/cache.go:34-59 | loading what was saved gives the same non-empty list with ok set |
| ModelCache.CacheAge | internal/models/cache.go:82-91 | a missing file is (0, false) without error; ok exactly when the file has a modification time, and the age is now minus it |
| Opencode.ParseModels | internal/opencode/models.go:57-74 | strictly ascending, so sorted and without duplicates, and exactly the trimmed non-blank lines |
| Opencode.ParseModelsIsSortedSet | internal/opencode/models.go:57-74 | the result is the sorted list of the set of listed models |
| Opencode.ListModels | internal/opencode/models.go:37-55 | a runner error is returned, with the trimmed stderr appended when non-empty; an empty parse is an error; success is the non-empty parse |
| Opencode.NonBlankOutputLists | internal/opencode/models.go:37-55 | output with a non-blank line lists successfully |
| Util.ExpandUser | internal/util/fs.go:12-25 | only `~` and `~/…` expand, to the home directory and the home joined with the rest; any other path is unchanged; a home lookup error arises only for those forms |
| Util.ExpandedIsAbsolute | internal/util/fs.go:12-25 | with an absolute home every expanded path is absolute |
| Cli.ParseBool | cmd/moirai/main.go:163 | the spellings Go's strconv.ParseBool accepts for true and false, and no others |
| Cli.Others | cmd/moirai/main.go:155-172 | exactly the arguments that are not flag tokens |
| Cli.ParseFrom | cmd/moirai/main.go:155-172 | succeeds exactly when every `=value` is valid; keeps the other arguments in order; the flag counts as set exactly when a token appears, and the last token decides its value |
| Cli.ParseGlobalFlags | cmd/moirai/main.go:152-174 | removes every flag token and keeps the rest in order; set exactly when a flag token appears; the last one wins; unset means disabled |
| Cli.FirstInvalidReported | cmd/moirai/main.go:161-166 | the first invalid `=value` is the error, quoting that value |
| Cli.ParseDiffArgs | cmd/moirai/main.go:284-306 | no arguments is a usage error; `--between` needs exactly two profiles; otherwise only `<profile> --against last-backup` is accepted |
| Cli.RunDoctor | cmd/moirai/main.go:227-246 | a load error exits 1; otherwise it lists MissingAgents, exits 0 exactly when every known agent has a model and 2 exactly when some are missing |
| Cli.SaveBackedUp | cmd/moirai/main.go:388-398 | back up then save: exit 0 exactly when both succeed, else 1 with the first error |
| Cli.FillAndSave | cmd/moirai/main.go:382-398 | no change exits 0 with the directory untouched and nothing missing; a change is backed up and saved, exit 0 or 1 with its error |
| Cli.RunAutofill | cmd/moirai/main.go:362-399 | disabled exits 3; an empty name or an unknown preset exits 1 with its message; a saved configuration is the "openai" autofill of the loaded one, after a backup |
| Fs.Stat | internal/link/link.go:47-53 | a missing name does not exist; success follows links and never yields a link |
| Fs.Lstat | internal/link/link.go:15-24 | a missing name does not exist; success yields the entry itself, link or not |
| Fs.ReadDir | internal/util/fs.go:34-36 | fails exactly when the directory cannot be listed; otherwise every entry once, strictly ascending by name |
| Fs.CopyFile | internal/util/fs.go:44-81 | succeeds exactly when the source reads and the directory is writable, and sets only the destination to the source's content |
| Fs.BaseOfJoin | internal/backup/backup.go:161 | the base name of a path joined from the directory is the entry's name |
| Text.ToLower | internal/tui/screens_profiles.go:137-140 | the same number of runes, each lower-cased on its own (ASCII letters only) |
| Text.TrimSpaceSlice | internal/profile/validate.go:19 | TrimSpace cuts only white space, from the two ends |
| Text.TrimSpaceEmpty | internal/tui/screens_agents.go:266 | the trim is empty exactly when the string is all white space |
| Text.TrimSpaceIdempotent | internal/models/cache.go:97 | trimming twice is trimming once |
| Text.TrimmedLinesIsFilter | internal/models/cache.go:93-104 | the shared line loop keeps each trimmed line exactly when it is not empty: file order, repeats kept |
| Text.SplitCount | internal/tui/viewport.go:22 | splitting gives one more piece than there are separators |
| Text.JoinSplit | internal/tui/viewport.go:22-35 | joining the pieces of a split gives back the string |
| Text.SplitJoin | internal/models/cache.go:56-59 | splitting a join of separator-free pieces gives back the pieces |
| Text.LeIsTotalOrder | internal/backup/backup.go:115-117 | Go's string comparison is a total order |
| Text.ParseItoa | internal/tui/screens_agents.go:205 | the decimal text of a count reads back as that count |
| Text.ItoaInjective | internal/tui/screens_agents.go:205 | different counts give different decimal texts |
| Order.SortBy | internal/profile/discover.go:48-50 | a sorted permutation of the input |
| Order.SortStrings | internal/profile/validate.go:24 | a sorted permutation of the input |
| Order.SortedSet | internal/opencode/models.go:72 | the members of a set, strictly ascending |
| Order.StrictlySortedUnique | internal/opencode/models.go:72 | two strictly ascending lists with the same members are equal |
| Order.SortDescending | internal/backup/backup.go:115-117 | a descending permutation of the input |

## Left out

- Terminal raw mode, window-size queries, screen clearing and frame writes: operating-system I/O. The loop's raw-mode result and input bytes are parameters, and the window size is a parameter function giving the answer to each query in turn: query 0 before the first frame, then one per handled key, so the terminal may be resized between keys.
- Reads and writes of real files (`os.ReadFile`, `CopyFileAtomic`'s temporary file, `SaveProfileAtomic`, `SaveProfileDataAtomic`, `writeFileAtomic`, `MkdirAll`): the directory is a map, and a write either happens whole or not at all.
- `LoadProfile` and the cache's meta JSON: JSON encoding is not modelled. The loaded configuration and save results are parameters.
- `util.Timestamp` and `time.Now`: the timestamp and the current time are parameters.
- `DiffProfiles`, `DiffProfileAgainstFile` and `git diff`: process execution. The diff is a function parameter of `TuiActions.DiffAgainstLastBackup`, and `runDiff`'s own exit codes after dispatch are not modelled.
- `opencode models` process execution and its timeout: the runner's stdout, stderr and error are the input of `Opencode.ListModels`.
- `resolveBackupPath` and `isInConfigDir` (`filepath.Abs`, `EvalSymlinks`): paths outside the one modelled directory. Their results are parameters of `Backup.RestoreProfileFromBackup`.
- `confirmApplySelected`, `openBackups`, `openDiff`, `refreshModelsCmd`, `modelWindow`, `titleArtHeight`, `newModelWithActions`, `normalizeActions`, `selectedProfileInfo`, `openModelPicker`: their code is not part of this model. The profiles screen hands over to them by name (`Delegated`), and `OpenAgents` takes the selected profile as a parameter.
- `profile.SetAgentModel`: not part of this model. `ModelsScreen.SelectModel` takes it as a function parameter.
- Rendering of the screens (`viewProfiles`, `viewAgents`, `viewModels`, `renderStatusBar`, the modal and help renderers): presentation only. `renderBox` and the text helpers are modelled.
- The actions value injected into the model (`m.actions`): commands are data (`TuiState.Cmd`), and the functions that run them take the action results as inputs.
- The "Autofill preset unavailable." branch of `autofillAgents`: `PresetByName("openai")` always succeeds, so the branch is dead.
- The filter-mode fallthrough of `handleProfilesKey` matches `j`/`k`/`down`/`up` by name. Rune keys return earlier, so the model matches the arrow keys by kind, which is equivalent.
- `newModel` does not set `profilesVisible`. The model keeps Go's zero value, so the profiles screen is coherent only after a first filter update. This is as written.
- The two `status` fields of the UI state (a plain string in model.go and screens_agents.go, a status bar in overlays.go) are kept as two fields, `statusLine` and `status`.
- The model-cache refresh, its race and timeout: concurrency. The refresh code is not part of this model.
- Release scripts and their tests: they drive git and shell scripts.
- The loop keeps the old model when the resize update returns nil, and fails when writing a frame fails. Models are never nil here and frames are collected rather than written, so neither case arises.
- Tea.RunCmdChain: a fuel bound stands in for Go's unbounded loop. A chain that runs out of fuel ends with `ChainOutOfFuel`, which Go never returns; `Tea.ChainFuelMonotone` shows the bound does not change a chain that finishes.
- Tea.Loop: the loop is bounded by the input. It ends when the input is used up, which is Go's read error at end of input; the fuel bounds each command chain.
- Fs.PathJoin: `filepath.Join` also cleans the path (`.`, `..`, repeated slashes). The model only joins a directory and one element with `/`.
- Text.ToLower: only ASCII letters are lower-cased. Go's `strings.ToLower` also folds other scripts.
- Text.TrimSpace: uses the Unicode White_Space list Go uses. It cuts the front first and then the back, which gives the same result as Go's one-pass cut.
- Link.ApplyProfile: the `%q` in the "not found" and "is a directory" messages is written as plain double quotes, without Go's escaping of special characters.
- Cli.ParseGlobalFlags: the `%q` in the invalid-value message is likewise plain double quotes. The flags parsed before an invalid token, which Go returns alongside the error, are not part of the result.
- ModelsScreen.ParseModelList: `bufio.Scanner`'s 64 KiB token limit is not modelled. Lines are split at `\n`, and the trimming removes the `\r` the scanner would drop.
- ModelsScreen.LoadModelList: the read of `configs/models.txt` is a parameter.
- Keys.ReadKeyMsg: a read error other than end of input cannot occur, because the input is a finite byte sequence.
- Backup.RestoreProfileFromBackup: the backup's file mode is not modelled; the restored profile gets the backup's content.
- Link.ApplyProfile: the directory has a single `canWrite` flag, so a step cannot fail after an earlier write of the same call succeeded. Go can fail at `os.Remove` or `os.Symlink` after `BackupActive` succeeded (internal/link/apply.go:50-56), leaving the backup behind. It can also fail at `os.Symlink` after removing the old link (internal/link/apply.go:39-44), leaving no active link. The clause "a failure changes nothing" holds only because the model cannot express these partial failures.
- ProfilesScreen.HandleFilterKey: the arrow keys move with `MoveVisibleSelection`, which clamps to the visible list. Go's `moveSelection` clamps to the full list. The as-written move is `ProfilesScreen.MoveSelection`; the difference is the row under "## Findings".
- ProfilesScreen.HandleListKey: `j`, `k` and the arrow keys move with `MoveVisibleSelection` rather than Go's `moveSelection`, for the same reason and with the same Findings row.
- ProfilesScreen.HandleProfilesKey: it is built from the two handlers above, so it moves with the corrected clamp, not Go's.

## Findings

| source | as written | input that shows it | evidently intended | confidence | as-written member | corrected member |
|---|---|---|---|---|---|---|
| internal/tui/model.go:106-116 | `moveSelection` clamps the selection against `profiles`, the full list, though the profiles screen draws and indexes `profilesVisible` | profiles alpha, beta, gamma; filter "ga" (only gamma visible); enter; then `j` selects index 1 in a one-row visible list | clamp against the visible list, as `updateProfilesFilter` does | not executed | ProfilesScreen.MoveSelectionLeavesVisibleList | ProfilesScreen.HandleProfilesKeyKeepsCoherent |

=== FILE: actions.dfy ===
/**
 * The actions the terminal UI calls into (internal/tui/actions.go): the diff
 * of a profile against its latest backup.
 */
module TuiActions {
  import opened Wrappers
  import opened Fs
  import Backup

  /** What `diffAgainstLastBackup` returns: the diff text, whether a backup exists, and the error. */
  datatype DiffResult = DiffResult(diff: string, hasBackup: bool, err: Option<Error>)

  /**
   * `diffAgainstLastBackup`. `diffWith(b)` stands for
   * `profile.DiffProfileAgainstFile` on the profile and backup `b`.
   * Having no backup is not an error.
   */
  function DiffAgainstLastBackup(fs: FileSystem, name: string, diffWith: string -> Result<string, Error>)
    : (r: DiffResult)
    ensures Backup.LatestProfileBackup(fs, name).Failure? ==>
              r == DiffResult("", false, Some(Backup.LatestProfileBackup(fs, name).error))
    ensures Backup.LatestProfileBackup(fs, name) == Success(None) ==> r == DiffResult("", false, None)
    ensures Backup.LatestProfileBackup(fs, name).Success? && Backup.LatestProfileBackup(fs, name).value.Some? ==>
              var b := Backup.LatestProfileBackup(fs, name).value.value;
              && (diffWith(b).Failure? ==> r == DiffResult("", true, Some(diffWith(b).error)))
              && (diffWith(b).Success? ==> r == DiffResult(diffWith(b).value, true, None))
  {
    match Backup.LatestProfileBackup(fs, name)
    case Failure(e) => DiffResult("", false, Some(e))
    case Success(None) => DiffResult("", false, None)
    case Success(Some(b)) =>
      match diffWith(b)
      case Failure(e) => DiffResult("", true, Some(e))
      case Success(d) => DiffResult(d, true, None)
  }

  /**
   * `hasBackup` reports exactly that the profile's backups could be listed and
   * there is one; the diff, when made, is against the newest of them; and a
   * result without an error and without a backup means the listing was empty.
   */
  lemma HasBackupMeansListed(fs: FileSystem, name: string, diffWith: string -> Result<string, Error>)
    ensures var r := DiffAgainstLastBackup(fs, name, diffWith);
      var listed := Backup.ListProfileBackups(fs, name);
      && (r.hasBackup <==> listed.Success? && listed.value != [])
      && (r.hasBackup && r.err.None? ==> r.diff == diffWith(listed.value[0]).value)
      && (!r.hasBackup && r.err.None? <==> listed.Success? && listed.value == [])
      && (!r.hasBackup ==> r.diff == "")
  {
    var listed := Backup.ListProfileBackups(fs, name);
    var latest := Backup.LatestProfileBackup(fs, name);
    assert latest == FirstOf(listed);
    DiffOfListing(listed, latest, DiffAgainstLastBackup(fs, name, diffWith), diffWith);
  }

  /** The newest entry of a listing, as `LatestProfileBackup` picks it. */
  function FirstOf(listed: Result<seq<string>, Error>): (r: Result<Option<string>, Error>)
    ensures r.Failure? <==> listed.Failure?
    ensures r.Success? ==> (r.value.None? <==> listed.value == [])
  {
    match listed
    case Failure(e) => Failure(e)
    case Success(backups) => if |backups| == 0 then Success(None) else Success(Some(backups[0]))
  }

  /** `HasBackupMeansListed` over the listing alone, apart from the file system. */
  lemma DiffOfListing(listed: Result<seq<string>, Error>, latest: Result<Option<string>, Error>, r: DiffResult,
                      diffWith: string -> Result<string, Error>)
    requires latest == FirstOf(listed)
    requires latest.Failure? ==> r == DiffResult("", false, Some(latest.error))
    requires latest == Success(None) ==> r == DiffResult("", false, None)
    requires latest.Success? && latest.value.Some? ==>
               && (diffWith(latest.value.value).Failure? ==> r == DiffResult("", true, Some(diffWith(latest.value.value).error)))
               && (diffWith(latest.value.value).Success? ==> r == DiffResult(diffWith(latest.value.value).value, true, None))
    ensures r.hasBackup <==> listed.Success? && listed.value != []
    ensures r.hasBackup && r.err.None? ==> r.diff == diffWith(listed.value[0]).value
    ensures !r.hasBackup && r.err.None? <==> listed.Success? && listed.value == []
    ensures !r.hasBackup ==> r.diff == ""
  {
  }
}

=== FILE: agents_screen.dfy ===
/**
 * The agents screen (internal/tui/screens_agents.go): the rows derived from a
 * profile's configuration, the selection in them, and the load, save and
 * autofill round trips with their dirty flag.
 *
 * Loading, backing up and saving a profile are injected actions; a command
 * is a `Cmd` value, and running it is a function of what those actions
 * returned.
 */
module AgentsScreen {
  import opened Wrappers
  import opened Text
  import opened Order
  import opened Profile
  import opened Selection
  import opened TuiState

  // ---------------------------------------------------------------------------
  // Rows.

  /** The agents of a possibly nil configuration; a nil one has none. */
  function ConfigAgents(cfg: Option<RootConfig>): map<string, AgentConfig> {
    if cfg.Some? then AgentsOf(cfg.value) else map[]
  }

  /** The configured model of an agent, "" for an absent one. */
  function ModelOf(agents: map<string, AgentConfig>, name: string): string {
    if name in agents then agents[name].model else ""
  }

  function EntryFor(agents: map<string, AgentConfig>, name: string): AgentEntry {
    var model := ModelOf(agents, name);
    AgentEntry(name, model, TrimSpace(model) == "")
  }

  /** One row per name, in order; a row is missing exactly when its model is blank. */
  function EntriesFor(agents: map<string, AgentConfig>, names: seq<string>): (es: seq<AgentEntry>)
    ensures |es| == |names|
    ensures forall i | 0 <= i < |names| :: es[i].name == names[i] && es[i].model == ModelOf(agents, names[i])
    ensures forall i | 0 <= i < |names| :: es[i].missing <==> IsBlank(es[i].model)
  {
    if |names| == 0 then []
    else
      TrimSpaceEmpty(ModelOf(agents, names[0]));
      [EntryFor(agents, names[0])] + EntriesFor(agents, names[1..])
  }

  /** The configured agents that are not known, as a set. */
  function CustomSet(cfg: Option<RootConfig>, known: seq<string>): set<string> {
    set a | a in ConfigAgents(cfg) && a !in known
  }

  /** The configured agents that are not known, in ascending order. */
  function CustomAgents(cfg: Option<RootConfig>, known: seq<string>): (cs: seq<string>)
    ensures StrictlySorted(cs)
    ensures forall a :: a in cs <==> a in ConfigAgents(cfg) && a !in known
    ensures |cs| == |CustomSet(cfg, known)|
  {
    SortedSet(CustomSet(cfg, known))
  }

  function EntryName(e: AgentEntry): string {
    e.name
  }

  /**
   * `collectAgentEntries`: one row per known agent, in the known order, then
   * one per other configured agent, in ascending name order (`AgentRows`).
   */
  function CollectAgentEntries(cfg: Option<RootConfig>, known: seq<string>): (es: seq<AgentEntry>)
    ensures |es| == |known| + |CustomSet(cfg, known)|
  {
    var agents := ConfigAgents(cfg);
    var custom := CustomAgents(cfg, known);
    EntriesFor(agents, known) + EntriesFor(agents, custom)
  }

  /**
   * The rows of `collectAgentEntries`: the known agents in order with their
   * models, then every other configured agent exactly once, in ascending name
   * order. A row is missing exactly when its model is blank, which an absent
   * agent's "" is.
   */
  lemma AgentRows(cfg: Option<RootConfig>, known: seq<string>)
    ensures var es := CollectAgentEntries(cfg, known);
      && (forall i | 0 <= i < |known| :: es[i].name == known[i] && es[i].model == ModelOf(ConfigAgents(cfg), known[i]))
      && (forall i | |known| <= i < |es| ::
            es[i].name in ConfigAgents(cfg) && es[i].name !in known && es[i].model == ConfigAgents(cfg)[es[i].name].model)
      && (forall i, j | |known| <= i < j < |es| :: Lt(es[i].name, es[j].name))
      && (forall a | a in ConfigAgents(cfg) && a !in known :: HasRowFrom(es, |known|, a))
      && (forall i | 0 <= i < |es| :: es[i].missing <==> IsBlank(es[i].model))
  {
    var agents := ConfigAgents(cfg);
    var custom := CustomAgents(cfg, known);
    RowsLayout(agents, known, custom, EntriesFor(agents, known), EntriesFor(agents, custom));
  }

  /** The known rows followed by the custom rows have the layout `collectAgentEntries` promises. */
  lemma RowsLayout(agents: map<string, AgentConfig>, known: seq<string>, custom: seq<string>,
                   first: seq<AgentEntry>, second: seq<AgentEntry>)
    requires StrictlySorted(custom) && forall a :: a in custom <==> a in agents && a !in known
    requires RowsOf(first, agents, known) && RowsOf(second, agents, custom)
    requires forall i | 0 <= i < |first| :: first[i].missing <==> IsBlank(first[i].model)
    requires forall i | 0 <= i < |second| :: second[i].missing <==> IsBlank(second[i].model)
    ensures var es := first + second;
      && |es| == |known| + |custom|
      && (forall i | 0 <= i < |known| :: es[i].name == known[i] && es[i].model == ModelOf(agents, known[i]))
      && (forall i | |known| <= i < |es| ::
            es[i].name in agents && es[i].name !in known && es[i].model == agents[es[i].name].model)
      && (forall i, j | |known| <= i < j < |es| :: Lt(es[i].name, es[j].name))
      && (forall a | a in agents && a !in known :: HasRowFrom(es, |known|, a))
      && (forall i | 0 <= i < |es| :: es[i].missing <==> IsBlank(es[i].model))
  {
    var es := first + second;
    forall i | 0 <= i < |known|
      ensures es[i].name == known[i] && es[i].model == ModelOf(agents, known[i])
    {
      assert es[i] == first[i];
    }
    forall i | 0 <= i < |es|
      ensures es[i].missing <==> IsBlank(es[i].model)
    {
      if i < |first| {
        assert es[i] == first[i];
      } else {
        assert es[i] == second[i - |first|];
      }
    }
    CustomRowsConfigured(agents, known, custom, first, second);
    CustomRowsSorted(agents, custom, first, second);
    CustomRowsComplete(agents, known, custom, first, second);
  }

  /** `rows` are the rows of `names`, in order, each with the agent's configured model. */
  predicate RowsOf(rows: seq<AgentEntry>, agents: map<string, AgentConfig>, names: seq<string>) {
    |rows| == |names| && forall j | 0 <= j < |rows| :: rows[j].name == names[j] && rows[j].model == ModelOf(agents, names[j])
  }

  /** Every row after the known ones is a configured, unknown agent with its own model. */
  lemma CustomRowsConfigured(agents: map<string, AgentConfig>, known: seq<string>, custom: seq<string>,
                             first: seq<AgentEntry>, second: seq<AgentEntry>)
    requires forall a :: a in custom <==> a in agents && a !in known
    requires |first| == |known| && RowsOf(second, agents, custom)
    ensures forall i | |known| <= i < |first + second| ::
      (first + second)[i].name in agents && (first + second)[i].name !in known
      && (first + second)[i].model == agents[(first + second)[i].name].model
  {
    forall i | |known| <= i < |first + second|
      ensures (first + second)[i].name in agents && (first + second)[i].name !in known
      ensures (first + second)[i].model == agents[(first + second)[i].name].model
    {
      var j := i - |known|;
      assert (first + second)[i] == second[j];
      assert custom[j] in custom;
    }
  }

  /** The rows after the known ones are in ascending name order. */
  lemma CustomRowsSorted(agents: map<string, AgentConfig>, custom: seq<string>, first: seq<AgentEntry>, second: seq<AgentEntry>)
    requires StrictlySorted(custom) && RowsOf(second, agents, custom)
    ensures forall i, j | |first| <= i < j < |first + second| :: Lt((first + second)[i].name, (first + second)[j].name)
  {
    forall i, j | |first| <= i < j < |first + second|
      ensures Lt((first + second)[i].name, (first + second)[j].name)
    {
      assert (first + second)[i] == second[i - |first|];
      assert (first + second)[j] == second[j - |first|];
    }
  }

  /** Some row at index `lo` or later is named `a`. */
  predicate HasRowFrom(es: seq<AgentEntry>, lo: nat, a: string) {
    exists i | lo <= i < |es| :: es[i].name == a
  }

  /** Every configured, unknown agent has a row after the known ones. */
  lemma CustomRowsComplete(agents: map<string, AgentConfig>, known: seq<string>, custom: seq<string>,
                           first: seq<AgentEntry>, second: seq<AgentEntry>)
    requires forall a :: a in custom <==> a in agents && a !in known
    requires |first| == |known| && RowsOf(second, agents, custom)
    ensures forall a | a in agents && a !in known :: HasRowFrom(first + second, |known|, a)
  {
    forall a | a in agents && a !in known
      ensures HasRowFrom(first + second, |known|, a)
    {
      assert a in custom;
      var j :| 0 <= j < |custom| && custom[j] == a;
      assert (first + second)[|known| + j] == second[j];
    }
  }

  /** The known rows flag exactly the agents `MissingAgents` reports. */
  lemma EntriesShowMissing(cfg: RootConfig, known: seq<string>)
    ensures var es := CollectAgentEntries(Some(cfg), known);
      forall a :: a in MissingAgents(Some(cfg), known) <==> exists i | 0 <= i < |known| :: es[i].name == a && es[i].missing
  {
    var es := CollectAgentEntries(Some(cfg), known);
    AgentRows(Some(cfg), known);
    var agents := AgentsOf(cfg);
    assert ConfigAgents(Some(cfg)) == agents;
    forall i | 0 <= i < |known|
      ensures es[i].missing <==> IsMissing(agents, known[i])
    {
    }
    forall a
      ensures a in MissingAgents(Some(cfg), known) <==> exists i | 0 <= i < |known| :: es[i].name == a && es[i].missing
    {
      if a in MissingAgents(Some(cfg), known) {
        var i :| 0 <= i < |known| && known[i] == a;
        assert es[i].name == a && es[i].missing;
      }
    }
  }

  // ---------------------------------------------------------------------------
  // Selection.

  /** `moveAgentsSelection`. */
  function MoveAgentsSelection(s: State, delta: int): (r: State)
    ensures |s.agentsEntries| == 0 ==> r == s
    ensures |s.agentsEntries| > 0 ==> 0 <= r.agentsSelected < |s.agentsEntries|
    ensures r.(agentsSelected := s.agentsSelected) == s
  {
    s.(agentsSelected := Move(s.agentsSelected, delta, |s.agentsEntries|))
  }

  /** `selectedAgent`: the selected row, when the selection is in range. */
  function SelectedAgent(s: State): (r: Option<AgentEntry>)
    ensures r.Some? <==> 0 <= s.agentsSelected < |s.agentsEntries|
    ensures r.Some? ==> r.value == s.agentsEntries[s.agentsSelected]
  {
    if s.agentsSelected < 0 || s.agentsSelected >= |s.agentsEntries| then None
    else Some(s.agentsEntries[s.agentsSelected])
  }

  /** The selection in rebuilt rows: the first row named `name`; 0 when there is none or no name; -1 for no rows. */
  function AnchorAgent(es: seq<AgentEntry>, name: string): (r: int)
    ensures ValidIndex(r, |es|)
    ensures name != "" && (exists i | 0 <= i < |es| :: es[i].name == name) ==>
              && 0 <= r < |es| && es[r].name == name
              && forall j | 0 <= j < r :: es[j].name != name
    ensures (name == "" || forall i | 0 <= i < |es| :: es[i].name != name) && |es| > 0 ==> r == 0
  {
    if |es| == 0 then -1
    else if name == "" then 0
    else
      match IndexOf(es, EntryName, name)
      case None => 0
      case Some(i) => i
  }

  /** The name of the selected row, or "" when nothing is selected. */
  function SelectedAgentName(s: State): string {
    match SelectedAgent(s)
    case Some(e) => e.name
    case None => ""
  }

  /**
   * `updateAgentsEntries`: rebuilds the rows from the configuration and
   * selects the previously selected agent again.
   */
  function UpdateAgentsEntries(s: State): (r: State)
    ensures r.(agentsEntries := s.agentsEntries, agentsSelected := s.agentsSelected) == s
    ensures r.agentsEntries == CollectAgentEntries(s.agentsConfig, KnownAgents)
    ensures r.agentsSelected == AnchorAgent(r.agentsEntries, SelectedAgentName(s))
    ensures ValidIndex(r.agentsSelected, |r.agentsEntries|)
  {
    var es := CollectAgentEntries(s.agentsConfig, KnownAgents);
    s.(agentsEntries := es, agentsSelected := AnchorAgent(es, SelectedAgentName(s)))
  }

  // ---------------------------------------------------------------------------
  // Loading.

  /** `agentsLoadMsg`: the profile, its configuration, and the error text of a failed load. */
  datatype LoadMsg = LoadMsg(profile: ProfileInfo, cfg: Option<RootConfig>, err: Option<string>)

  /** `openAgents`, given what `selectedProfileInfo` returned. */
  function OpenAgents(s: State, selected: Option<ProfileInfo>): (r: Step)
    ensures selected.None? ==> r == Step(s.(statusLine := "No profiles available."), None)
    ensures selected.Some? ==> r == Step(s, Some(LoadAgents(selected.value)))
  {
    match selected
    case None => Step(s.(statusLine := "No profiles available."), None)
    case Some(info) => Step(s, Some(LoadAgents(info)))
  }

  /** `reloadAgents`: reloads the shown profile, if one is shown. */
  function ReloadAgents(s: State): (r: Step)
    ensures s.agentsProfile.path == "" ==> r == Step(s.(agentsStatus := "No profile loaded."), None)
    ensures s.agentsProfile.path != "" ==> r == Step(s, Some(LoadAgents(s.agentsProfile)))
  {
    if s.agentsProfile.path == "" then Step(s.(agentsStatus := "No profile loaded."), None)
    else Step(s, Some(LoadAgents(s.agentsProfile)))
  }

  /**
   * `handleAgentsLoad`: a failed load only reports its error; a successful one
   * shows the agents screen for the profile, clean, with the first row selected.
   */
  function HandleAgentsLoad(s: State, msg: LoadMsg): (r: State)
    ensures msg.err.Some? ==> r == s.(statusLine := msg.err.value)
    ensures msg.err.None? ==>
              && r.screen == ScreenAgents && r.agentsProfile == msg.profile && r.agentsConfig == msg.cfg
              && r.agentsEntries == CollectAgentEntries(msg.cfg, KnownAgents)
              && r.agentsSelected == 0 && !r.agentsDirty && r.agentsStatus == ""
    ensures msg.err.None? ==>
              r.(screen := s.screen, agentsProfile := s.agentsProfile, agentsConfig := s.agentsConfig,
                 agentsEntries := s.agentsEntries, agentsSelected := s.agentsSelected, agentsDirty := s.agentsDirty,
                 agentsStatus := s.agentsStatus) == s
  {
    match msg.err
    case Some(e) => s.(statusLine := e)
    case None =>
      var es := CollectAgentEntries(msg.cfg, KnownAgents);
      s.(screen := ScreenAgents, agentsProfile := msg.profile, agentsConfig := msg.cfg, agentsEntries := es,
         agentsSelected := if |es| == 0 then -1 else 0, agentsDirty := false, agentsStatus := "")
  }

  // ---------------------------------------------------------------------------
  // Saving.

  /** `agentsSaveMsg`: the error text of the failed step, if any. */
  datatype SaveMsg = SaveMsg(err: Option<string>)

  /** `saveAgents`: saves only unsaved changes of a loaded profile. */
  function SaveAgents(s: State): (r: Step)
    ensures !s.agentsDirty ==> r == Step(s.(agentsStatus := "No changes to save."), None)
    ensures s.agentsDirty && (s.agentsProfile.name == "" || s.agentsProfile.path == "") ==>
              r == Step(s.(agentsStatus := "No profile loaded."), None)
    ensures r.cmd.Some? <==> s.agentsDirty && s.agentsProfile.name != "" && s.agentsProfile.path != ""
    ensures r.cmd.Some? ==> r == Step(s, Some(SaveCmd(s.configDir, s.agentsProfile, s.agentsConfig)))
  {
    if !s.agentsDirty then Step(s.(agentsStatus := "No changes to save."), None)
    else if s.agentsProfile.name == "" || s.agentsProfile.path == "" then Step(s.(agentsStatus := "No profile loaded."), None)
    else Step(s, Some(SaveCmd(s.configDir, s.agentsProfile, s.agentsConfig)))
  }

  /**
   * Running the save command, given what backing up and saving returned: the
   * backup runs first and its failure is the one reported.
   */
  function RunSaveAgents(backup: Result<string, string>, save: Result<(), string>): (r: SaveMsg)
    ensures backup.Failure? ==> r.err == Some(backup.error)
    ensures backup.Success? && save.Failure? ==> r.err == Some(save.error)
    ensures r.err.None? <==> backup.Success? && save.Success?
  {
    match backup
    case Failure(e) => SaveMsg(Some(e))
    case Success(_) =>
      match save
      case Failure(e) => SaveMsg(Some(e))
      case Success(_) => SaveMsg(None)
  }

  /** `handleAgentsSave`: only a successful save clears the dirty flag. */
  function HandleAgentsSave(s: State, msg: SaveMsg): (r: State)
    ensures msg.err.Some? ==> r == s.(agentsStatus := msg.err.value)
    ensures msg.err.None? ==> r == s.(agentsDirty := false, agentsStatus := "Saved")
  {
    match msg.err
    case Some(e) => s.(agentsStatus := e)
    case None => s.(agentsDirty := false, agentsStatus := "Saved")
  }

  /** After a save round trip, changes stay unsaved unless both the backup and the save succeeded. */
  lemma SaveRoundTrip(s: State, backup: Result<string, string>, save: Result<(), string>)
    requires SaveAgents(s).cmd.Some?
    ensures var r := HandleAgentsSave(SaveAgents(s).state, RunSaveAgents(backup, save));
      r.agentsDirty <==> !(backup.Success? && save.Success?)
  {
  }

  // ---------------------------------------------------------------------------
  // Autofill.

  const AutofillDisabled: string := "Autofill disabled. Run with --enable-autofill."

  /** `autofillAgents`: autofills a loaded profile with the "openai" preset, when autofill is enabled. */
  function AutofillAgents(s: State): (r: Step)
    ensures !s.enableAutofill ==> r == Step(s.(agentsStatus := AutofillDisabled), None)
    ensures s.enableAutofill && (s.agentsProfile.name == "" || s.agentsProfile.path == "") ==>
              r == Step(s.(agentsStatus := "No profile loaded."), None)
    ensures r.cmd.Some? <==> s.enableAutofill && s.agentsProfile.name != "" && s.agentsProfile.path != ""
    ensures r.cmd.Some? ==>
              r == Step(s, Some(AutofillCmd(s.configDir, s.agentsProfile, s.agentsConfig, Preset("openai", "gpt-4o-mini"))))
  {
    if !s.enableAutofill then Step(s.(agentsStatus := AutofillDisabled), None)
    else if s.agentsProfile.name == "" || s.agentsProfile.path == "" then Step(s.(agentsStatus := "No profile loaded."), None)
    else
      match PresetByName("openai")
      case None => Step(s.(agentsStatus := "Autofill preset unavailable."), None)
      case Some(preset) => Step(s, Some(AutofillCmd(s.configDir, s.agentsProfile, s.agentsConfig, preset)))
  }

  /**
   * `agentsAutofillMsg`. The configuration the command filled in is carried
   * back as `cfg` (Go shares it with the model through a pointer).
   */
  datatype AutofillMsg = AutofillMsg(filled: nat, changed: bool, saved: bool, err: Option<string>, cfg: Option<RootConfig>)

  /** How many agents autofill filled: the drop in the number missing, never negative. */
  function Filled(before: nat, after: nat): (n: nat)
    ensures n <= before
    ensures after == 0 ==> n == before
    ensures after >= before ==> n == 0
  {
    if before < after then 0 else before - after
  }

  /**
   * Running the autofill command, given what backing up and saving returned:
   * only a change is backed up and saved, the backup first. `known` is the
   * list of known agents the command captured.
   */
  function RunAutofillAgents(cfg: Option<RootConfig>, known: seq<string>, preset: Preset, backup: Result<string, string>, save: Result<(), string>)
    : (r: AutofillMsg)
    ensures r.changed <==> ApplyAutofill(cfg, known, preset).0
    ensures r.cfg == ApplyAutofill(cfg, known, preset).1
    ensures !r.changed ==> r.err.None? && !r.saved
    ensures r.changed && backup.Failure? ==> r.err == Some(backup.error)
    ensures r.changed && backup.Success? && save.Failure? ==> r.err == Some(save.error)
    ensures r.saved <==> r.changed && backup.Success? && save.Success?
    ensures r.saved ==> r.err.None?
    ensures r.changed && r.err.None? ==> r.saved
    ensures r.filled == Filled(|MissingAgents(cfg, known)|, |MissingAgents(r.cfg, known)|)
  {
    var (changed, after) := ApplyAutofill(cfg, known, preset);
    var filled := Filled(|MissingAgents(cfg, known)|, |MissingAgents(after, known)|);
    if !changed then AutofillMsg(filled, false, false, None, after)
    else
      match backup
      case Failure(e) => AutofillMsg(filled, true, false, Some(e), after)
      case Success(_) =>
        match save
        case Failure(e) => AutofillMsg(filled, true, false, Some(e), after)
        case Success(_) => AutofillMsg(filled, true, true, None, after)
  }

  /** With a usable preset model, the count reported is every agent that was missing. */
  lemma AutofillCountsAllMissing(cfg: RootConfig, preset: Preset, backup: Result<string, string>, save: Result<(), string>)
    requires !IsBlank(preset.model)
    ensures RunAutofillAgents(Some(cfg), KnownAgents, preset, backup, save).filled == |MissingAgents(Some(cfg), KnownAgents)|
  {
    AutofillCompletes(cfg, KnownAgents, preset);
  }

  /**
   * `handleAgentsAutofill`: an error is shown, and a change made before it
   * leaves the profile dirty; no change is reported as such; otherwise the
   * rows are rebuilt and the profile is dirty unless it was saved.
   */
  function HandleAgentsAutofill(s: State, msg: AutofillMsg): (r: State)
    ensures msg.err.Some? && !msg.changed ==> r == s.(agentsStatus := msg.err.value)
    ensures msg.err.Some? && msg.changed ==>
              r == s.(agentsStatus := msg.err.value, agentsDirty := true, agentsConfig := msg.cfg,
                      agentsEntries := CollectAgentEntries(msg.cfg, KnownAgents))
    ensures msg.err.None? && !msg.changed ==> r == s.(agentsStatus := "No missing models to autofill.")
    ensures msg.err.None? && msg.changed ==>
              && r.agentsDirty == !msg.saved && r.agentsConfig == msg.cfg
              && r.agentsEntries == CollectAgentEntries(msg.cfg, KnownAgents)
              && r.agentsStatus == "Autofilled " + Itoa(msg.filled) + " agents"
              && r.(agentsDirty := s.agentsDirty, agentsConfig := s.agentsConfig, agentsEntries := s.agentsEntries,
                    agentsStatus := s.agentsStatus) == s
  {
    match msg.err
    case Some(e) =>
      if msg.changed then
        s.(agentsStatus := e, agentsDirty := true, agentsConfig := msg.cfg,
           agentsEntries := CollectAgentEntries(msg.cfg, KnownAgents))
      else s.(agentsStatus := e)
    case None =>
      if !msg.changed then s.(agentsStatus := "No missing models to autofill.")
      else
        s.(agentsConfig := msg.cfg, agentsEntries := CollectAgentEntries(msg.cfg, KnownAgents),
           agentsDirty := !msg.saved, agentsStatus := "Autofilled " + Itoa(msg.filled) + " agents")
  }

  /** Autofill only adds known agents, so the configured agents outside the known list stay the same. */
  lemma AutofillKeepsCustom(cfg: Option<RootConfig>, known: seq<string>, preset: Preset)
    ensures CustomSet(ApplyAutofill(cfg, known, preset).1, known) == CustomSet(cfg, known)
  {
    if cfg.Some? {
      var after := ApplyAutofill(cfg, known, preset).1;
      var keysAfter := AgentsOf(after.value);
      var keysBefore := AgentsOf(cfg.value);
      assert ConfigAgents(after) == keysAfter;
      assert ConfigAgents(cfg) == keysBefore;
      assert forall b :: b in keysAfter <==> b in keysBefore || b in known;
      forall a
        ensures a in CustomSet(after, known) <==> a in CustomSet(cfg, known)
      {
        assert a in CustomSet(after, known) <==> a in keysAfter && a !in known;
        assert a in CustomSet(cfg, known) <==> a in keysBefore && a !in known;
      }
    }
  }

  /** Autofill adds no agents outside the known list, so it never changes the number of rows. */
  lemma AutofillKeepsRowCount(cfg: Option<RootConfig>, preset: Preset)
    ensures |CollectAgentEntries(ApplyAutofill(cfg, KnownAgents, preset).1, KnownAgents)| == |CollectAgentEntries(cfg, KnownAgents)|
  {
    AutofillKeepsCustom(cfg, KnownAgents, preset);
  }

  /**
   * After an autofill round trip a change is dirty exactly when it was not
   * saved, no change leaves the flag alone, and the selection still indexes
   * the rows.
   */
  lemma AutofillRoundTrip(s: State, backup: Result<string, string>, save: Result<(), string>)
    requires AutofillAgents(s).cmd.Some?
    requires s.agentsEntries == CollectAgentEntries(s.agentsConfig, KnownAgents)
    requires ValidIndex(s.agentsSelected, |s.agentsEntries|)
    ensures var preset := Preset("openai", "gpt-4o-mini");
      var msg := RunAutofillAgents(s.agentsConfig, KnownAgents, preset, backup, save);
      var r := HandleAgentsAutofill(s, msg);
      && (msg.changed ==> (r.agentsDirty <==> !msg.saved))
      && (!msg.changed ==> r.agentsDirty == s.agentsDirty)
      && ValidIndex(r.agentsSelected, |r.agentsEntries|)
      && r.agentsEntries == CollectAgentEntries(r.agentsConfig, KnownAgents)
  {
    var preset := Preset("openai", "gpt-4o-mini");
    var msg := RunAutofillAgents(s.agentsConfig, KnownAgents, preset, backup, save);
    if msg.changed {
      AutofillKeepsRowCount(s.agentsConfig, preset);
      assert |CollectAgentEntries(msg.cfg, KnownAgents)| == |s.agentsEntries|;
    }
  }
}

=== FILE: backup.dfy ===
/**
 * Backups of profile files (internal/backup/backup.go). A backup of
 * `oh-my-opencode.json.<name>` is a copy named
 * `oh-my-opencode.json.<name>.bak.<timestamp>`, made unique by appending
 * `-1`, `-2`, ... when that name is taken. The timestamp is a parameter.
 */
module Backup {
  import opened Wrappers
  import opened Text
  import opened Order
  import opened Fs
  import Selection

  const ActiveFileName: string := "oh-my-opencode.json"
  const ProfilePrefix: string := ActiveFileName + "."
  const BackupMarker: string := ".bak."

  /** What an operation on the directory did to it, and its result. */
  datatype Outcome<T> = Outcome(fs: FileSystem, result: Result<T, Error>)

  // ---------------------------------------------------------------------------
  // Unique names.

  /** The `i`-th candidate name: the base itself, then `base-1`, `base-2`, ... */
  function ProbeName(base: string, i: nat): (r: string)
    ensures i == 0 ==> r == base
    ensures i > 0 ==> |r| > |base| + 1 && HasPrefix(r, base + "-")
  {
    if i == 0 then base else base + "-" + Itoa(i)
  }

  /** Different indices give different candidates. */
  lemma ProbeNameInjective(base: string, i: nat, j: nat)
    requires ProbeName(base, i) == ProbeName(base, j)
    ensures i == j
  {
    if i > 0 && j > 0 {
      var n := |base| + 1;
      assert Itoa(i) == ProbeName(base, i)[n..];
      assert Itoa(j) == ProbeName(base, j)[n..];
      ItoaInjective(i, j);
    }
  }

  /** The first `n` candidates. */
  function Probes(base: string, n: nat): (s: set<string>)
    ensures forall j | 0 <= j < n :: ProbeName(base, j) in s
  {
    if n == 0 then {} else Probes(base, n - 1) + {ProbeName(base, n - 1)}
  }

  lemma {:induction false} ProbesOnly(base: string, n: nat, x: string)
    requires x in Probes(base, n)
    ensures exists j | 0 <= j < n :: x == ProbeName(base, j)
  {
    if x != ProbeName(base, n - 1) {
      ProbesOnly(base, n - 1, x);
    }
  }

  /** The first `n` candidates are `n` different names. */
  lemma {:induction false} ProbesCount(base: string, n: nat)
    ensures |Probes(base, n)| == n
  {
    if n > 0 {
      ProbesCount(base, n - 1);
      if ProbeName(base, n - 1) in Probes(base, n - 1) {
        ProbesOnly(base, n - 1, ProbeName(base, n - 1));
        var j :| 0 <= j < n - 1 && ProbeName(base, n - 1) == ProbeName(base, j);
        ProbeNameInjective(base, n - 1, j);
      }
    }
  }

  /** When the first `n` candidates all exist, the directory has at least `n` entries. */
  lemma OccupiedBound(fs: FileSystem, base: string, n: nat)
    requires forall j | 0 <= j < n :: ProbeName(base, j) in fs.entries
    ensures n <= |fs.entries|
  {
    ProbesCount(base, n);
    forall x | x in Probes(base, n)
      ensures x in fs.entries.Keys
    {
      ProbesOnly(base, n, x);
    }
    assert Probes(base, n) <= fs.entries.Keys;
    LemmaSubsetSize(Probes(base, n), fs.entries.Keys);
  }

  lemma LemmaSubsetSize<T>(a: set<T>, b: set<T>)
    requires a <= b
    ensures |a| <= |b|
  {
    assert b == a + (b - a);
  }

  /**
   * The probing loop of `uniqueBackupPath` from candidate `i` on: a candidate
   * whose `stat` reports absence is taken, one that exists is skipped, and any
   * other `stat` failure is returned. It stops because every skipped candidate
   * is a different existing entry.
   */
  function FirstFree(fs: FileSystem, base: string, i: nat): (r: Result<nat, Error>)
    requires forall j | 0 <= j < i :: ProbeName(base, j) in fs.entries
    ensures r.Success? ==> r.value >= i && IsNotExist(Stat(fs, ProbeName(base, r.value)))
    ensures r.Success? ==> forall j | i <= j < r.value :: Stat(fs, ProbeName(base, j)).Success?
    ensures r.Failure? ==> exists k | k >= i ::
              && Stat(fs, ProbeName(base, k)) == Failure(r.error)
              && !r.error.NotExist?
              && forall j | i <= j < k :: Stat(fs, ProbeName(base, j)).Success?
    decreases |fs.entries| + 1 - i
  {
    OccupiedBound(fs, base, i);
    match Stat(fs, ProbeName(base, i))
    case Success(_) =>
      FirstFree(fs, base, i + 1)
    case Failure(e) =>
      if e.NotExist? then Success(i) else Failure(e)
  }

  /**
   * `uniqueBackupPath`, returning the entry name (the path is the directory
   * joined with it): the first candidate `stat` reports absent, unless a
   * `stat` fails for another reason first.
   */
  function UniqueBackupName(fs: FileSystem, base: string): (r: Result<string, Error>)
    ensures IsNotExist(Stat(fs, base)) ==> r == Success(base)
    ensures r.Success? ==> IsNotExist(Stat(fs, r.value))
    ensures r.Success? ==> r.value !in fs.entries || fs.entries[r.value].Symlink?
    ensures r.Success? ==> exists k: nat ::
              && r.value == ProbeName(base, k)
              && forall j | 0 <= j < k :: Stat(fs, ProbeName(base, j)).Success?
    ensures r.Failure? ==> !r.error.NotExist? && exists k ::
              Stat(fs, ProbeName(base, k)) == Failure(r.error)
  {
    match FirstFree(fs, base, 0)
    case Success(k) => Success(ProbeName(base, k))
    case Failure(e) => Failure(e)
  }

  /** The name probing settles on is the least free candidate. */
  lemma UniqueNameIsLeast(fs: FileSystem, base: string, i: nat)
    requires UniqueBackupName(fs, base).Success?
    requires IsNotExist(Stat(fs, ProbeName(base, i)))
    ensures exists k: nat | k <= i :: UniqueBackupName(fs, base).value == ProbeName(base, k)
  {
    var k: nat :| UniqueBackupName(fs, base).value == ProbeName(base, k)
      && forall j | 0 <= j < k :: Stat(fs, ProbeName(base, j)).Success?;
    if i < k {
      assert false;
    }
  }

  // ---------------------------------------------------------------------------
  // Making backups.

  /** `BackupActive`: copies the active file to a fresh backup name; returns the backup path. */
  function BackupActive(fs: FileSystem, dir: string, timestamp: string): (r: Outcome<string>)
    ensures r.result.Failure? ==> r.fs == fs
    ensures r.result.Success? ==> exists b ::
              && UniqueBackupName(fs, ActiveFileName + BackupMarker + timestamp) == Success(b)
              && r.result.value == PathJoin(dir, b)
              && ReadFile(fs, ActiveFileName).Success?
              && r.fs == fs.(entries := fs.entries[b := File(ReadFile(fs, ActiveFileName).value)])
  {
    match UniqueBackupName(fs, ActiveFileName + BackupMarker + timestamp)
    case Failure(e) => Outcome(fs, Failure(e))
    case Success(b) =>
      match CopyFile(fs, ActiveFileName, b)
      case Failure(e) => Outcome(fs, Failure(e))
      case Success(fs1) => Outcome(fs1, Success(PathJoin(dir, b)))
  }

  /** The entry name of a profile's file. */
  function ProfileFile(name: string): string {
    ProfilePrefix + name
  }

  /** What every backup name of a profile starts with. */
  function BackupPrefix(name: string): string {
    ProfileFile(name) + BackupMarker
  }

  /**
   * `BackupProfile`: the profile must be named and `stat` successfully; it is
   * copied to the first free name after `<profile file>.bak.<timestamp>`.
   */
  function BackupProfile(fs: FileSystem, dir: string, name: string, timestamp: string): (r: Outcome<string>)
    ensures name == "" ==> r == Outcome(fs, Failure(Failed("profile name is required")))
    ensures r.result.Failure? ==> r.fs == fs
    ensures name != "" && Stat(fs, ProfileFile(name)).Failure? ==>
              r == Outcome(fs, Failure(Stat(fs, ProfileFile(name)).error))
    ensures r.result.Success? ==> exists b ::
              && UniqueBackupName(fs, BackupPrefix(name) + timestamp) == Success(b)
              && r.result.value == PathJoin(dir, b)
              && ReadFile(fs, ProfileFile(name)).Success?
              && r.fs == fs.(entries := fs.entries[b := File(ReadFile(fs, ProfileFile(name)).value)])
  {
    if name == "" then Outcome(fs, Failure(Failed("profile name is required")))
    else
      var file := ProfileFile(name);
      match Stat(fs, file)
      case Failure(e) => Outcome(fs, Failure(e))
      case Success(_) =>
        match UniqueBackupName(fs, BackupPrefix(name) + timestamp)
        case Failure(e) => Outcome(fs, Failure(e))
        case Success(b) =>
          match CopyFile(fs, file, b)
          case Failure(e) => Outcome(fs, Failure(e))
          case Success(fs1) => Outcome(fs1, Success(PathJoin(dir, b)))
  }

  /** A backup is made under a name that was free, and the profile's own file is left as it was. */
  lemma BackupProfileKeepsProfile(fs: FileSystem, dir: string, name: string, timestamp: string)
    requires BackupProfile(fs, dir, name, timestamp).result.Success?
    ensures var r := BackupProfile(fs, dir, name, timestamp);
      exists b :: r.result.value == PathJoin(dir, b) && IsNotExist(Stat(fs, b))
        && b in r.fs.entries && r.fs.entries[b] == File(ReadFile(fs, ProfileFile(name)).value)
        && ProfileFile(name) in r.fs.entries && r.fs.entries[ProfileFile(name)] == fs.entries[ProfileFile(name)]
  {
    var r := BackupProfile(fs, dir, name, timestamp);
    var b :| UniqueBackupName(fs, BackupPrefix(name) + timestamp) == Success(b)
      && r.result.value == PathJoin(dir, b)
      && r.fs == fs.(entries := fs.entries[b := File(ReadFile(fs, ProfileFile(name)).value)]);
    assert b != ProfileFile(name);
  }

  // ---------------------------------------------------------------------------
  // Listing backups.

  /** An entry is a backup of profile `name`: not a directory, the backup prefix, and something after it. */
  predicate IsBackupOf(name: string, e: DirEntry) {
    !e.isDir && HasPrefix(e.name, BackupPrefix(name)) && |e.name| != |BackupPrefix(name)|
  }

  /** The names of the profile's backups, one per backup entry, in the listing's order. */
  function BackupNames(name: string, entries: seq<DirEntry>): (r: seq<string>)
    ensures forall x :: x in r <==> exists e | e in entries && IsBackupOf(name, e) :: x == e.name
    ensures |r| == |Selection.FilterBy(entries, e => IsBackupOf(name, e))|
  {
    if |entries| == 0 then []
    else
      var e := entries[0];
      assert entries == [e] + entries[1..];
      var rest := BackupNames(name, entries[1..]);
      if IsBackupOf(name, e) then [e.name] + rest else rest
  }

  /** When every entry name follows `lo`, so does every backup name. */
  lemma {:induction false} BackupNamesAbove(name: string, entries: seq<DirEntry>, lo: string)
    requires forall i | 0 <= i < |entries| :: Lt(lo, entries[i].name)
    ensures forall k | 0 <= k < |BackupNames(name, entries)| :: Lt(lo, BackupNames(name, entries)[k])
    decreases |entries|
  {
    if |entries| > 0 {
      assert forall i | 0 <= i < |entries[1..]| :: entries[1..][i] == entries[i + 1];
      BackupNamesAbove(name, entries[1..], lo);
    }
  }

  /** A listing with ascending names yields each backup name once. */
  lemma {:induction false} BackupNamesDistinct(name: string, entries: seq<DirEntry>)
    requires NamesAscending(entries)
    ensures DistinctKeys(BackupNames(name, entries), Id)
    decreases |entries|
  {
    if |entries| > 0 {
      var e := entries[0];
      var tail := entries[1..];
      AscendingTail(entries);
      var rest := BackupNames(name, tail);
      BackupNamesDistinct(name, tail);
      if IsBackupOf(name, e) {
        BackupNamesAbove(name, tail, e.name);
        assert BackupNames(name, entries) == [e.name] + rest;
        PrependDistinct(e.name, rest, Id);
      }
    }
  }

  /** `ListProfileBackups`: the profile's backup names, newest (greatest) first. */
  function ListProfileBackups(fs: FileSystem, name: string): (r: Result<seq<string>, Error>)
    ensures name == "" ==> r == Failure(Failed("profile name is required"))
    ensures name != "" ==> (r.Failure? <==> ReadDir(fs).Failure?)
    ensures r.Success? ==> SortedDescending(r.value)
    ensures r.Success? ==> forall i, j | 0 <= i < j < |r.value| :: Lt(r.value[j], r.value[i])
    ensures r.Success? ==> forall x :: x in r.value <==>
              x in fs.entries && !fs.entries[x].Directory? && HasPrefix(x, BackupPrefix(name)) && |x| > |BackupPrefix(name)|
  {
    if name == "" then Failure(Failed("profile name is required"))
    else
      match ReadDir(fs)
      case Failure(e) => Failure(e)
      case Success(entries) =>
        var names := BackupNames(name, entries);
        var sorted := SortDescending(names);
        ListedBackups(fs, name, entries, sorted);
        BackupNamesDistinct(name, entries);
        PermKeepsDistinctKeys(names, sorted, Id);
        Success(sorted)
  }

  /** Any ordering of the backup names of a full listing holds exactly the profile's backup files. */
  lemma ListedBackups(fs: FileSystem, name: string, entries: seq<DirEntry>, sorted: seq<string>)
    requires forall e :: e in entries <==> Lists(fs, e)
    requires multiset(sorted) == multiset(BackupNames(name, entries))
    ensures forall x :: x in sorted <==>
              x in fs.entries && !fs.entries[x].Directory? && HasPrefix(x, BackupPrefix(name)) && |x| > |BackupPrefix(name)|
  {
    var names := BackupNames(name, entries);
    forall x
      ensures x in sorted <==>
                x in fs.entries && !fs.entries[x].Directory? && HasPrefix(x, BackupPrefix(name)) && |x| > |BackupPrefix(name)|
    {
      assert x in sorted <==> x in multiset(sorted);
      assert x in names <==> x in multiset(names);
      if x in fs.entries && !fs.entries[x].Directory? && HasPrefix(x, BackupPrefix(name)) && |x| > |BackupPrefix(name)| {
        assert Lists(fs, DirEntry(x, false));
      }
    }
  }

  /** `LatestProfileBackup`: the first listed backup, if any. */
  function LatestProfileBackup(fs: FileSystem, name: string): (r: Result<Option<string>, Error>)
    ensures r.Failure? <==> ListProfileBackups(fs, name).Failure?
    ensures r.Success? ==> (r.value.None? <==> ListProfileBackups(fs, name).value == [])
    ensures r.Success? && r.value.Some? ==> r.value.value in ListProfileBackups(fs, name).value
  {
    match ListProfileBackups(fs, name)
    case Failure(e) => Failure(e)
    case Success(backups) => if |backups| == 0 then Success(None) else Success(Some(backups[0]))
  }

  /** The latest backup is the greatest backup name. */
  lemma LatestIsGreatest(fs: FileSystem, name: string)
    requires LatestProfileBackup(fs, name).Success? && LatestProfileBackup(fs, name).value.Some?
    ensures forall x | x in ListProfileBackups(fs, name).value :: Le(x, LatestProfileBackup(fs, name).value.value)
  {
    var bs := ListProfileBackups(fs, name).value;
    forall x | x in bs
      ensures Le(x, bs[0])
    {
      var i :| 0 <= i < |bs| && bs[i] == x;
      if i == 0 {
        LeRefl(x);
      }
    }
  }

  /** A backup that was just made appears among the profile's backups when the directory can be listed. */
  lemma BackupIsListed(fs: FileSystem, dir: string, name: string, timestamp: string)
    requires timestamp != ""
    requires BackupProfile(fs, dir, name, timestamp).result.Success?
    requires fs.canList
    ensures var r := BackupProfile(fs, dir, name, timestamp);
      exists b :: r.result.value == PathJoin(dir, b) && b in ListProfileBackups(r.fs, name).value
  {
    var r := BackupProfile(fs, dir, name, timestamp);
    var base := BackupPrefix(name) + timestamp;
    var b :| UniqueBackupName(fs, base) == Success(b)
      && r.result.value == PathJoin(dir, b)
      && r.fs == fs.(entries := fs.entries[b := File(ReadFile(fs, ProfileFile(name)).value)]);
    var k: nat :| b == ProbeName(base, k);
    ProbeKeepsPrefix(base, BackupPrefix(name), k);
    WrittenIsListed(fs, name, b, File(ReadFile(fs, ProfileFile(name)).value));
  }

  /** Every candidate name extends a base that is longer than the prefix it starts with. */
  lemma ProbeKeepsPrefix(base: string, p: string, k: nat)
    requires HasPrefix(base, p) && |base| > |p|
    ensures HasPrefix(ProbeName(base, k), p) && |ProbeName(base, k)| > |p|
  {
    if k > 0 {
      assert ProbeName(base, k)[..|base|] == base;
    }
  }

  /** A file written under a backup name of the profile is listed among its backups. */
  lemma WrittenIsListed(fs: FileSystem, name: string, b: string, f: Node)
    requires fs.canList && f.File? && name != ""
    requires HasPrefix(b, BackupPrefix(name)) && |b| > |BackupPrefix(name)|
    ensures b in ListProfileBackups(fs.(entries := fs.entries[b := f]), name).value
  {
  }

  // ---------------------------------------------------------------------------
  // Restoring.

  /**
   * `RestoreProfileFromBackup`. Two steps that need the real path machinery
   * are inputs: `resolved` is what `resolveBackupPath(dir, from)` returns, and
   * `placement` what `isInConfigDir` decides about it: an error, `None` when
   * the resolved file is not directly in the directory, or `Some(entry)` with
   * the entry the resolved path names there. After the checks the profile is
   * backed up, then overwritten with the backup's bytes; the result is the
   * path of that safety backup.
   */
  function RestoreProfileFromBackup(fs: FileSystem, dir: string, name: string, from: string, timestamp: string,
                                    resolved: Result<string, Error>, placement: Result<Option<string>, Error>)
    : (r: Outcome<string>)
    ensures name == "" ==> r == Outcome(fs, Failure(Failed("profile name is required")))
    ensures name != "" && from == "" ==> r == Outcome(fs, Failure(Failed("backup path is required")))
    ensures name != "" && from != "" && Stat(fs, ProfileFile(name)).Failure? ==>
              r == Outcome(fs, Failure(Stat(fs, ProfileFile(name)).error))
    ensures name != "" && from != "" && Stat(fs, ProfileFile(name)).Success? && resolved.Success? &&
            placement == Success(None) ==>
              r == Outcome(fs, Failure(Failed("backup must be in config dir")))
    ensures r.result.Success? ==>
              && name != "" && from != "" && resolved.Success? && placement.Success? && placement.value.Some?
              && HasPrefix(Base(resolved.value), BackupPrefix(name))
              && |Base(resolved.value)| > |BackupPrefix(name)|
    ensures name != "" && from != "" && Stat(fs, ProfileFile(name)).Success? && resolved.Success? &&
            placement.Success? && placement.value.Some? &&
            !(HasPrefix(Base(resolved.value), BackupPrefix(name)) && |Base(resolved.value)| > |BackupPrefix(name)|) ==>
              r == Outcome(fs, Failure(Failed("backup does not match profile")))
    ensures r.result.Success? ==>
              var pre, entry := BackupProfile(fs, dir, name, timestamp), placement.value.value;
              && pre.result.Success? && r.result.value == pre.result.value
              && ReadFile(pre.fs, entry).Success?
              && r.fs == pre.fs.(entries := pre.fs.entries[ProfileFile(name) := File(ReadFile(pre.fs, entry).value)])
    ensures r.result.Failure? && BackupProfile(fs, dir, name, timestamp).result.Failure? ==> r.fs == fs
  {
    if name == "" then Outcome(fs, Failure(Failed("profile name is required")))
    else if from == "" then Outcome(fs, Failure(Failed("backup path is required")))
    else
      var file := ProfileFile(name);
      match Stat(fs, file)
      case Failure(e) => Outcome(fs, Failure(e))
      case Success(_) =>
        match resolved
        case Failure(e) => Outcome(fs, Failure(e))
        case Success(backupPath) =>
          match placement
          case Failure(e) => Outcome(fs, Failure(e))
          case Success(None) => Outcome(fs, Failure(Failed("backup must be in config dir")))
          case Success(Some(entry)) =>
            var base := Base(backupPath);
            var prefix := BackupPrefix(name);
            if !HasPrefix(base, prefix) || |base| == |prefix| then
              Outcome(fs, Failure(Failed("backup does not match profile")))
            else
              var pre := BackupProfile(fs, dir, name, timestamp);
              match pre.result
              case Failure(e) => Outcome(fs, Failure(e))
              case Success(prePath) =>
                var fs1 := pre.fs;
                match ReadFile(fs1, entry)
                case Failure(e) => Outcome(fs1, Failure(e))
                case Success(data) =>
                  match Put(fs1, file, File(data))
                  case Failure(e) => Outcome(fs1, Failure(e))
                  case Success(fs2) =>
                    Outcome(fs2, Success(prePath))
  }
}

=== FILE: cache.dfy ===
/**
 * The cached model list (internal/models/cache.go): one model per line in
 * `models.txt`, next to `models.meta.json`, both under
 * `<config home>/opencode/moirai`.
 */
module ModelCache {
  import opened Wrappers
  import opened Text
  import opened Fs

  function CacheDir(configHome: string): string {
    PathJoin(PathJoin(configHome, "opencode"), "moirai")
  }

  function ModelsPath(configHome: string): string {
    PathJoin(CacheDir(configHome), "models.txt")
  }

  function MetaPath(configHome: string): string {
    PathJoin(CacheDir(configHome), "models.meta.json")
  }

  /** Both cache files sit directly in the cache directory, which sits under the configuration home. */
  lemma CacheLayout(configHome: string)
    requires configHome != ""
    ensures CacheDir(configHome) == configHome + "/opencode/moirai"
    ensures ModelsPath(configHome) == CacheDir(configHome) + "/models.txt"
    ensures MetaPath(configHome) == CacheDir(configHome) + "/models.meta.json"
  {
    assert PathJoin(configHome, "opencode") == configHome + "/opencode";
    assert CacheDir(configHome) == configHome + "/opencode" + "/moirai";
  }

  /**
   * `parseLines`: the trimmed non-blank lines of the file, in order and with
   * repeats; `#` lines are kept.
   */
  function ParseLines(data: string): (r: seq<string>)
    ensures r == Selection.FilterBy(TrimEach(Split(data, '\n')), NonBlank)
    ensures forall i | 0 <= i < |r| :: r[i] != "" && IsTrimmed(r[i]) && '\n' !in r[i]
    ensures forall x :: x in r <==> x != "" && TrimOfSome(x, Split(data, '\n'))
  {
    var lines := Split(data, '\n');
    var r := TrimmedLines(lines);
    TrimmedLinesIsFilter(lines);
    TrimmedLinesMembers(lines);
    forall i | 0 <= i < |r|
      ensures '\n' !in r[i]
    {
      assert r[i] in r && TrimOfSome(r[i], lines);
      var l :| l in lines && r[i] == TrimSpace(l);
      TrimSpaceWithout(l, '\n');
    }
    r
  }

  /** The text `SaveCachedModelsAtomic` writes to `models.txt`. */
  function Serialize(models: seq<string>): (text: string)
    ensures models == [] ==> text == ""
    ensures text != "" ==> text[|text| - 1] == '\n'
    ensures text != "" <==> Join(models, '\n') != ""
  {
    var content := Join(models, '\n');
    if content == "" then "" else content + "\n"
  }

  /** A list the cache can hold: every entry non-blank, trimmed and on one line. */
  predicate Storable(models: seq<string>) {
    forall i | 0 <= i < |models| :: models[i] != "" && IsTrimmed(models[i]) && '\n' !in models[i]
  }

  /** Reading back what was saved gives the same list. */
  lemma ParseSerialize(models: seq<string>)
    requires Storable(models)
    ensures ParseLines(Serialize(models)) == models
  {
    if models == [] {
      assert Split("", '\n') == [""];
      TrimmedLinesKeeps([], [""]);
    } else {
      JoinAppend(models, "", '\n');
      assert Serialize(models) == Join(models + [""], '\n');
      SplitJoin(models + [""], '\n');
      TrimmedLinesKeeps(models, [""]);
    }
  }

  /** Whatever the file held, what is read is storable, so saving it and reading again changes nothing. */
  lemma ParseLinesStable(data: string)
    ensures Storable(ParseLines(data))
    ensures ParseLines(Serialize(ParseLines(data))) == ParseLines(data)
  {
    ParseSerialize(ParseLines(data));
  }

  /**
   * `LoadCachedModels` over the result of reading `models.txt`: a missing file
   * and an empty list are both "no cache" (`ok` false) without an error.
   */
  function LoadCachedModels(read: Result<string, Error>): (r: Result<(seq<string>, bool), Error>)
    ensures IsNotExist(read) ==> r == Success(([], false))
    ensures read.Failure? && !read.error.NotExist? ==> r == Failure(read.error)
    ensures read.Success? ==> r.Success? && (r.value.1 <==> ParseLines(read.value) != [])
    ensures r.Success? && r.value.1 ==> r.value.0 == ParseLines(read.value)
    ensures r.Success? && !r.value.1 ==> r.value.0 == []
  {
    match read
    case Failure(e) => if e.NotExist? then Success(([], false)) else Failure(e)
    case Success(data) =>
      var models := ParseLines(data);
      if |models| == 0 then Success(([], false)) else Success((models, true))
  }

  /** A saved non-empty list loads back as a cache hit with the same entries. */
  lemma SaveThenLoad(models: seq<string>)
    requires Storable(models) && models != []
    ensures LoadCachedModels(Success(Serialize(models))) == Success((models, true))
  {
    ParseSerialize(models);
  }

  /**
   * `CacheAge` over the result of `stat` on `models.txt` (its modification
   * time) and the current time: `ok` is false, without an error, only for a
   * missing file.
   */
  function CacheAge(modTime: Result<int, Error>, now: int): (r: Result<(int, bool), Error>)
    ensures IsNotExist(modTime) <==> r == Success((0, false))
    ensures modTime.Success? <==> r.Success? && r.value.1
    ensures modTime.Success? ==> r.value.0 + modTime.value == now
    ensures modTime.Failure? && !modTime.error.NotExist? ==> r == Failure(modTime.error)
  {
    match modTime
    case Failure(e) => if e.NotExist? then Success((0, false)) else Failure(e)
    case Success(t) => Success((now - t, true))
  }
}

=== FILE: cli.dfy ===
/**
 * Argument handling of the command-line tool (cmd/moirai/main.go): the global
 * `--enable-autofill` flag, the shapes `diff` accepts, and the exit codes of
 * `doctor` and `autofill`. Output to the terminal is left out; the exit code
 * and the error are what each function returns.
 */
module Cli {
  import opened Wrappers
  import opened Text
  import opened Fs
  import Profile
  import Backup

  // ---------------------------------------------------------------------------
  // Global flags.

  /** `strconv.ParseBool`. */
  function ParseBool(v: string): (r: Option<bool>)
    ensures r == Some(true) <==> v in {"1", "t", "T", "TRUE", "true", "True"}
    ensures r == Some(false) <==> v in {"0", "f", "F", "FALSE", "false", "False"}
  {
    if v in {"1", "t", "T", "TRUE", "true", "True"} then Some(true)
    else if v in {"0", "f", "F", "FALSE", "false", "False"} then Some(false)
    else None
  }

  datatype GlobalFlags = GlobalFlags(enableAutofill: bool, enableAutofillSet: bool)

  const FlagName: string := "--enable-autofill"
  const FlagAssign: string := "--enable-autofill="

  /** A token that sets the flag: the bare flag or the `=value` form. */
  predicate IsFlagToken(arg: string) {
    arg == FlagName || HasPrefix(arg, FlagAssign)
  }

  /** The value a flag token sets, if it is valid. */
  function FlagValue(arg: string): Option<bool>
    requires IsFlagToken(arg)
  {
    if arg == FlagName then Some(true) else ParseBool(TrimPrefix(arg, FlagAssign))
  }

  function InvalidValue(value: string): string {
    "invalid value for --enable-autofill: \"" + value + "\""
  }

  /** The arguments that are not flag tokens, in order. */
  function Others(args: seq<string>): (r: seq<string>)
    ensures forall x :: x in r <==> x in args && !IsFlagToken(x)
    ensures |r| <= |args|
  {
    if |args| == 0 then []
    else
      assert args == [args[0]] + args[1..];
      if IsFlagToken(args[0]) then Others(args[1..]) else [args[0]] + Others(args[1..])
  }

  /**
   * The loop of `parseGlobalFlags` from `args` on, with the flags set so far:
   * flag tokens update the flags, later ones overriding earlier ones, and the
   * first invalid value stops the scan with an error.
   */
  function ParseFrom(args: seq<string>, flags: GlobalFlags): (r: Result<(seq<string>, GlobalFlags), string>)
    ensures r.Success? ==> r.value.0 == Others(args)
    ensures r.Success? <==> forall i | 0 <= i < |args| && IsFlagToken(args[i]) :: FlagValue(args[i]).Some?
    ensures r.Success? ==> (r.value.1.enableAutofillSet <==> flags.enableAutofillSet || exists i | 0 <= i < |args| :: IsFlagToken(args[i]))
    ensures r.Success? && (forall i | 0 <= i < |args| :: !IsFlagToken(args[i])) ==> r.value.1 == flags
    ensures r.Success? ==> forall i | 0 <= i < |args| && IsFlagToken(args[i]) && (forall j | i < j < |args| :: !IsFlagToken(args[j])) ::
              r.value.1.enableAutofill == FlagValue(args[i]).value
    decreases |args|
  {
    if |args| == 0 then Success(([], flags))
    else
      var a := args[0];
      assert args == [a] + args[1..];
      if IsFlagToken(a) then
        match FlagValue(a)
        case None => Failure(InvalidValue(TrimPrefix(a, FlagAssign)))
        case Some(v) => ParseFrom(args[1..], GlobalFlags(v, true))
      else
        match ParseFrom(args[1..], flags)
        case Failure(e) => Failure(e)
        case Success((rest, f)) => Success(([a] + rest, f))
  }

  /** `parseGlobalFlags`. */
  function ParseGlobalFlags(args: seq<string>): (r: Result<(seq<string>, GlobalFlags), string>)
    ensures r.Success? <==> forall i | 0 <= i < |args| && IsFlagToken(args[i]) :: FlagValue(args[i]).Some?
    ensures r.Success? ==> r.value.0 == Others(args)
    ensures r.Success? ==> (r.value.1.enableAutofillSet <==> exists i | 0 <= i < |args| :: IsFlagToken(args[i]))
    ensures r.Success? && !r.value.1.enableAutofillSet ==> !r.value.1.enableAutofill
    ensures r.Success? ==> forall i | 0 <= i < |args| && IsFlagToken(args[i]) && (forall j | i < j < |args| :: !IsFlagToken(args[j])) ::
              r.value.1.enableAutofill == FlagValue(args[i]).value
  {
    ParseFrom(args, GlobalFlags(false, false))
  }

  /** The error names the first invalid value, quoted. */
  lemma {:induction false} FirstInvalidReported(args: seq<string>, flags: GlobalFlags, i: nat)
    requires i < |args| && IsFlagToken(args[i]) && FlagValue(args[i]).None?
    requires forall j | 0 <= j < i && IsFlagToken(args[j]) :: FlagValue(args[j]).Some?
    ensures ParseFrom(args, flags) == Failure(InvalidValue(TrimPrefix(args[i], FlagAssign)))
    decreases i
  {
    if i > 0 {
      var a := args[0];
      assert IsFlagToken(a) ==> FlagValue(a).Some?;
      var flags' := if IsFlagToken(a) then GlobalFlags(FlagValue(a).value, true) else flags;
      FirstInvalidReported(args[1..], flags', i - 1);
    }
  }

  // ---------------------------------------------------------------------------
  // `diff` arguments.

  datatype DiffRequest =
    | Between(a: string, b: string)
    | AgainstLastBackup(profile: string)
    | DiffUsage(message: string)

  const DiffUsageText: string := "Usage: moirai diff <profile> --against last-backup"

  /** The argument shapes of `runDiff`; every usage error exits with status 1. */
  function ParseDiffArgs(args: seq<string>): (r: DiffRequest)
    ensures |args| == 0 ==> r == DiffUsage("missing diff arguments")
    ensures r.Between? <==> |args| == 3 && args[0] == "--between"
    ensures r.Between? ==> r == Between(args[1], args[2])
    ensures r.AgainstLastBackup? <==> |args| == 3 && args[0] != "--between" && args[1] == "--against" && args[2] == "last-backup"
    ensures r.AgainstLastBackup? ==> r.profile == args[0]
    ensures |args| > 0 && args[0] == "--between" && |args| != 3 ==>
              r == DiffUsage("Usage: moirai diff --between <profileA> <profileB>")
  {
    if |args| == 0 then DiffUsage("missing diff arguments")
    else if args[0] == "--between" then
      if |args| != 3 then DiffUsage("Usage: moirai diff --between <profileA> <profileB>")
      else Between(args[1], args[2])
    else if |args| < 2 then DiffUsage(DiffUsageText)
    else if args[1] != "--against" || |args| != 3 || args[2] != "last-backup" then DiffUsage(DiffUsageText)
    else AgainstLastBackup(args[0])
  }

  // ---------------------------------------------------------------------------
  // Exit codes.

  /** `runDoctor` over the result of loading the profile: 1 on a load error, 2 when agents are missing, else 0. */
  function RunDoctor(load: Result<Profile.RootConfig, Error>): (r: (int, Option<Error>, seq<string>))
    ensures load.Failure? ==> r == (1, Some(load.error), [])
    ensures load.Success? ==> r.1.None? && r.2 == Profile.MissingAgents(Some(load.value), Profile.KnownAgents)
    ensures r.0 == 0 <==> (load.Success? &&
              forall a | a in Profile.KnownAgents :: a in Profile.AgentsOf(load.value) && !IsBlank(Profile.AgentsOf(load.value)[a].model))
    ensures r.0 == 2 <==> load.Success? && r.2 != []
  {
    match load
    case Failure(e) => (1, Some(e), [])
    case Success(cfg) =>
      var missing := Profile.MissingAgents(Some(cfg), Profile.KnownAgents);
      Profile.NoneMissing(cfg, Profile.KnownAgents);
      if |missing| == 0 then (0, None, missing) else (2, None, missing)
  }

  /** What `runAutofill` did: exit code, error, the directory after it, and the configuration it saved. */
  datatype AutofillRun = AutofillRun(exit: int, err: Option<Error>, fs: FileSystem, saved: Option<Profile.RootConfig>)

  /**
   * The end of `runAutofill` once the profile was backed up (or not): a
   * failed backup is reported and nothing is saved; otherwise the result of
   * saving decides.
   */
  function SaveBackedUp(b: Backup.Outcome<string>, filled: Option<Profile.RootConfig>, save: Result<(), Error>)
    : (r: AutofillRun)
    ensures r.fs == b.fs
    ensures r.exit == 0 <==> b.result.Success? && save.Success?
    ensures r.exit != 0 ==> r.exit == 1 && r.saved.None?
    ensures b.result.Failure? ==> r.err == Some(b.result.error)
    ensures b.result.Success? && save.Failure? ==> r.err == Some(save.error)
    ensures r.exit == 0 ==> r.err.None? && r.saved == filled
  {
    match b.result
    case Failure(e) => AutofillRun(1, Some(e), b.fs, None)
    case Success(_) =>
      match save
      case Failure(e) => AutofillRun(1, Some(e), b.fs, None)
      case Success(_) => AutofillRun(0, None, b.fs, filled)
  }

  /**
   * The part of `runAutofill` after the profile loaded: fill it, and only when
   * that changed something, back it up and then save it. `known` is the list
   * of known agents.
   */
  function FillAndSave(fs: FileSystem, dir: string, name: string, timestamp: string, cfg: Profile.RootConfig,
                       known: seq<string>, preset: Profile.Preset, save: Result<(), Error>): (r: AutofillRun)
    ensures r.exit == 0 <==> r.err.None?
    ensures r.exit == 0 || r.exit == 1
    ensures r.saved.Some? ==> r.exit == 0 && Profile.ApplyAutofill(Some(cfg), known, preset) == (true, r.saved)
    ensures r.exit == 0 && r.saved.None? ==> r.fs == fs && Profile.MissingAgents(Some(cfg), known) == []
    ensures r.exit == 0 && r.saved.Some? ==>
              Backup.BackupProfile(fs, dir, name, timestamp).result.Success? && r.fs == Backup.BackupProfile(fs, dir, name, timestamp).fs
  {
    var out := Profile.ApplyAutofill(Some(cfg), known, preset);
    if !out.0 then
      Profile.NoneMissingIffUnchanged(cfg, known, preset);
      AutofillRun(0, None, fs, None)
    else
      SaveBackedUp(Backup.BackupProfile(fs, dir, name, timestamp), out.1, save)
  }

  /**
   * `runAutofill`. `load` is the result of reading the profile, `save` the
   * result of writing it back; the backup runs against the directory.
   */
  function RunAutofill(enabled: bool, fs: FileSystem, dir: string, name: string, presetName: string, timestamp: string,
                       load: Result<Profile.RootConfig, Error>, save: Result<(), Error>): (r: AutofillRun)
    ensures !enabled ==> r == AutofillRun(3, None, fs, None)
    ensures enabled && name == "" ==> r == AutofillRun(1, Some(Failed("profile name is required")), fs, None)
    ensures enabled && name != "" && presetName != "openai" ==>
              r == AutofillRun(1, Some(Failed("unknown preset: " + presetName)), fs, None)
    ensures r.exit == 0 <==> r.err.None? && enabled
    ensures r.saved.Some? ==> (r.exit == 0 && load.Success? &&
              Profile.ApplyAutofill(Some(load.value), Profile.KnownAgents, Profile.Preset("openai", "gpt-4o-mini"))
                == (true, r.saved))
    ensures enabled && r.exit == 0 && r.saved.None? ==> (r.fs == fs && load.Success? &&
              Profile.MissingAgents(Some(load.value), Profile.KnownAgents) == [])
    ensures r.exit == 0 && r.saved.Some? ==>
              Backup.BackupProfile(fs, dir, name, timestamp).result.Success? && r.fs == Backup.BackupProfile(fs, dir, name, timestamp).fs
  {
    if !enabled then AutofillRun(3, None, fs, None)
    else if name == "" then AutofillRun(1, Some(Failed("profile name is required")), fs, None)
    else
      match Profile.PresetByName(presetName)
      case None => AutofillRun(1, Some(Failed("unknown preset: " + presetName)), fs, None)
      case Some(preset) =>
        match load
        case Failure(e) => AutofillRun(1, Some(e), fs, None)
        case Success(cfg) => FillAndSave(fs, dir, name, timestamp, cfg, Profile.KnownAgents, preset, save)
  }
}

=== FILE: fs.dfy ===
/**
 * The configuration directory as the code sees it through `os.Stat`,
 * `os.Lstat`, `os.ReadDir` and its atomic copy/write helpers: a map from entry
 * name to what the entry is. A symbolic link records both its target text and
 * what a `stat` through it reaches, so link resolution needs no path walk.
 * Slash-separated path helpers (`filepath.Join`, `filepath.Base`) live here too.
 */
module Fs {
  import opened Wrappers
  import opened Text
  import Order

  /** What a directory entry is. `Unreadable` stands for any entry whose `stat` fails other than by absence. */
  datatype Node =
    | File(content: string)
    | Directory
    | Special
    | Symlink(target: string, resolves: Option<Node>)
    | Unreadable

  /** One directory. `canList` is whether `os.ReadDir` succeeds; `canWrite` whether creating, replacing and removing entries succeeds. */
  datatype FileSystem = FileSystem(entries: map<string, Node>, canList: bool, canWrite: bool)

  datatype Error =
    | NotExist(name: string)
    | PermissionDenied(name: string)
    | Failed(message: string)
    | Wrapped(context: string, cause: Error)   // `fmt.Errorf("<context>: %w", cause)`

  /** An `os.DirEntry`: its name and whether its own type (links are not followed) is a directory. */
  datatype DirEntry = DirEntry(name: string, isDir: bool)

  // ---------------------------------------------------------------------------
  // Paths.

  /** `filepath.Join` of a directory and one element, without the lexical clean-up. */
  function PathJoin(dir: string, name: string): (p: string)
    ensures dir != "" && name != "" ==> p == dir + "/" + name
  {
    if dir == "" then name else if name == "" then dir else dir + "/" + name
  }

  function DropTrailingSlashes(p: string): (r: string)
    ensures HasPrefix(p, r)
    ensures |r| > 0 ==> r[|r| - 1] != '/'
  {
    if |p| > 0 && p[|p| - 1] == '/' then DropTrailingSlashes(p[..|p| - 1]) else p
  }

  /** The part after the last slash. */
  function LastElement(p: string): (r: string)
    ensures '/' !in r
    ensures |r| <= |p|
  {
    if |p| == 0 then ""
    else if p[|p| - 1] == '/' then ""
    else LastElement(p[..|p| - 1]) + [p[|p| - 1]]
  }

  /** `filepath.Base`: the last element, ignoring trailing slashes; "." for "" and "/" for all slashes. */
  function Base(p: string): (r: string)
    ensures r != ""
  {
    if p == "" then "."
    else
      var t := DropTrailingSlashes(p);
      if t == "" then "/" else
        var l := LastElement(t);
        if l == "" then "/" else l
  }

  lemma {:induction false} LastElementOfSlashFree(p: string)
    requires '/' !in p
    ensures LastElement(p) == p
  {
    if |p| > 0 {
      assert '/' !in p[..|p| - 1];
      LastElementOfSlashFree(p[..|p| - 1]);
      assert p == p[..|p| - 1] + [p[|p| - 1]];
    }
  }

  /** The base of a joined path is the joined name. */
  lemma BaseOfJoin(dir: string, name: string)
    requires name != "" && '/' !in name
    ensures Base(PathJoin(dir, name)) == name
  {
    var p := PathJoin(dir, name);
    assert p[|p| - 1] == name[|name| - 1];
    if dir == "" {
      LastElementOfSlashFree(name);
    } else {
      assert p == (dir + "/") + name;
      LastElementAfterSlash(dir + "/", name);
    }
  }

  lemma {:induction false} LastElementAfterSlash(prefix: string, name: string)
    requires |prefix| > 0 && prefix[|prefix| - 1] == '/'
    requires '/' !in name
    ensures LastElement(prefix + name) == name
    decreases |name|
  {
    if |name| == 0 {
      assert prefix + name == prefix;
    } else {
      var p := prefix + name;
      assert p[..|p| - 1] == prefix + name[..|name| - 1];
      assert '/' !in name[..|name| - 1];
      LastElementAfterSlash(prefix, name[..|name| - 1]);
      assert name == name[..|name| - 1] + [name[|name| - 1]];
    }
  }

  /** `filepath.IsAbs` on Unix. */
  predicate IsAbs(p: string) {
    HasPrefix(p, "/")
  }

  // ---------------------------------------------------------------------------
  // Reading.

  /** What `stat` reaches from a node: links are followed, never a link or an unreadable node. */
  function Follow(n: Node, name: string): (r: Result<Node, Error>)
    ensures r.Success? ==> !r.value.Symlink? && !r.value.Unreadable?
  {
    match n
    case Unreadable => Failure(PermissionDenied(name))
    case Symlink(_, None) => Failure(NotExist(name))
    case Symlink(_, Some(t)) => Follow(t, name)
    case _ => Success(n)
  }

  /** `os.Stat` of an entry. */
  function Stat(fs: FileSystem, name: string): (r: Result<Node, Error>)
    ensures name !in fs.entries ==> r == Failure(NotExist(name))
    ensures r.Success? ==> name in fs.entries && !r.value.Symlink? && !r.value.Unreadable?
    ensures name in fs.entries && !fs.entries[name].Symlink? && !fs.entries[name].Unreadable? ==>
              r == Success(fs.entries[name])
  {
    if name !in fs.entries then Failure(NotExist(name)) else Follow(fs.entries[name], name)
  }

  /** `os.Lstat` of an entry: the entry itself, links included. */
  function Lstat(fs: FileSystem, name: string): (r: Result<Node, Error>)
    ensures name !in fs.entries ==> r == Failure(NotExist(name))
    ensures r.Success? ==> name in fs.entries && r.value == fs.entries[name] && !r.value.Unreadable?
    ensures name in fs.entries && !fs.entries[name].Unreadable? ==> r == Success(fs.entries[name])
  {
    if name !in fs.entries then Failure(NotExist(name))
    else if fs.entries[name].Unreadable? then Failure(PermissionDenied(name))
    else Success(fs.entries[name])
  }

  /** `errors.Is(err, os.ErrNotExist)`. */
  predicate IsNotExist<T>(r: Result<T, Error>) {
    r.Failure? && r.error.NotExist?
  }

  function EntryName(e: DirEntry): string {
    e.name
  }

  function EntriesOf(fs: FileSystem, names: seq<string>): (es: seq<DirEntry>)
    requires forall i | 0 <= i < |names| :: names[i] in fs.entries
    ensures |es| == |names|
    ensures forall i | 0 <= i < |names| :: es[i] == DirEntry(names[i], fs.entries[names[i]].Directory?)
  {
    if |names| == 0 then [] else [DirEntry(names[0], fs.entries[names[0]].Directory?)] + EntriesOf(fs, names[1..])
  }

  /** The entry for `name` as `os.ReadDir` reports it. */
  predicate Lists(fs: FileSystem, e: DirEntry) {
    e.name in fs.entries && e.isDir == fs.entries[e.name].Directory?
  }

  lemma EntriesOfSorted(fs: FileSystem, names: seq<string>)
    requires forall i | 0 <= i < |names| :: names[i] in fs.entries
    requires Order.StrictlySorted(names)
    ensures Order.SortedBy(EntriesOf(fs, names), EntryName)
    ensures forall i, j | 0 <= i < j < |names| :: Lt(EntriesOf(fs, names)[i].name, EntriesOf(fs, names)[j].name)
    ensures forall e :: e in EntriesOf(fs, names) <==> e.name in names && Lists(fs, e)
  {
    var es := EntriesOf(fs, names);
    forall e | e in es
      ensures e.name in names
    {
      var i :| 0 <= i < |es| && es[i] == e;
    }
    forall e: DirEntry | e.name in names && Lists(fs, e)
      ensures e in es
    {
      var i :| 0 <= i < |names| && names[i] == e.name;
      assert es[i] == e;
    }
  }

  /** Entry names in strictly ascending order: sorted, and no name twice. */
  predicate NamesAscending(entries: seq<DirEntry>) {
    forall i, j | 0 <= i < j < |entries| :: Lt(entries[i].name, entries[j].name)
  }

  /** The rest of an ascending listing is ascending, and its names all follow the first. */
  lemma AscendingTail(entries: seq<DirEntry>)
    requires |entries| > 0 && NamesAscending(entries)
    ensures NamesAscending(entries[1..])
    ensures forall i | 0 <= i < |entries[1..]| :: Lt(entries[0].name, entries[1..][i].name)
  {
    assert forall i | 0 <= i < |entries[1..]| :: entries[1..][i] == entries[i + 1];
  }

  /** `os.ReadDir`: every entry once, sorted by name. */
  function ReadDir(fs: FileSystem): (r: Result<seq<DirEntry>, Error>)
    ensures !fs.canList <==> r.Failure?
    ensures r.Success? ==> forall e :: e in r.value <==> Lists(fs, e)
    ensures r.Success? ==> Order.SortedBy(r.value, EntryName) && |r.value| == |fs.entries|
    ensures r.Success? ==> NamesAscending(r.value)
  {
    if !fs.canList then Failure(Failed("open: permission denied"))
    else
      var names := Order.SortedSet(fs.entries.Keys);
      EntriesOfSorted(fs, names);
      Success(EntriesOf(fs, names))
  }

  // ---------------------------------------------------------------------------
  // Writing.

  /** Creates or replaces an entry (a rename of a temporary file over it, or a fresh link). */
  function Put(fs: FileSystem, name: string, n: Node): (r: Result<FileSystem, Error>)
    ensures fs.canWrite <==> r.Success?
    ensures r.Success? ==> r.value == fs.(entries := fs.entries[name := n])
  {
    if fs.canWrite then Success(fs.(entries := fs.entries[name := n])) else Failure(PermissionDenied(name))
  }

  /** `os.Remove` of an existing entry. */
  function Remove(fs: FileSystem, name: string): (r: Result<FileSystem, Error>)
    ensures fs.canWrite <==> r.Success?
    ensures r.Success? ==> r.value == fs.(entries := fs.entries - {name})
  {
    if fs.canWrite then Success(fs.(entries := fs.entries - {name})) else Failure(PermissionDenied(name))
  }

  /** The bytes a read of the entry yields: a file's content, read through links. */
  function ReadFile(fs: FileSystem, name: string): (r: Result<string, Error>)
    ensures r.Success? ==> Stat(fs, name).Success? && Stat(fs, name).value == File(r.value)
    ensures Stat(fs, name).Success? && Stat(fs, name).value.File? ==> r == Success(Stat(fs, name).value.content)
  {
    match Stat(fs, name)
    case Failure(e) => Failure(e)
    case Success(n) =>
      if n.File? then Success(n.content)
      else if n.Directory? then Failure(Failed("read " + name + ": is a directory"))
      else Failure(Failed("read " + name + ": not a regular file"))
  }

  /** `util.CopyFileAtomic` within the directory: the target becomes a regular file with the source's bytes. */
  function CopyFile(fs: FileSystem, src: string, dst: string): (r: Result<FileSystem, Error>)
    ensures r.Success? <==> ReadFile(fs, src).Success? && fs.canWrite
    ensures r.Success? ==> r.value == fs.(entries := fs.entries[dst := File(ReadFile(fs, src).value)])
  {
    match ReadFile(fs, src)
    case Failure(e) => Failure(e)
    case Success(data) => Put(fs, dst, File(data))
  }
}

=== FILE: key.dfy ===
/**
 * The terminal input decoder (third_party/bubbletea/key.go): one call reads one
 * key event from the front of the raw byte stream. The buffered reader becomes
 * the byte sequence still unread; the decoder reports how many bytes it took.
 */
module Keys {
  import opened Wrappers

  newtype byte = b: int | 0 <= b < 256

  datatype KeyType =
    | KeyUnknown
    | KeyRunes
    | KeyEnter
    | KeyEsc
    | KeyBackspace
    | KeyDelete
    | KeyCtrlC
    | KeyUp
    | KeyDown
    | KeyPgUp
    | KeyPgDown

  /** One key event; `runes` is only non-empty for `KeyRunes`. */
  datatype KeyMsg = KeyMsg(kind: KeyType, runes: string)

  /** The only way reading can fail here: the stream ended (`io.EOF`). */
  datatype ReadError = EOF

  /** A decoded key together with the number of bytes it consumed. */
  datatype Decoded = Decoded(key: KeyMsg, consumed: nat)

  const Esc: byte := 0x1b
  const RuneError: int := 0xFFFD

  /** `KeyMsg.String`: the name the screens match key presses against. */
  function KeyString(k: KeyMsg): (s: string)
    ensures k.kind == KeyRunes ==> s == k.runes
    ensures k.kind == KeyUnknown ==> s == ""
    ensures k.kind != KeyRunes && k.kind != KeyUnknown ==> |s| >= 2
  {
    match k.kind
    case KeyRunes => k.runes
    case KeyEnter => "enter"
    case KeyEsc => "esc"
    case KeyBackspace => "backspace"
    case KeyDelete => "delete"
    case KeyCtrlC => "ctrl+c"
    case KeyUp => "up"
    case KeyDown => "down"
    case KeyPgUp => "pgup"
    case KeyPgDown => "pgdown"
    case KeyUnknown => ""
  }

  function Key(kind: KeyType): KeyMsg {
    KeyMsg(kind, "")
  }

  // ---------------------------------------------------------------------------
  // UTF-8, as Go's unicode/utf8 package classifies it.

  /** The encoding length a lead byte announces; 1 for bytes that cannot start a rune. */
  function LeadSize(b: byte): (n: nat)
    ensures 1 <= n <= 4
  {
    if 0xC2 <= b <= 0xDF then 2
    else if 0xE0 <= b <= 0xEF then 3
    else if 0xF0 <= b <= 0xF4 then 4
    else 1
  }

  /** The range the second byte must lie in after the lead byte `b` (`acceptRanges`). */
  function AcceptLo(b: byte): byte {
    if b == 0xE0 then 0xA0 else if b == 0xF0 then 0x90 else 0x80
  }

  function AcceptHi(b: byte): byte {
    if b == 0xED then 0x9F else if b == 0xF4 then 0x8F else 0xBF
  }

  predicate IsCont(b: byte) {
    0x80 <= b <= 0xBF
  }

  /** `utf8.FullRune`: the bytes start with a complete (or definitely invalid) encoding. */
  predicate FullRune(p: seq<byte>) {
    |p| > 0
    && (|p| >= LeadSize(p[0])
        || (|p| > 1 && !(AcceptLo(p[0]) <= p[1] <= AcceptHi(p[0])))
        || (|p| > 2 && !IsCont(p[2])))
  }

  /** Reading more bytes never makes a full rune incomplete again. */
  lemma FullRuneExtends(input: seq<byte>, k: nat, j: nat)
    requires k <= j <= |input| && FullRune(input[..k])
    ensures FullRune(input[..j])
  {
    assert input[..j][..k] == input[..k];
  }

  /** `utf8.DecodeRune` of a non-ASCII start: the rune, or `RuneError` when invalid. */
  function DecodeRune(p: seq<byte>): (r: int)
    requires |p| > 0 && p[0] >= 0x80
    ensures r == RuneError || (0x80 <= r <= 0x10FFFF && !(0xD800 <= r <= 0xDFFF))
    ensures LeadSize(p[0]) == 1 || |p| < LeadSize(p[0]) ==> r == RuneError
    ensures |p| > 1 && !(AcceptLo(p[0]) <= p[1] <= AcceptHi(p[0])) ==> r == RuneError
    ensures |p| > 2 && LeadSize(p[0]) > 2 && !IsCont(p[2]) ==> r == RuneError
    ensures |p| > 3 && LeadSize(p[0]) > 3 && !IsCont(p[3]) ==> r == RuneError
  {
    var n := LeadSize(p[0]);
    if n == 1 || |p| < n then RuneError
    else if !(AcceptLo(p[0]) <= p[1] <= AcceptHi(p[0])) then RuneError
    else if n == 2 then (p[0] as int - 0xC0) * 64 + (p[1] as int - 0x80)
    else if !IsCont(p[2]) then RuneError
    else if n == 3 then (p[0] as int - 0xE0) * 4096 + (p[1] as int - 0x80) * 64 + (p[2] as int - 0x80)
    else if !IsCont(p[3]) then RuneError
    else (p[0] as int - 0xF0) * 262144 + (p[1] as int - 0x80) * 4096 + (p[2] as int - 0x80) * 64 + (p[3] as int - 0x80)
  }

  /**
   * The loop that keeps reading until `utf8.FullRune` holds: the number of bytes
   * in the buffer when it stops, or EOF when the stream ends first.
   */
  function RuneLength(input: seq<byte>, n: nat): (r: Result<nat, ReadError>)
    requires 1 <= n <= |input| && n <= 4
    ensures r.Success? ==> n <= r.value <= |input| && r.value <= 4
    ensures r.Success? ==> FullRune(input[..r.value])
    ensures r.Success? ==> forall k | n <= k < r.value :: !FullRune(input[..k])
    ensures r.Failure? <==> forall k | n <= k <= |input| :: !FullRune(input[..k])
    decreases |input| - n
  {
    if FullRune(input[..n]) then Success(n)
    else if n == |input| then Failure(EOF)
    else RuneLength(input, n + 1)
  }

  /** `readEscapeSequence`, entered after the ESC byte has been read. */
  function ReadEscape(input: seq<byte>): (r: Result<Decoded, ReadError>)
    requires |input| > 0 && input[0] == Esc
    ensures r.Success? ==> 1 <= r.value.consumed <= |input|
  {
    if |input| == 1 || input[1] != 0x5B then Success(Decoded(Key(KeyEsc), 1))
    else if |input| == 2 then Failure(EOF)
    else
      var code := input[2];
      if code == 0x41 then Success(Decoded(Key(KeyUp), 3))
      else if code == 0x42 then Success(Decoded(Key(KeyDown), 3))
      else if code == 0x35 || code == 0x36 then
        var kind := if code == 0x35 then KeyPgUp else KeyPgDown;
        if |input| == 3 then Success(Decoded(Key(KeyUnknown), 3))
        else if input[3] == 0x7E then Success(Decoded(Key(kind), 4))
        else Success(Decoded(Key(KeyUnknown), 4))
      else Success(Decoded(Key(KeyEsc), 3))
  }

  /** `readKeyMsg`: decodes the key event at the front of `input`. */
  function ReadKeyMsg(input: seq<byte>): (r: Result<Decoded, ReadError>)
    ensures |input| == 0 ==> r == Failure(EOF)
    ensures r.Success? ==> 1 <= r.value.consumed <= |input|
    ensures r.Success? ==> r.value.key.kind != KeyDelete
    ensures r.Success? && r.value.key.kind == KeyRunes ==> |r.value.key.runes| == 1
    ensures r.Success? && r.value.key.kind != KeyRunes ==> r.value.key.runes == ""
    ensures |input| > 0 && input[0] == 0x03 ==> r == Success(Decoded(Key(KeyCtrlC), 1))
    ensures |input| > 0 && (input[0] == 0x0d || input[0] == 0x0a) ==> r == Success(Decoded(Key(KeyEnter), 1))
    ensures |input| > 0 && input[0] == 0x7f ==> r == Success(Decoded(Key(KeyBackspace), 1))
    ensures |input| > 0 && input[0] < 0x80 && input[0] !in {0x03, 0x0d, 0x0a, 0x7f, Esc} ==>
              r == Success(Decoded(KeyMsg(KeyRunes, [input[0] as int as char]), 1))
    ensures |input| > 0 && input[0] >= 0x80 ==> (r.Failure? <==> !FullRune(input))
    ensures |input| > 0 && input[0] >= 0x80 && r.Success? ==> FullRune(input[..r.value.consumed])
    ensures |input| > 0 && input[0] >= 0x80 && r.Success? ==>
              forall k | 1 <= k < r.value.consumed :: !FullRune(input[..k])
    ensures |input| > 0 && input[0] >= 0x80 && r.Success? ==>
              var rn := DecodeRune(input[..r.value.consumed]);
              r.value.key == if rn == RuneError then Key(KeyUnknown) else KeyMsg(KeyRunes, [rn as char])
  {
    if |input| == 0 then Failure(EOF)
    else
      var b := input[0];
      if b == 0x03 then Success(Decoded(Key(KeyCtrlC), 1))
      else if b == 0x0d || b == 0x0a then Success(Decoded(Key(KeyEnter), 1))
      else if b == 0x7f then Success(Decoded(Key(KeyBackspace), 1))
      else if b == Esc then ReadEscape(input)
      else if b < 0x80 then Success(Decoded(KeyMsg(KeyRunes, [b as int as char]), 1))
      else
        match RuneLength(input, 1)
        case Failure(e) =>
          assert !FullRune(input[..|input|]) && input[..|input|] == input;
          Failure(e)
        case Success(n) =>
          assert FullRune(input) by {
            FullRuneExtends(input, n, |input|);
            assert input[..|input|] == input;
          }
          var rn := DecodeRune(input[..n]);
          if rn == RuneError then Success(Decoded(Key(KeyUnknown), n))
          else Success(Decoded(KeyMsg(KeyRunes, [rn as char]), n))
  }

  // ---------------------------------------------------------------------------
  // Undecodable input.

  /** A byte that cannot start a rune is one unknown key on its own. */
  lemma InvalidLeadIsUnknown(input: seq<byte>)
    requires |input| > 0 && (0x80 <= input[0] <= 0xC1 || input[0] >= 0xF5)
    ensures ReadKeyMsg(input) == Success(Decoded(Key(KeyUnknown), 1))
  {
  }

  /**
   * A lead byte followed by a byte outside its accepted range: reading stops
   * after the second byte, and the pair is one unknown key.
   */
  lemma BadSecondByteIsUnknown(input: seq<byte>)
    requires |input| >= 2 && LeadSize(input[0]) > 1
    requires !(AcceptLo(input[0]) <= input[1] <= AcceptHi(input[0]))
    ensures ReadKeyMsg(input) == Success(Decoded(Key(KeyUnknown), 2))
  {
    assert !FullRune(input[..1]);
    assert FullRune(input[..2]);
    assert RuneLength(input, 2) == Success(2);
    assert RuneLength(input, 1) == Success(2);
    assert DecodeRune(input[..2]) == RuneError;
  }

  // ---------------------------------------------------------------------------
  // Properties of the escape handling.

  /** A lone ESC at the end of the stream is the Escape key, not an error and not a wait. */
  lemma LoneEscIsEsc()
    ensures ReadKeyMsg([Esc]) == Success(Decoded(Key(KeyEsc), 1))
  {
  }

  /** ESC followed by anything but `[` is Escape; the next byte is only peeked, so it stays unread. */
  lemma EscPeeksOnly(input: seq<byte>)
    requires |input| >= 2 && input[0] == Esc && input[1] != 0x5B
    ensures ReadKeyMsg(input) == Success(Decoded(Key(KeyEsc), 1))
  {
  }

  /** The only escape-introduced error: the stream ends right after ESC `[`. */
  lemma EscBracketAtEndFails()
    ensures ReadKeyMsg([Esc, 0x5B]).Failure?
  {
  }

  /** Arrow keys: ESC `[` `A` and ESC `[` `B`, three bytes each. */
  lemma ArrowKeys(rest: seq<byte>)
    ensures ReadKeyMsg([Esc, 0x5B, 0x41] + rest) == Success(Decoded(Key(KeyUp), 3))
    ensures ReadKeyMsg([Esc, 0x5B, 0x42] + rest) == Success(Decoded(Key(KeyDown), 3))
  {
  }

  /** Page keys: ESC `[` `5` `~` and ESC `[` `6` `~`, four bytes each. */
  lemma PageKeys(rest: seq<byte>)
    ensures ReadKeyMsg([Esc, 0x5B, 0x35, 0x7E] + rest) == Success(Decoded(Key(KeyPgUp), 4))
    ensures ReadKeyMsg([Esc, 0x5B, 0x36, 0x7E] + rest) == Success(Decoded(Key(KeyPgDown), 4))
  {
  }

  /** A `5` or `6` without the `~` terminator decodes to Unknown. */
  lemma PageKeyWithoutTilde(d: byte, rest: seq<byte>)
    requires d == 0x35 || d == 0x36
    requires |rest| == 0 || rest[0] != 0x7E
    ensures ReadKeyMsg([Esc, 0x5B, d] + rest).Success?
    ensures ReadKeyMsg([Esc, 0x5B, d] + rest).value.key == Key(KeyUnknown)
  {
  }

  /** Any other byte after ESC `[` gives Escape, consuming the three bytes. */
  lemma UnknownCsiIsEsc(code: byte, rest: seq<byte>)
    requires code !in {0x41, 0x42, 0x35, 0x36}
    ensures ReadKeyMsg([Esc, 0x5B, code] + rest) == Success(Decoded(Key(KeyEsc), 3))
  {
  }

  // ---------------------------------------------------------------------------
  // Multi-byte runes: an independent UTF-8 encoder and the round trip through the decoder.

  /** The UTF-8 encoding of a non-ASCII rune (RFC 3629, section 3). */
  function Encoded(v: int): (p: seq<byte>)
    requires 0x80 <= v <= 0x10FFFF
    ensures 2 <= |p| <= 4
    ensures 0xC2 <= p[0] <= 0xF4
  {
    if v < 0x800 then [(0xC0 + v / 64) as byte, (0x80 + v % 64) as byte]
    else if v < 0x10000 then
      [(0xE0 + v / 4096) as byte, (0x80 + (v / 64) % 64) as byte, (0x80 + v % 64) as byte]
    else
      [(0xF0 + v / 262144) as byte, (0x80 + (v / 4096) % 64) as byte,
       (0x80 + (v / 64) % 64) as byte, (0x80 + v % 64) as byte]
  }

  /** The UTF-8 encoding of a rune. */
  function EncodeUtf8(c: char): (bs: seq<byte>)
    ensures 1 <= |bs| <= 4
  {
    var v := c as int;
    if v < 0x80 then [v as byte] else Encoded(v)
  }

  lemma Decode2(v: int)
    requires 0x80 <= v < 0x800
    ensures FullRune(Encoded(v))
    ensures !FullRune(Encoded(v)[..1])
    ensures DecodeRune(Encoded(v)) == v
  {
    assert 2 <= v / 64 < 32;
  }

  lemma Decode3(v: int)
    requires 0x800 <= v < 0x10000 && !(0xD800 <= v <= 0xDFFF)
    ensures FullRune(Encoded(v))
    ensures !FullRune(Encoded(v)[..1]) && !FullRune(Encoded(v)[..2])
    ensures DecodeRune(Encoded(v)) == v
  {
    var a, b, c := v / 4096, (v / 64) % 64, v % 64;
    assert v == a * 4096 + b * 64 + c;
    assert a == 0 ==> b >= 32;
    assert a == 13 ==> b < 32;
  }

  lemma Decode4(v: int)
    requires 0x10000 <= v <= 0x10FFFF
    ensures FullRune(Encoded(v))
    ensures forall k | 1 <= k < 4 :: !FullRune(Encoded(v)[..k])
    ensures DecodeRune(Encoded(v)) == v
  {
    var a, b, c, d := v / 262144, (v / 4096) % 64, (v / 64) % 64, v % 64;
    Digits4(v);
    Decode4Bytes(a, b, c, d);
  }

  /** A rune above U+FFFF in base 64, and the bounds on its top digits. */
  lemma Digits4(v: int)
    requires 0x10000 <= v <= 0x10FFFF
    ensures var a, b := v / 262144, (v / 4096) % 64;
      && v == a * 262144 + b * 4096 + ((v / 64) % 64) * 64 + v % 64
      && 0 <= a <= 4 && (a == 0 ==> b >= 16) && (a == 4 ==> b < 16)
  {
    var q1, d0 := v / 64, v % 64;
    var q2, d1 := q1 / 64, q1 % 64;
    var a, b := q2 / 64, q2 % 64;
    assert v == q2 * 4096 + d1 * 64 + d0;
    assert v / 4096 == q2;
    assert v == a * 262144 + b * 4096 + d1 * 64 + d0;
    assert v / 262144 == a;
  }

  /** The four-byte pattern decodes to its digits in base 64 and is a full rune only with all four bytes. */
  lemma Decode4Bytes(a: int, b: int, c: int, d: int)
    requires 0 <= a <= 4 && 0 <= b < 64 && 0 <= c < 64 && 0 <= d < 64
    requires a == 0 ==> b >= 16
    requires a == 4 ==> b < 16
    ensures var e := [(0xF0 + a) as byte, (0x80 + b) as byte, (0x80 + c) as byte, (0x80 + d) as byte];
      && FullRune(e)
      && (forall k | 1 <= k < 4 :: !FullRune(e[..k]))
      && DecodeRune(e) == a * 262144 + b * 4096 + c * 64 + d
  {
    var e := [(0xF0 + a) as byte, (0x80 + b) as byte, (0x80 + c) as byte, (0x80 + d) as byte];
    assert LeadSize(e[0]) == 4;
    assert e[..1] == [e[0]] && e[..2] == [e[0], e[1]] && e[..3] == [e[0], e[1], e[2]];
  }

  lemma DecodeEncoded(c: char)
    requires c as int >= 0x80
    ensures FullRune(EncodeUtf8(c))
    ensures forall k | 1 <= k < |EncodeUtf8(c)| :: !FullRune(EncodeUtf8(c)[..k])
    ensures DecodeRune(EncodeUtf8(c)) == c as int
  {
    var v := c as int;
    var e := EncodeUtf8(c);
    if v < 0x800 {
      Decode2(v);
    } else if v < 0x10000 {
      Decode3(v);
    } else {
      Decode4(v);
    }
  }

  lemma RuneLengthOfEncoded(c: char, rest: seq<byte>)
    requires c as int >= 0x80
    ensures var e := EncodeUtf8(c);
      RuneLength(e + rest, 1) == Success(|e|)
  {
    var e := EncodeUtf8(c);
    var input := e + rest;
    DecodeEncoded(c);
    assert input[..|e|] == e;
    var k := 1;
    while k < |e|
      invariant 1 <= k <= |e|
      invariant RuneLength(input, 1) == RuneLength(input, k)
    {
      assert input[..k] == e[..k];
      k := k + 1;
    }
  }

  /**
   * Every non-ASCII rune typed as UTF-8 decodes to exactly that rune and consumes
   * exactly its encoding, whatever follows — except U+FFFD itself, which the
   * decoder cannot tell from a decoding error and reports as Unknown.
   */
  lemma Utf8RoundTrip(c: char, rest: seq<byte>)
    requires c as int >= 0x80
    ensures var e := EncodeUtf8(c);
      ReadKeyMsg(e + rest) ==
        if c as int == RuneError then Success(Decoded(Key(KeyUnknown), |e|))
        else Success(Decoded(KeyMsg(KeyRunes, [c]), |e|))
  {
    var e := EncodeUtf8(c);
    DecodeEncoded(c);
    RuneLengthOfEncoded(c, rest);
    assert (e + rest)[..|e|] == e;
    assert (e + rest)[0] == e[0];
  }

  /**
   * Input that ends anywhere inside a multi-byte encoding is a read error, not a
   * key: no prefix of a rune's encoding is a full rune.
   */
  lemma TruncatedRuneFails(c: char, k: nat)
    requires c as int >= 0x80 && 1 <= k < |EncodeUtf8(c)|
    ensures ReadKeyMsg(EncodeUtf8(c)[..k]) == Failure(EOF)
  {
    var e := EncodeUtf8(c);
    DecodeEncoded(c);
    assert !FullRune(e[..k]);
    assert e[0] >= 0x80;
    assert e[..k][0] == e[0];
    assert ReadKeyMsg(e[..k]).Failure? && ReadKeyMsg(e[..k]).error.EOF?;
  }
}

=== FILE: link.dfy ===
/**
 * The active profile (internal/link): `oh-my-opencode.json` in the
 * configuration directory is a symbolic link to one profile file. Reading the
 * link gives the active profile's name; applying a profile replaces the link,
 * backing up a regular file that stands in its place first.
 */
module Link {
  import opened Wrappers
  import opened Text
  import opened Fs
  import opened Backup

  /**
   * `ActiveProfile`: `Some(name)` when the active path is a link whose target's
   * base name is a profile file (not a backup) and `stat` through it reaches
   * something other than a directory; `None` when there is no active profile.
   */
  function ActiveProfile(fs: FileSystem): (r: Result<Option<string>, Error>)
    ensures IsNotExist(Lstat(fs, ActiveFileName)) ==> r == Success(None)
    ensures Lstat(fs, ActiveFileName).Success? && !Lstat(fs, ActiveFileName).value.Symlink? ==> r == Success(None)
    ensures r.Failure? ==> !r.error.NotExist?
    ensures r.Success? && r.value.Some? ==>
              var link := fs.entries[ActiveFileName];
              && ActiveFileName in fs.entries && link.Symlink?
              && r.value.value != ""
              && Base(link.target) == ProfilePrefix + r.value.value
              && !Contains(Base(link.target), BackupMarker)
              && Stat(fs, ActiveFileName).Success? && !Stat(fs, ActiveFileName).value.Directory?
  {
    match Lstat(fs, ActiveFileName)
    case Failure(e) => if e.NotExist? then Success(None) else Failure(e)
    case Success(n) =>
      if !n.Symlink? then Success(None)
      else
        var base := Base(n.target);
        if Contains(base, BackupMarker) || !HasPrefix(base, ProfilePrefix) then Success(None)
        else
          var name := TrimPrefix(base, ProfilePrefix);
          if name == "" then Success(None)
          else
            match Stat(fs, ActiveFileName)
            case Failure(e) => if e.NotExist? then Success(None) else Failure(e)
            case Success(t) => if t.Directory? then Success(None) else Success(Some(name))
  }

  /** A link into a backup, or to a missing or directory target, is no active profile. */
  lemma InactiveLinks(fs: FileSystem)
    requires ActiveFileName in fs.entries && fs.entries[ActiveFileName].Symlink?
    requires || Contains(Base(fs.entries[ActiveFileName].target), BackupMarker)
             || !HasPrefix(Base(fs.entries[ActiveFileName].target), ProfilePrefix)
             || Base(fs.entries[ActiveFileName].target) == ProfilePrefix
             || IsNotExist(Stat(fs, ActiveFileName))
             || (Stat(fs, ActiveFileName).Success? && Stat(fs, ActiveFileName).value.Directory?)
    ensures ActiveProfile(fs) == Success(None)
  {
    var base := Base(fs.entries[ActiveFileName].target);
    if HasPrefix(base, ProfilePrefix) && base == ProfilePrefix {
      assert TrimPrefix(base, ProfilePrefix) == "";
    }
  }

  /**
   * Conversely, a link whose target is a profile file (not a backup, with a
   * non-empty name after the prefix) that `stat` reaches as something other
   * than a directory reports that profile, wherever the link was made.
   */
  lemma ActiveLinkReported(fs: FileSystem)
    requires ActiveFileName in fs.entries && fs.entries[ActiveFileName].Symlink?
    requires var base := Base(fs.entries[ActiveFileName].target);
      !Contains(base, BackupMarker) && HasPrefix(base, ProfilePrefix) && base != ProfilePrefix
    requires Stat(fs, ActiveFileName).Success? && !Stat(fs, ActiveFileName).value.Directory?
    ensures ActiveProfile(fs) == Success(Some(TrimPrefix(Base(fs.entries[ActiveFileName].target), ProfilePrefix)))
  {
  }

  /** The link `ApplyProfile` creates: the relative profile file name, reaching what `stat` of it reaches. */
  function LinkTo(fs: FileSystem, name: string): Node
    requires Stat(fs, ProfileFile(name)).Success?
  {
    Symlink(ProfileFile(name), Some(Stat(fs, ProfileFile(name)).value))
  }

  /**
   * `ApplyProfile`: checks the profile exists and is not a directory, then
   * points the active path at it: a new link where there was nothing, a
   * replaced link where there was a link, and a backup-then-replace where there
   * was a regular file. Anything else at the active path is an error.
   */
  function ApplyProfile(fs: FileSystem, dir: string, name: string, timestamp: string): (r: Outcome<()>)
    ensures name == "" ==> r == Outcome(fs, Failure(Failed("profile name is required")))
    ensures name != "" && IsNotExist(Stat(fs, ProfileFile(name))) ==>
              r == Outcome(fs, Failure(Failed("profile \"" + name + "\" not found")))
    ensures name != "" && Stat(fs, ProfileFile(name)).Success? && Stat(fs, ProfileFile(name)).value.Directory? ==>
              r == Outcome(fs, Failure(Failed("profile \"" + name + "\" is a directory")))
    ensures r.result.Failure? ==> r.fs == fs
    ensures r.result.Success? ==>
              && name != "" && Stat(fs, ProfileFile(name)).Success? && !Stat(fs, ProfileFile(name)).value.Directory?
              && ActiveFileName in r.fs.entries && r.fs.entries[ActiveFileName] == LinkTo(fs, name)
    ensures r.result.Success? && (ActiveFileName !in fs.entries || fs.entries[ActiveFileName].Symlink?) ==>
              r.fs == fs.(entries := fs.entries[ActiveFileName := LinkTo(fs, name)])
    ensures r.result.Success? && ActiveFileName in fs.entries && fs.entries[ActiveFileName].File? ==>
              exists b :: IsNotExist(Stat(fs, b)) &&
                r.fs == fs.(entries := fs.entries[b := fs.entries[ActiveFileName]][ActiveFileName := LinkTo(fs, name)])
    ensures name != "" && Stat(fs, ProfileFile(name)).Success? && !Stat(fs, ProfileFile(name)).value.Directory? &&
            Lstat(fs, ActiveFileName).Success? && !Lstat(fs, ActiveFileName).value.Symlink? &&
            !Lstat(fs, ActiveFileName).value.File? ==>
              r == Outcome(fs, Failure(Failed("active config is not a regular file")))
  {
    if name == "" then Outcome(fs, Failure(Failed("profile name is required")))
    else
      var file := ProfileFile(name);
      match Stat(fs, file)
      case Failure(e) =>
        if e.NotExist? then Outcome(fs, Failure(Failed("profile \"" + name + "\" not found")))
        else Outcome(fs, Failure(e))
      case Success(t) =>
        if t.Directory? then Outcome(fs, Failure(Failed("profile \"" + name + "\" is a directory")))
        else
          var link := LinkTo(fs, name);
          match Lstat(fs, ActiveFileName)
          case Failure(e) =>
            if e.NotExist? then Relink(fs, link) else Outcome(fs, Failure(e))
          case Success(n) =>
            if n.Symlink? then
              match Remove(fs, ActiveFileName)
              case Failure(e) => Outcome(fs, Failure(e))
              case Success(fs1) =>
                var r := Relink(fs1, link);
                assert r.result.Success? ==> r.fs.entries == fs.entries[ActiveFileName := link];
                r
            else if !n.File? then Outcome(fs, Failure(Failed("active config is not a regular file")))
            else
              var b := BackupActive(fs, dir, timestamp);
              match b.result
              case Failure(e) => Outcome(fs, Failure(Wrapped("backup active config", e)))
              case Success(_) =>
                match Remove(b.fs, ActiveFileName)
                case Failure(e) => Outcome(b.fs, Failure(e))
                case Success(fs2) =>
                  var r := Relink(fs2, link);
                  ReplacedFile(fs, dir, timestamp, link, r);
                  r
  }

  /** `os.Symlink` at the active path, which is free at that point. */
  function Relink(fs: FileSystem, link: Node): (r: Outcome<()>)
    ensures fs.canWrite <==> r.result.Success?
    ensures r.result.Success? ==> r.fs == fs.(entries := fs.entries[ActiveFileName := link])
    ensures r.result.Failure? ==> r.fs == fs
  {
    match Put(fs, ActiveFileName, link)
    case Failure(e) => Outcome(fs, Failure(e))
    case Success(fs1) => Outcome(fs1, Success(()))
  }

  lemma ReplacedFile(fs: FileSystem, dir: string, timestamp: string, link: Node, r: Outcome<()>)
    requires ActiveFileName in fs.entries && fs.entries[ActiveFileName].File?
    requires BackupActive(fs, dir, timestamp).result.Success?
    requires var b := BackupActive(fs, dir, timestamp);
      r == Relink(b.fs.(entries := b.fs.entries - {ActiveFileName}), link)
    requires r.result.Success?
    ensures exists b :: IsNotExist(Stat(fs, b)) &&
              r.fs == fs.(entries := fs.entries[b := fs.entries[ActiveFileName]][ActiveFileName := link])
  {
    var out := BackupActive(fs, dir, timestamp);
    var b :| UniqueBackupName(fs, ActiveFileName + BackupMarker + timestamp) == Success(b)
      && ReadFile(fs, ActiveFileName).Success?
      && out.fs == fs.(entries := fs.entries[b := File(ReadFile(fs, ActiveFileName).value)]);
    assert b != ActiveFileName;
    assert out.fs.entries - {ActiveFileName} + map[ActiveFileName := link] ==
           fs.entries[b := fs.entries[ActiveFileName]][ActiveFileName := link];
  }

  /** Applying a profile makes it the active one. */
  lemma ApplyThenActive(fs: FileSystem, dir: string, name: string, timestamp: string)
    requires '/' !in name && !Contains(ProfileFile(name), BackupMarker)
    requires ApplyProfile(fs, dir, name, timestamp).result.Success?
    ensures ActiveProfile(ApplyProfile(fs, dir, name, timestamp).fs) == Success(Some(name))
  {
    var after := ApplyProfile(fs, dir, name, timestamp).fs;
    var file := ProfileFile(name);
    assert '/' !in file by {
      assert file == ProfilePrefix + name;
      assert forall i | 0 <= i < |ProfilePrefix| :: file[i] == ProfilePrefix[i] && ProfilePrefix[i] != '/';
      assert forall i | |ProfilePrefix| <= i < |file| :: file[i] == name[i - |ProfilePrefix|];
    }
    assert file[..|ProfilePrefix|] == ProfilePrefix;
    LastElementOfSlashFree(file);
    BaseOfJoin("", file);
    assert TrimPrefix(file, ProfilePrefix) == name;
    assert Base(file) == file;
    var t := Stat(fs, file).value;
    assert after.entries[ActiveFileName] == Symlink(file, Some(t));
    assert Follow(t, ActiveFileName) == Success(t);
    assert Stat(after, ActiveFileName) == Success(t);
    assert Lstat(after, ActiveFileName) == Success(Symlink(file, Some(t)));
  }
}

=== FILE: models_screen.dfy ===
/**
 * The model picker (internal/tui/screens_models.go): a searchable list of
 * model names from which one is chosen for the agent being edited, and the
 * model list file it reads.
 */
module ModelsScreen {
  import opened Wrappers
  import opened Text
  import opened Keys
  import opened Profile
  import opened Selection
  import opened TuiState
  import Fs
  import ModelCache
  import AgentsScreen

  // ---------------------------------------------------------------------------
  // Filtering.

  /** A model name matches a search when it contains it, ignoring ASCII case. */
  predicate ModelMatches(query: string, m: string) {
    ContainsFold(m, query)
  }

  /**
   * `filterModelList`: a copy of the list for an empty search; otherwise the
   * matching names in their original order.
   */
  function FilterModelList(models: seq<string>, query: string): (r: seq<string>)
    ensures query == "" ==> r == models
    ensures forall m :: m in r <==> m in models && ModelMatches(query, m)
    ensures forall i | 0 <= i < |models| ::
              multiset(r)[models[i]] == if ModelMatches(query, models[i]) then multiset(models)[models[i]] else 0
    ensures IsSubseq(r, models)
  {
    if query == "" then
      forall i | 0 <= i < |models|
        ensures ModelMatches(query, models[i])
      {
        ContainsEmpty(ToLower(models[i]));
      }
      FilterAllKept(models, m => ModelMatches(query, m));
      models
    else
      FilterByCounts(models, m => ModelMatches(query, m));
      FilterBy(models, m => ModelMatches(query, m))
  }

  /** Filtering the filtered list with the same search changes nothing. */
  lemma FilterModelListIdempotent(models: seq<string>, query: string)
    ensures FilterModelList(FilterModelList(models, query), query) == FilterModelList(models, query)
  {
    if query != "" {
      FilterIdempotent(models, m => ModelMatches(query, m));
    }
  }

  /** The search results are coherent with the list and the search. */
  predicate PickerCoherent(s: State) {
    && s.modelFiltered == FilterModelList(s.modelAll, s.modelSearch)
    && ValidIndex(s.modelSelected, |s.modelFiltered|)
  }

  /**
   * `updateModelFilter`: recomputes the results; the selection is -1 for no
   * results, kept when it still indexes them and 0 otherwise.
   */
  function UpdateModelFilter(s: State): (r: State)
    ensures r.(modelFiltered := s.modelFiltered, modelSelected := s.modelSelected) == s
    ensures r.modelFiltered == FilterModelList(s.modelAll, s.modelSearch)
    ensures r.modelSelected == -1 <==> r.modelFiltered == []
    ensures 0 <= s.modelSelected < |r.modelFiltered| ==> r.modelSelected == s.modelSelected
    ensures r.modelFiltered != [] && !(0 <= s.modelSelected < |r.modelFiltered|) ==> r.modelSelected == 0
    ensures PickerCoherent(r)
  {
    var filtered := FilterModelList(s.modelAll, s.modelSearch);
    var sel :=
      if |filtered| == 0 then -1
      else if s.modelSelected < 0 || s.modelSelected >= |filtered| then 0
      else s.modelSelected;
    s.(modelFiltered := filtered, modelSelected := sel)
  }

  /** `moveModelSelection`: the nearest result to the step's target; nothing happens without results. */
  function MoveModelSelection(s: State, delta: int): (r: State)
    ensures r.(modelSelected := s.modelSelected) == s
    ensures r.modelSelected == Move(s.modelSelected, delta, |s.modelFiltered|)
  {
    s.(modelSelected := Move(s.modelSelected, delta, |s.modelFiltered|))
  }

  /** Moving keeps a coherent picker coherent, and a step inside the results is taken exactly. */
  lemma MoveModelKeepsCoherent(s: State, delta: int)
    requires PickerCoherent(s)
    ensures PickerCoherent(MoveModelSelection(s, delta))
    ensures 0 <= s.modelSelected + delta < |s.modelFiltered| ==>
              MoveModelSelection(s, delta).modelSelected == s.modelSelected + delta
  {
    MoveKeepsValid(s.modelSelected, delta, |s.modelFiltered|);
  }

  // ---------------------------------------------------------------------------
  // Choosing a model.

  /**
   * What `profile.SetAgentModel` does to a configuration: whether the agent's
   * model changed, and the configuration afterwards; or the error text.
   */
  type SetModel = (Option<RootConfig>, string, string) -> Result<(bool, Option<RootConfig>), string>

  /**
   * `r` is `s` back on the agents screen after the chosen model was set: the
   * configuration is `cfg`, a change is marked unsaved, the rows are rebuilt
   * from `cfg` with the previously selected agent selected again, and no other
   * field changes.
   */
  predicate ChoiceApplied(r: State, s: State, changed: bool, cfg: Option<RootConfig>) {
    && r.screen == ScreenAgents
    && r.agentsConfig == cfg
    && r.agentsDirty == (s.agentsDirty || changed)
    && r.agentsEntries == AgentsScreen.CollectAgentEntries(cfg, KnownAgents)
    && r.agentsSelected == AgentsScreen.AnchorAgent(r.agentsEntries, AgentsScreen.SelectedAgentName(s))
    && r.(agentsConfig := s.agentsConfig, agentsDirty := s.agentsDirty, agentsEntries := s.agentsEntries,
          agentsSelected := s.agentsSelected, screen := s.screen) == s
  }

  /** What the result of setting the chosen model does to the model, back on the agents screen. */
  function ApplyChosen(s: State, out: Result<(bool, Option<RootConfig>), string>): (r: State)
    ensures out.Failure? ==> r == s.(agentsStatus := out.error, screen := ScreenAgents)
    ensures out.Success? ==> ChoiceApplied(r, s, out.value.0, out.value.1)
  {
    match out
    case Failure(e) => s.(agentsStatus := e, screen := ScreenAgents)
    case Success((changed, cfg)) =>
      var t := s.(agentsConfig := cfg, agentsDirty := s.agentsDirty || changed);
      var u := AgentsScreen.UpdateAgentsEntries(t);
      assert AgentsScreen.SelectedAgentName(t) == AgentsScreen.SelectedAgentName(s);
      u.(screen := ScreenAgents)
  }

  /**
   * `selectModel`: sets the target agent's model to the selected result and
   * goes back to the agents screen, which it always does. Without a selected
   * result, or when setting fails, the configuration is left alone.
   */
  function SelectModel(s: State, setModel: SetModel): (r: State)
    ensures r.screen == ScreenAgents
    ensures !(0 <= s.modelSelected < |s.modelFiltered|) ==>
              r == s.(agentsStatus := "No model selected.", screen := ScreenAgents)
    ensures 0 <= s.modelSelected < |s.modelFiltered| ==>
              var out := setModel(s.agentsConfig, s.modelTargetAgent, s.modelFiltered[s.modelSelected]);
              && (out.Failure? ==> r == s.(agentsStatus := out.error, screen := ScreenAgents))
              && (out.Success? ==> ChoiceApplied(r, s, out.value.0, out.value.1))
    ensures r.modelAll == s.modelAll && r.modelSearch == s.modelSearch
    ensures r.modelFiltered == s.modelFiltered && r.modelSelected == s.modelSelected
  {
    if s.modelSelected < 0 || s.modelSelected >= |s.modelFiltered| then
      s.(agentsStatus := "No model selected.", screen := ScreenAgents)
    else
      ApplyChosen(s, setModel(s.agentsConfig, s.modelTargetAgent, s.modelFiltered[s.modelSelected]))
  }

  /**
   * `handleModelPickerKey`: esc goes back, enter chooses, a rune key extends
   * the search and backspace or delete shortens a non-empty one; of the rest
   * only the arrow keys move. No key returns a command.
   */
  function HandleModelPickerKey(s: State, k: KeyMsg, setModel: SetModel): (r: Step)
    ensures r.cmd.None?
    ensures k.kind == KeyEsc ==> r.state == s.(screen := ScreenAgents)
    ensures k.kind == KeyEnter ==> r.state == SelectModel(s, setModel)
    ensures k.kind in {KeyBackspace, KeyDelete} && s.modelSearch == "" ==> r.state == s
    ensures k.kind in {KeyBackspace, KeyDelete} && s.modelSearch != "" ==>
              r.state == UpdateModelFilter(s.(modelSearch := s.modelSearch[..|s.modelSearch| - 1]))
    ensures k.kind == KeyRunes ==> r.state == UpdateModelFilter(s.(modelSearch := s.modelSearch + k.runes))
    ensures k.kind == KeyDown ==> r.state == MoveModelSelection(s, 1)
    ensures k.kind == KeyUp ==> r.state == MoveModelSelection(s, -1)
    ensures k.kind in {KeyUnknown, KeyCtrlC, KeyPgUp, KeyPgDown} ==> r.state == s
  {
    match k.kind
    case KeyEsc => Step(s.(screen := ScreenAgents), None)
    case KeyEnter => Step(SelectModel(s, setModel), None)
    case KeyBackspace | KeyDelete =>
      if s.modelSearch != "" then
        Step(UpdateModelFilter(s.(modelSearch := s.modelSearch[..|s.modelSearch| - 1])), None)
      else Step(s, None)
    case KeyRunes => Step(UpdateModelFilter(s.(modelSearch := s.modelSearch + k.runes)), None)
    case _ =>
      var key := KeyString(k);
      if key == "j" || key == "down" then Step(MoveModelSelection(s, 1), None)
      else if key == "k" || key == "up" then Step(MoveModelSelection(s, -1), None)
      else Step(s, None)
  }

  /**
   * Every key keeps the search results coherent, and leaving the picker
   * without choosing (esc) does not touch the agents' configuration.
   */
  lemma PickerKeyKeepsCoherent(s: State, k: KeyMsg, setModel: SetModel)
    requires PickerCoherent(s)
    ensures PickerCoherent(HandleModelPickerKey(s, k, setModel).state)
    ensures k.kind == KeyEsc ==>
              var r := HandleModelPickerKey(s, k, setModel).state;
              r.agentsConfig == s.agentsConfig && !(r.agentsDirty && !s.agentsDirty)
  {
    if k.kind == KeyDown {
      MoveModelKeepsCoherent(s, 1);
    } else if k.kind == KeyUp {
      MoveModelKeepsCoherent(s, -1);
    }
  }

  /** Typing `j` or `k` searches for it instead of moving. */
  lemma LettersSearch(s: State, setModel: SetModel)
    ensures HandleModelPickerKey(s, KeyMsg(KeyRunes, "j"), setModel).state ==
            UpdateModelFilter(s.(modelSearch := s.modelSearch + "j"))
    ensures HandleModelPickerKey(s, KeyMsg(KeyRunes, "k"), setModel).state ==
            UpdateModelFilter(s.(modelSearch := s.modelSearch + "k"))
  {
  }

  // ---------------------------------------------------------------------------
  // The model list file.

  /** A line starting with `#` is a comment. */
  predicate IsComment(line: string) {
    |line| > 0 && line[0] == '#'
  }

  /** The loop of `parseModelList` over the lines of the file. */
  function ModelLines(lines: seq<string>): seq<string> {
    if |lines| == 0 then []
    else
      var line := TrimSpace(lines[0]);
      var rest := ModelLines(lines[1..]);
      if line == "" || IsComment(line) then rest else [line] + rest
  }

  /** A trimmed line names a model when it is neither blank nor a comment. */
  predicate IsModelLine(t: string) {
    t != "" && !IsComment(t)
  }

  /**
   * `parseModelList`: the trimmed lines of the file in order, repeats kept,
   * without blank lines and comments.
   */
  function ParseModelList(data: string): (r: seq<string>)
    ensures r == FilterBy(TrimEach(Split(data, '\n')), IsModelLine)
    ensures forall i | 0 <= i < |r| :: r[i] != "" && IsTrimmed(r[i]) && !IsComment(r[i])
    ensures forall m :: m in r <==> m in ModelCache.ParseLines(data) && !IsComment(m)
  {
    ModelLinesDropComments(Split(data, '\n'));
    ModelLinesIsFilter(Split(data, '\n'));
    ModelLines(Split(data, '\n'))
  }

  /** The loop keeps a trimmed line exactly when it names a model. */
  lemma {:induction false} ModelLinesIsFilter(lines: seq<string>)
    ensures ModelLines(lines) == FilterBy(TrimEach(lines), IsModelLine)
  {
    if |lines| > 0 {
      ModelLinesIsFilter(lines[1..]);
      var te := TrimEach(lines);
      assert te[0] == TrimSpace(lines[0]);
      assert te[1..] == TrimEach(lines[1..]);
    }
  }

  /** Over the same lines, the model list is the cache's line list without its comments. */
  lemma {:induction false} ModelLinesDropComments(lines: seq<string>)
    ensures ModelLines(lines) == FilterBy(TrimmedLines(lines), l => !IsComment(l))
  {
    if |lines| > 0 {
      ModelLinesDropComments(lines[1..]);
      var t := TrimSpace(lines[0]);
      var rest := TrimmedLines(lines[1..]);
      if t != "" {
        assert TrimmedLines(lines) == [t] + rest;
        assert ([t] + rest)[1..] == rest;
      }
    }
  }

  /** `parseModelList` reads what the model cache's `parseLines` reads, and drops the comments. */
  lemma ParseModelListIsCacheWithoutComments(data: string)
    ensures ParseModelList(data) == FilterBy(ModelCache.ParseLines(data), l => !IsComment(l))
  {
    ModelLinesDropComments(Split(data, '\n'));
  }

  /** `defaultModelList`. */
  const DefaultModelList: seq<string> :=
    ["gpt-4o-mini", "gpt-4o", "gpt-4.1", "gpt-4.1-mini", "gpt-4.1-nano", "gpt-4.5-preview", "o1-mini", "o1-preview"]

  /**
   * `loadModelList`, given the result of reading `configs/models.txt`: the
   * parsed list, or the default list when reading fails or finds no model.
   */
  function LoadModelList(read: Result<string, Fs.Error>): (r: seq<string>)
    ensures r != []
    ensures read.Failure? ==> r == DefaultModelList
    ensures read.Success? && ParseModelList(read.value) == [] ==> r == DefaultModelList
    ensures read.Success? && ParseModelList(read.value) != [] ==> r == ParseModelList(read.value)
  {
    match read
    case Failure(_) => DefaultModelList
    case Success(data) =>
      var models := ParseModelList(data);
      if |models| == 0 then DefaultModelList else models
  }
}

=== FILE: opencode.dfy ===
/**
 * Listing the available models through the `opencode models` command
 * (internal/opencode/models.go). Running the command is outside the model:
 * `ListModels` takes what the run produced.
 */
module Opencode {
  import opened Wrappers
  import opened Text
  import opened Order

  /** What running `opencode models` gave: standard output, standard error, and the error text if it failed. */
  datatype RunOutput = RunOutput(stdout: string, stderr: string, err: Option<string>)

  /** A model name appears in the output: some line trims to it, and it is not blank. */
  predicate Listed(data: string, m: string) {
    m != "" && TrimOfSome(m, Split(data, '\n'))
  }

  /** `parseModels`: the distinct trimmed non-blank lines, sorted. */
  function ParseModels(data: string): (r: seq<string>)
    ensures StrictlySorted(r)
    ensures forall m :: m in r <==> Listed(data, m)
  {
    var lines := TrimmedLines(Split(data, '\n'));
    TrimmedLinesMembers(Split(data, '\n'));
    var unique := DedupeFrom(lines, {});
    var sorted := SortStrings(unique);
    DistinctSorted(unique, sorted);
    SameMembers(data, lines, unique, sorted);
    sorted
  }

  lemma SameMembers(data: string, lines: seq<string>, unique: seq<string>, sorted: seq<string>)
    requires forall x :: x in lines <==> x != "" && TrimOfSome(x, Split(data, '\n'))
    requires forall x :: x in unique <==> x in lines && x !in {}
    requires multiset(sorted) == multiset(unique)
    ensures forall m :: m in sorted <==> Listed(data, m)
  {
    forall m
      ensures m in sorted <==> m in unique
    {
      assert m in sorted <==> m in multiset(sorted);
      assert m in unique <==> m in multiset(unique);
    }
  }

  lemma DistinctSorted(unique: seq<string>, sorted: seq<string>)
    requires forall i, j | 0 <= i < j < |unique| :: unique[i] != unique[j]
    requires SortedBy(sorted, Id) && multiset(sorted) == multiset(unique)
    ensures StrictlySorted(sorted)
  {
    forall i, j | 0 <= i < j < |sorted|
      ensures sorted[i] != sorted[j]
    {
      if sorted[i] == sorted[j] {
        TwiceCounts(sorted, i, j);
        MultiplicityOfDistinct(unique, sorted[i]);
      }
    }
    SortedDistinctIsStrict(sorted);
  }

  /** A value at two positions occurs at least twice. */
  lemma TwiceCounts(xs: seq<string>, i: nat, j: nat)
    requires i < j < |xs| && xs[i] == xs[j]
    ensures multiset(xs)[xs[i]] >= 2
  {
    var x := xs[i];
    assert xs == xs[..i] + [x] + xs[i + 1..j] + [x] + xs[j + 1..];
  }

  lemma {:induction false} MultiplicityOfDistinct(xs: seq<string>, x: string)
    requires forall i, j | 0 <= i < j < |xs| :: xs[i] != xs[j]
    ensures multiset(xs)[x] <= 1
  {
    if |xs| > 0 {
      assert xs == [xs[0]] + xs[1..];
      MultiplicityOfDistinct(xs[1..], x);
      if xs[0] == x {
        assert x !in xs[1..];
      }
    }
  }

  /** The parsed list is the sorted set of the listed names: the one sequence that is strictly sorted and has them all. */
  lemma ParseModelsIsSortedSet(data: string, names: set<string>)
    requires forall m :: m in names <==> Listed(data, m)
    ensures ParseModels(data) == SortedSet(names)
  {
    StrictlySortedUnique(ParseModels(data), SortedSet(names));
  }

  /**
   * `ListModels`: a failed run is an error, carrying the trimmed standard
   * error after the error text when there is any; a run that lists nothing is
   * an error too, never an empty success.
   */
  function ListModels(run: RunOutput): (r: Result<seq<string>, string>)
    ensures run.err.Some? && TrimSpace(run.stderr) == "" ==> r == Failure(run.err.value)
    ensures run.err.Some? && TrimSpace(run.stderr) != "" ==>
              r == Failure(run.err.value + ": " + TrimSpace(run.stderr))
    ensures run.err.None? && ParseModels(run.stdout) == [] ==> r == Failure("opencode models returned no models")
    ensures r.Success? ==> run.err.None? && r.value == ParseModels(run.stdout) && r.value != []
  {
    match run.err
    case Some(e) =>
      var msg := TrimSpace(run.stderr);
      if msg == "" then Failure(e) else Failure(e + ": " + msg)
    case None =>
      var models := ParseModels(run.stdout);
      if |models| == 0 then Failure("opencode models returned no models") else Success(models)
  }

  /** Output with at least one non-blank line always lists models successfully. */
  lemma NonBlankOutputLists(run: RunOutput)
    requires run.err.None?
    requires exists l | l in Split(run.stdout, '\n') :: !IsBlank(l)
    ensures ListModels(run).Success?
  {
    var l :| l in Split(run.stdout, '\n') && !IsBlank(l);
    TrimSpaceEmpty(l);
    assert Listed(run.stdout, TrimSpace(l));
  }
}

=== FILE: order.dfy ===
/**
 * Sorting in Go's string order: `sort.Strings`, `sort.Slice` keyed by a string
 * field, and the "collect a set, then sort it" idiom used for map keys.
 */
module Order {
  import opened Text

  /** The keys of `xs` are in ascending order. */
  predicate SortedBy<T>(xs: seq<T>, key: T -> string) {
    forall i, j | 0 <= i < j < |xs| :: Le(key(xs[i]), key(xs[j]))
  }

  /** Strictly ascending strings: sorted and free of duplicates. */
  predicate StrictlySorted(xs: seq<string>) {
    forall i, j | 0 <= i < j < |xs| :: Lt(xs[i], xs[j])
  }

  function Id(s: string): string {
    s
  }

  lemma PrependSorted<T>(x: T, xs: seq<T>, key: T -> string)
    requires SortedBy(xs, key)
    requires forall k | 0 <= k < |xs| :: Le(key(x), key(xs[k]))
    ensures SortedBy([x] + xs, key)
  {
  }

  lemma InsertHeadBound<T>(x: T, y: T, xs: seq<T>, r: seq<T>, key: T -> string)
    requires SortedBy([y] + xs, key)
    requires Le(key(y), key(x))
    requires multiset(r) == multiset(xs) + multiset{x}
    ensures forall k | 0 <= k < |r| :: Le(key(y), key(r[k]))
  {
    forall k | 0 <= k < |r|
      ensures Le(key(y), key(r[k]))
    {
      assert r[k] in multiset(r);
      assert ([y] + xs)[0] == y;
      if r[k] != x {
        assert r[k] in multiset(xs);
        var j :| 0 <= j < |xs| && xs[j] == r[k];
        assert ([y] + xs)[j + 1] == r[k];
      }
    }
  }

  /** Inserts `x` into a sorted sequence, after every element whose key is smaller. */
  function InsertBy<T>(x: T, xs: seq<T>, key: T -> string): (r: seq<T>)
    requires SortedBy(xs, key)
    ensures SortedBy(r, key)
    ensures multiset(r) == multiset(xs) + multiset{x}
    ensures |r| == |xs| + 1
  {
    if |xs| == 0 then [x]
    else if Le(key(x), key(xs[0])) then
      assert forall k | 0 <= k < |xs| :: Le(key(x), key(xs[k])) by {
        forall k | 0 <= k < |xs|
          ensures Le(key(x), key(xs[k]))
        {
          if k > 0 {
            LeTrans(key(x), key(xs[0]), key(xs[k]));
          }
        }
      }
      PrependSorted(x, xs, key);
      [x] + xs
    else
      LeTotal(key(x), key(xs[0]));
      var rest := InsertBy(x, xs[1..], key);
      assert [xs[0]] + xs[1..] == xs;
      InsertHeadBound(x, xs[0], xs[1..], rest, key);
      PrependSorted(xs[0], rest, key);
      [xs[0]] + rest
  }

  /** Insertion sort by key: a sorted permutation of `xs`. */
  function SortBy<T>(xs: seq<T>, key: T -> string): (r: seq<T>)
    ensures SortedBy(r, key)
    ensures multiset(r) == multiset(xs)
    ensures |r| == |xs|
  {
    if |xs| == 0 then []
    else
      assert xs == xs[..|xs| - 1] + [xs[|xs| - 1]];
      InsertBy(xs[|xs| - 1], SortBy(xs[..|xs| - 1], key), key)
  }

  /** `sort.Strings`. */
  function SortStrings(xs: seq<string>): (r: seq<string>)
    ensures SortedBy(r, Id)
    ensures multiset(r) == multiset(xs)
  {
    SortBy(xs, Id)
  }

  lemma MinExists(s: set<string>)
    requires s != {}
    ensures exists m :: m in s && forall y | y in s :: Le(m, y)
  {
    var a :| a in s;
    LeRefl(a);
    if s == {a} {
      assert forall y | y in s :: Le(a, y);
    } else {
      MinExists(s - {a});
      var m :| m in s - {a} && forall y | y in s - {a} :: Le(m, y);
      if Le(m, a) {
        assert forall y | y in s :: Le(m, y);
        assert m in s;
      } else {
        LeTotal(m, a);
        forall y | y in s
          ensures Le(a, y)
        {
          if y != a {
            LeTrans(a, m, y);
          }
        }
      }
    }
  }

  /** The least string of a non-empty finite set. */
  function MinOf(s: set<string>): (m: string)
    requires s != {}
    ensures m in s
    ensures forall y | y in s :: Le(m, y)
  {
    MinExists(s);
    LeIsTotalOrder();
    var m :| m in s && forall y | y in s :: Le(m, y);
    m
  }

  /** The elements of a finite set in ascending order, as a map's keys collected and sorted. */
  function SortedSet(s: set<string>): (r: seq<string>)
    ensures StrictlySorted(r)
    ensures forall x :: x in r <==> x in s
    ensures |r| == |s|
    decreases |s|
  {
    if s == {} then []
    else
      var m := MinOf(s);
      var rest := SortedSet(s - {m});
      MinBeforeRest(s, m, rest);
      [m] + rest
  }

  /** The least element of a set, followed by the rest of it strictly sorted, is strictly sorted. */
  lemma MinBeforeRest(s: set<string>, m: string, rest: seq<string>)
    requires m in s && forall y | y in s :: Le(m, y)
    requires StrictlySorted(rest) && forall x :: x in rest <==> x in s - {m}
    ensures StrictlySorted([m] + rest)
  {
    var xs := [m] + rest;
    forall i, j | 0 <= i < j < |xs|
      ensures Lt(xs[i], xs[j])
    {
      assert xs[j] == rest[j - 1];
      if i == 0 {
        assert rest[j - 1] in rest;
      } else {
        assert xs[i] == rest[i - 1];
      }
    }
  }

  /** Drops every element that occurred earlier (or in `seen`), keeping first occurrences in order. */
  function DedupeFrom(xs: seq<string>, seen: set<string>): (r: seq<string>)
    ensures forall x :: x in r <==> x in xs && x !in seen
    ensures forall i, j | 0 <= i < j < |r| :: r[i] != r[j]
  {
    if |xs| == 0 then []
    else if xs[0] in seen then DedupeFrom(xs[1..], seen)
    else [xs[0]] + DedupeFrom(xs[1..], seen + {xs[0]})
  }

  /** A sorted sequence without duplicates is strictly sorted. */
  lemma SortedDistinctIsStrict(xs: seq<string>)
    requires SortedBy(xs, Id)
    requires forall i, j | 0 <= i < j < |xs| :: xs[i] != xs[j]
    ensures StrictlySorted(xs)
  {
  }

  /** Two strictly sorted sequences with the same elements are equal. */
  lemma {:induction false} StrictlySortedUnique(a: seq<string>, b: seq<string>)
    requires StrictlySorted(a) && StrictlySorted(b)
    requires forall x :: x in a <==> x in b
    ensures a == b
    decreases |a|
  {
    assert |a| > 0 ==> a[0] in a;
    assert |b| > 0 ==> b[0] in b;
    if |a| > 0 && |b| > 0 {
      if a[0] != b[0] {
        assert a[0] in a && b[0] in b;
        var i :| 0 <= i < |b| && b[i] == a[0];
        var j :| 0 <= j < |a| && a[j] == b[0];
        LeAntisym(a[0], b[0]);
        assert false;
      }
      assert a == [a[0]] + a[1..];
      assert b == [b[0]] + b[1..];
      forall x
        ensures x in a[1..] <==> x in b[1..]
      {
        if x in a[1..] {
          var k :| 1 <= k < |a| && a[k] == x;
          assert Lt(a[0], a[k]);
          assert x in a;
          var t :| 0 <= t < |b| && b[t] == x;
          assert b[1..][t - 1] == x;
        }
        if x in b[1..] {
          var k :| 1 <= k < |b| && b[k] == x;
          assert Lt(b[0], b[k]);
          assert x in b;
          var t :| 0 <= t < |a| && a[t] == x;
          assert a[1..][t - 1] == x;
        }
      }
      StrictlySortedUnique(a[1..], b[1..]);
      assert a == [a[0]] + a[1..];
      assert b == [b[0]] + b[1..];
    }
  }
  /** No two positions of `xs` hold the same key. */
  predicate DistinctKeys<T>(xs: seq<T>, key: T -> string) {
    forall i, j | 0 <= i < j < |xs| :: key(xs[i]) != key(xs[j])
  }

  /** A new first element whose key differs from every other key keeps the keys distinct. */
  lemma PrependDistinct<T>(x: T, rest: seq<T>, key: T -> string)
    requires DistinctKeys(rest, key)
    requires forall k | 0 <= k < |rest| :: key(x) != key(rest[k])
    ensures DistinctKeys([x] + rest, key)
  {
    var xs := [x] + rest;
    forall i, j | 0 <= i < j < |xs|
      ensures key(xs[i]) != key(xs[j])
    {
      assert xs[j] == rest[j - 1];
      if i > 0 {
        assert xs[i] == rest[i - 1];
      }
    }
  }

  /** An element occurs at most once in a list whose keys are distinct. */
  lemma {:induction false} DistinctKeysCount<T>(xs: seq<T>, key: T -> string, x: T)
    requires DistinctKeys(xs, key)
    ensures multiset(xs)[x] <= 1
    decreases |xs|
  {
    if |xs| > 0 {
      assert xs == [xs[0]] + xs[1..];
      DistinctKeysCount(xs[1..], key, x);
      if x == xs[0] {
        assert forall k | 0 <= k < |xs[1..]| :: xs[1..][k] == xs[k + 1];
      }
    }
  }

  /** An element found at two positions occurs at least twice. */
  lemma RepeatCount<T>(ys: seq<T>, i: nat, j: nat)
    requires i < j < |ys| && ys[i] == ys[j]
    ensures multiset(ys)[ys[i]] >= 2
  {
    assert ys == ys[..j] + ys[j..];
    assert ys[..j][i] == ys[i];
    assert ys[j..][0] == ys[i];
  }

  /** Reordering a list with distinct keys keeps the keys distinct. */
  lemma PermKeepsDistinctKeys<T>(xs: seq<T>, ys: seq<T>, key: T -> string)
    requires multiset(xs) == multiset(ys)
    requires DistinctKeys(xs, key)
    ensures DistinctKeys(ys, key)
  {
    forall i, j | 0 <= i < j < |ys|
      ensures key(ys[i]) != key(ys[j])
    {
      if key(ys[i]) == key(ys[j]) {
        assert ys[i] in multiset(ys) && ys[j] in multiset(ys);
        var a :| 0 <= a < |xs| && xs[a] == ys[i];
        var b :| 0 <= b < |xs| && xs[b] == ys[j];
        assert a == b;
        RepeatCount(ys, i, j);
        DistinctKeysCount(xs, key, ys[i]);
        assert false;
      }
    }
  }

  /** Sorted by a key that no two elements share: strictly ascending keys. */
  lemma SortedDistinctKeysStrict<T>(xs: seq<T>, key: T -> string)
    requires SortedBy(xs, key) && DistinctKeys(xs, key)
    ensures forall i, j | 0 <= i < j < |xs| :: Lt(key(xs[i]), key(xs[j]))
  {
  }

  /** The keys of `xs` are in descending order. */
  predicate SortedDescending(xs: seq<string>) {
    forall i, j | 0 <= i < j < |xs| :: Le(xs[j], xs[i])
  }

  function Reverse<T>(xs: seq<T>): (r: seq<T>)
    ensures |r| == |xs|
    ensures forall i | 0 <= i < |xs| :: r[i] == xs[|xs| - 1 - i]
    ensures multiset(r) == multiset(xs)
  {
    if |xs| == 0 then []
    else
      assert xs == [xs[0]] + xs[1..];
      Reverse(xs[1..]) + [xs[0]]
  }

  /** `sort.Slice` with `a[i] > a[j]`: the strings in descending order. */
  function SortDescending(xs: seq<string>): (r: seq<string>)
    ensures SortedDescending(r)
    ensures multiset(r) == multiset(xs)
  {
    Reverse(SortStrings(xs))
  }
}

=== FILE: overlays.dfy ===
/**
 * The status bar, the confirmation dialog and the key hints
 * (internal/tui/overlays.go).
 */
module Overlays {
  import opened Wrappers
  import opened Keys
  import opened TuiState

  /** `setStatus`: a non-empty message is cleared by the next key press. */
  function SetStatus(s: State, kind: StatusKind, msg: string): (r: State)
    ensures r.status.kind == kind && r.status.message == msg
    ensures r.status.clearOnNextKey <==> msg != ""
    ensures r.(status := s.status) == s
  {
    s.(status := StatusBar(kind, msg, msg != ""))
  }

  /**
   * `clearStatusForKey`: the key press that follows a message resets the status
   * bar, unless the message did not ask for that, is empty, or the key is `?`.
   */
  function ClearStatusForKey(s: State, key: string): (r: State)
    ensures s.status.clearOnNextKey && s.status.message != "" && key != "?" ==> r == s.(status := ZeroStatus)
    ensures !s.status.clearOnNextKey || s.status.message == "" || key == "?" ==> r == s
  {
    if !s.status.clearOnNextKey || s.status.message == "" then s
    else if key == "?" then s
    else s.(status := ZeroStatus)
  }

  /** A message set by `SetStatus` survives `?` and disappears on any other key. */
  lemma StatusLastsOneKey(s: State, kind: StatusKind, msg: string, key: string)
    requires msg != ""
    ensures var t := SetStatus(s, kind, msg);
      && (key == "?" ==> ClearStatusForKey(t, key) == t)
      && (key != "?" ==> ClearStatusForKey(t, key).status == ZeroStatus)
      && ClearStatusForKey(t, key).(status := s.status) == s
  {
  }

  /** `openConfirm`. */
  function OpenConfirm(s: State, prompt: string, onYes: Option<nat>): (r: State)
    ensures r.confirm.open && r.confirm.prompt == prompt && r.confirm.onYes == onYes
    ensures r.(confirm := s.confirm) == s
  {
    s.(confirm := Confirm(true, prompt, onYes))
  }

  /**
   * `handleConfirmKey`. `runYes` stands for the callbacks: it is what running
   * action `a` on a model does. The dialog is closed before the callback runs.
   */
  function HandleConfirmKey(s: State, key: KeyMsg, runYes: (State, nat) -> Step): (r: Step)
    ensures KeyString(key) in {"y", "Y"} && s.confirm.onYes.None? ==> r == Step(s.(confirm := ZeroConfirm), None)
    ensures KeyString(key) in {"y", "Y"} && s.confirm.onYes.Some? ==>
              r == runYes(s.(confirm := ZeroConfirm), s.confirm.onYes.value)
    ensures KeyString(key) in {"n", "N", "esc"} ==> r == Step(s.(confirm := ZeroConfirm), None)
    ensures KeyString(key) !in {"y", "Y", "n", "N", "esc"} ==> r == Step(s, None)
  {
    var k := KeyString(key);
    if k == "y" || k == "Y" then
      var closed := s.(confirm := ZeroConfirm);
      match s.confirm.onYes
      case None => Step(closed, None)
      case Some(a) => runYes(closed, a)
    else if k == "n" || k == "N" || k == "esc" then Step(s.(confirm := ZeroConfirm), None)
    else Step(s, None)
  }

  const ConfirmHints: string := "y yes · n no · esc cancel · q quit"
  const HelpHints: string := "esc close · q quit"
  const BackupsHints: string := "esc back · ? help · q quit"
  const DiffHints: string := "j/k scroll · pgup/pgdown page · a/d diff mode · esc back · ? help · q quit"
  const AgentsHints: string := "j/k move · enter models · s save · r reload · a autofill · esc back · ? help · q quit"
  const ModelsHints: string :=
    "type search · ctrl+u clear · j/k move · pgup/pgdown page · enter select · R refresh · esc cancel · ? help · q quit"
  const FilterHints: string := "type filter · ctrl+u clear · enter done · esc cancel · j/k move · ? help · q quit"
  const ProfilesHints: string := "j/k move · / filter · enter apply · e agents · b backups · d diff · ? help · q quit"

  /** The hints of the screen itself, when no overlay is open. */
  function ScreenHints(s: State): string {
    match s.screen
    case ScreenBackups => BackupsHints
    case ScreenDiff => DiffHints
    case ScreenAgents => AgentsHints
    case ScreenModels => ModelsHints
    case ScreenProfiles => if s.profileFilterMode then FilterHints else ProfilesHints
  }

  /** `statusHints`: an open dialog wins over open help, which wins over the screen. */
  function StatusHints(s: State): (r: string)
    ensures s.confirm.open ==> r == ConfirmHints
    ensures !s.confirm.open && s.helpOpen ==> r == HelpHints
    ensures !s.confirm.open && !s.helpOpen ==> r == ScreenHints(s)
  {
    if s.confirm.open then ConfirmHints
    else if s.helpOpen then HelpHints
    else ScreenHints(s)
  }

  /** Answering the dialog with no takes its hints off the status bar. */
  lemma DeclineRestoresHints(s: State, key: KeyMsg, runYes: (State, nat) -> Step)
    requires s.confirm.open && KeyString(key) in {"n", "N", "esc"}
    ensures StatusHints(s) == ConfirmHints
    ensures StatusHints(HandleConfirmKey(s, key, runYes).state) == StatusHints(s.(confirm := ZeroConfirm))
    ensures StatusHints(HandleConfirmKey(s, key, runYes).state) != ConfirmHints
  {
    var t := s.(confirm := ZeroConfirm);
    assert StatusHints(t) != ConfirmHints by {
      assert |ConfirmHints| == 34 && |HelpHints| == 18 && |BackupsHints| == 26;
      assert |DiffHints| == 74 && |AgentsHints| == 85 && |ModelsHints| == 114;
      assert |FilterHints| == 81 && |ProfilesHints| == 83;
    }
  }

  /** `isCtrlU`: the named key, or the raw control character 0x15 delivered as a rune. */
  function IsCtrlU(key: KeyMsg): (r: bool)
    ensures key.kind == KeyRunes ==> (r <==> key.runes == "ctrl+u" || key.runes == "\U{15}")
    ensures key.kind != KeyRunes ==> !r
  {
    KeyString(key) == "ctrl+u" || (key.kind == KeyRunes && |key.runes| == 1 && key.runes[0] == '\U{15}')
  }

  /** The terminal decoder turns the byte 0x15 into a key that counts as ctrl+u. */
  lemma CtrlUFromTerminal(rest: seq<byte>)
    ensures ReadKeyMsg([0x15 as byte] + rest).Success?
    ensures IsCtrlU(ReadKeyMsg([0x15 as byte] + rest).value.key)
  {
    var input := [0x15 as byte] + rest;
    assert input[0] == 0x15;
    assert ReadKeyMsg(input) == Success(Decoded(KeyMsg(KeyRunes, ['\U{15}']), 1));
  }
}

=== FILE: profile.dfy ===
/**
 * Profile domain rules (internal/profile): the known agents, which of them lack
 * a model, filling those in from a preset, and finding profile files in a
 * directory listing.
 */
module Profile {
  import opened Wrappers
  import opened Text
  import opened Order
  import Selection
  import Fs

  /** The per-agent part of a profile; only the model matters here. */
  datatype AgentConfig = AgentConfig(model: string)

  /** `RootConfig`: `agents` is absent for a nil map. */
  datatype RootConfig = RootConfig(schema: string, agents: Option<map<string, AgentConfig>>)

  /** The agents of a configuration, an absent map read as empty (as a nil map reads in Go). */
  function AgentsOf(cfg: RootConfig): map<string, AgentConfig> {
    if cfg.agents.Some? then cfg.agents.value else map[]
  }

  /** `KnownAgents`. */
  const KnownAgents: seq<string> :=
    ["sisyphus", "prometheus", "oracle", "librarian", "explore", "multimodal-looker", "metis", "momus", "atlas"]

  /** An agent is missing when it is absent or its model is blank. */
  predicate IsMissing(agents: map<string, AgentConfig>, agent: string) {
    agent !in agents || IsBlank(agents[agent].model)
  }

  /** The known agents that are missing, in the order of the known list. */
  function MissingInOrder(agents: map<string, AgentConfig>, known: seq<string>): (r: seq<string>)
    ensures forall x :: x in r <==> x in known && IsMissing(agents, x)
    ensures multiset(r) <= multiset(known)
  {
    if |known| == 0 then []
    else
      var rest := MissingInOrder(agents, known[1..]);
      assert known == [known[0]] + known[1..];
      assert multiset(known) == multiset{known[0]} + multiset(known[1..]);
      if IsMissing(agents, known[0]) then [known[0]] + rest else rest
  }

  /** `MissingAgents`: the known agents without a usable model, sorted; every known agent for a nil config. */
  function MissingAgents(cfg: Option<RootConfig>, known: seq<string>): (r: seq<string>)
    ensures SortedBy(r, Id)
    ensures cfg.None? ==> multiset(r) == multiset(known)
    ensures cfg.Some? ==> forall x :: x in r <==> x in known && IsMissing(AgentsOf(cfg.value), x)
    ensures multiset(r) <= multiset(known)
  {
    match cfg
    case None => SortStrings(known)
    case Some(c) =>
      var m := MissingInOrder(AgentsOf(c), known);
      var r := SortStrings(m);
      assert forall x :: x in r <==> x in multiset(r);
      assert forall x :: x in m <==> x in multiset(m);
      r
  }

  /** Nothing is missing exactly when every known agent has a non-blank model. */
  lemma NoneMissing(cfg: RootConfig, known: seq<string>)
    ensures MissingAgents(Some(cfg), known) == [] <==>
              forall a | a in known :: a in AgentsOf(cfg) && !IsBlank(AgentsOf(cfg)[a].model)
  {
    var r := MissingAgents(Some(cfg), known);
    if r != [] {
      assert r[0] in r;
    }
  }

  // ---------------------------------------------------------------------------
  // Autofill presets.

  datatype Preset = Preset(name: string, model: string)

  /** `PresetByName`: only "openai" is known. */
  function PresetByName(name: string): (r: Option<Preset>)
    ensures r.Some? <==> name == "openai"
    ensures r.Some? ==> r.value == Preset("openai", "gpt-4o-mini")
  {
    if name == "openai" then Some(Preset("openai", "gpt-4o-mini")) else None
  }

  /** The agent map after filling the known agents in order, and whether anything was filled. */
  function FillAgents(agents: map<string, AgentConfig>, known: seq<string>, model: string)
    : (r: (map<string, AgentConfig>, bool))
    ensures forall b :: b in r.0 <==> b in agents || b in known
    ensures forall b | b in known :: r.0[b] == if IsMissing(agents, b) then AgentConfig(model) else agents[b]
    ensures forall b | b in agents && b !in known :: r.0[b] == agents[b]
    ensures r.1 <==> exists b | b in known :: IsMissing(agents, b)
    decreases |known|
  {
    if |known| == 0 then (agents, false)
    else
      var a := known[0];
      var tail := known[1..];
      assert known == [a] + tail;
      var missing := IsMissing(agents, a);
      var next := if missing then agents[a := AgentConfig(model)] else agents;
      var (filled, changedLater) := FillAgents(next, tail, model);
      FillKeys(agents, a, tail, next, filled);
      FillValues(agents, a, tail, model, next, filled);
      FillChanged(agents, a, tail, model, next, changedLater);
      (filled, missing || changedLater)
  }

  lemma FillKeys(agents: map<string, AgentConfig>, a: string, tail: seq<string>,
                 next: map<string, AgentConfig>, filled: map<string, AgentConfig>)
    requires a in next && forall b | b != a :: b in next <==> b in agents
    requires forall b :: b in filled <==> b in next || b in tail
    ensures forall b :: b in filled <==> b in agents || b in [a] + tail
  {
  }

  lemma FillValues(agents: map<string, AgentConfig>, a: string, tail: seq<string>, model: string,
                   next: map<string, AgentConfig>, filled: map<string, AgentConfig>)
    requires next == if IsMissing(agents, a) then agents[a := AgentConfig(model)] else agents
    requires forall b :: b in filled <==> b in next || b in tail
    requires forall b | b in tail :: filled[b] == if IsMissing(next, b) then AgentConfig(model) else next[b]
    requires forall b | b in next && b !in tail :: filled[b] == next[b]
    ensures forall b | b in [a] + tail :: filled[b] == if IsMissing(agents, b) then AgentConfig(model) else agents[b]
    ensures forall b | b in agents && b !in [a] + tail :: filled[b] == agents[b]
  {
    forall b | b in [a] + tail
      ensures filled[b] == if IsMissing(agents, b) then AgentConfig(model) else agents[b]
    {
      if b != a {
        assert b in tail;
      }
    }
  }

  lemma FillChanged(agents: map<string, AgentConfig>, a: string, tail: seq<string>, model: string,
                    next: map<string, AgentConfig>, changedLater: bool)
    requires next == if IsMissing(agents, a) then agents[a := AgentConfig(model)] else agents
    requires changedLater <==> exists b | b in tail :: IsMissing(next, b)
    ensures (IsMissing(agents, a) || changedLater) <==> exists b | b in [a] + tail :: IsMissing(agents, b)
  {
    if !IsMissing(agents, a) {
      assert next == agents;
    } else {
      assert a in [a] + tail;
    }
    if changedLater {
      var b :| b in tail && IsMissing(next, b);
      assert b in [a] + tail;
    }
  }

  /**
   * `ApplyAutofill`: gives every missing known agent the preset's model and
   * reports whether it changed anything. The configuration is updated in place
   * in Go; here the updated configuration is returned alongside.
   */
  function ApplyAutofill(cfg: Option<RootConfig>, known: seq<string>, preset: Preset)
    : (r: (bool, Option<RootConfig>))
    ensures cfg.None? ==> r == (false, None)
    ensures cfg.Some? ==> r.1.Some? && r.1.value.schema == cfg.value.schema && r.1.value.agents.Some?
    ensures cfg.Some? ==> (r.0 <==> exists a | a in known :: IsMissing(AgentsOf(cfg.value), a))
    ensures cfg.Some? ==> var before, after := AgentsOf(cfg.value), AgentsOf(r.1.value);
      && (forall b :: b in after <==> b in before || b in known)
      && (forall a | a in known :: after[a] == if IsMissing(before, a) then AgentConfig(preset.model) else before[a])
      && (forall a | a in before && a !in known :: after[a] == before[a])
  {
    match cfg
    case None => (false, None)
    case Some(c) =>
      var (agents, changed) := FillAgents(AgentsOf(c), known, preset.model);
      (changed, Some(c.(agents := Some(agents))))
  }

  /** With a usable preset model, nothing is missing after autofill and a second autofill changes nothing. */
  lemma AutofillCompletes(cfg: RootConfig, known: seq<string>, preset: Preset)
    requires !IsBlank(preset.model)
    ensures var after := ApplyAutofill(Some(cfg), known, preset).1;
      && MissingAgents(after, known) == []
      && !ApplyAutofill(after, known, preset).0
  {
    var after := ApplyAutofill(Some(cfg), known, preset).1;
    NoneMissing(after.value, known);
  }

  /** An autofill changes something exactly when some known agent is missing. */
  lemma NoneMissingIffUnchanged(cfg: RootConfig, known: seq<string>, preset: Preset)
    ensures MissingAgents(Some(cfg), known) == [] <==> !ApplyAutofill(Some(cfg), known, preset).0
  {
    var r := MissingAgents(Some(cfg), known);
    if r != [] {
      assert r[0] in r;
    }
  }

  // ---------------------------------------------------------------------------
  // Discovery.

  const ProfilePrefix: string := "oh-my-opencode.json."
  const BackupMarker: string := ".bak."

  datatype ProfileInfo = ProfileInfo(name: string, path: string)

  function InfoName(p: ProfileInfo): string {
    p.name
  }

  /** A directory entry is a profile file: not a directory, not a backup, the profile prefix and something after it. */
  predicate IsProfileEntry(e: Fs.DirEntry) {
    !e.isDir && !Contains(e.name, BackupMarker) && HasPrefix(e.name, ProfilePrefix) && |e.name| > |ProfilePrefix|
  }

  /** One profile per profile entry of the listing, in the listing's order. */
  function ProfilesIn(dir: string, entries: seq<Fs.DirEntry>): (ps: seq<ProfileInfo>)
    ensures forall p :: p in ps <==> exists e | e in entries && IsProfileEntry(e) ::
              p == ProfileInfo(TrimPrefix(e.name, ProfilePrefix), Fs.PathJoin(dir, e.name))
    ensures |ps| == |Selection.FilterBy(entries, IsProfileEntry)|
  {
    if |entries| == 0 then []
    else
      var e := entries[0];
      var rest := ProfilesIn(dir, entries[1..]);
      assert entries == [e] + entries[1..];
      if IsProfileEntry(e) then [ProfileInfo(TrimPrefix(e.name, ProfilePrefix), Fs.PathJoin(dir, e.name))] + rest
      else rest
  }

  /** When every entry name follows `ProfilePrefix + lo`, every profile name follows `lo`. */
  lemma {:induction false} ProfilesInAbove(dir: string, entries: seq<Fs.DirEntry>, lo: string)
    requires forall i | 0 <= i < |entries| :: Lt(ProfilePrefix + lo, entries[i].name)
    ensures forall k | 0 <= k < |ProfilesIn(dir, entries)| :: Lt(lo, ProfilesIn(dir, entries)[k].name)
    decreases |entries|
  {
    if |entries| > 0 {
      var e := entries[0];
      var tail := entries[1..];
      assert forall i | 0 <= i < |tail| :: tail[i] == entries[i + 1];
      ProfilesInAbove(dir, tail, lo);
      if IsProfileEntry(e) {
        var name := TrimPrefix(e.name, ProfilePrefix);
        assert ProfilePrefix + name == e.name;
        LtDropPrefix(ProfilePrefix, lo, name);
      }
    }
  }

  /** Profiles taken from entries with ascending names have distinct names. */
  lemma {:induction false} ProfilesInAscending(dir: string, entries: seq<Fs.DirEntry>)
    requires Fs.NamesAscending(entries)
    ensures DistinctKeys(ProfilesIn(dir, entries), InfoName)
    decreases |entries|
  {
    if |entries| > 0 {
      var e := entries[0];
      var tail := entries[1..];
      Fs.AscendingTail(entries);
      var rest := ProfilesIn(dir, tail);
      ProfilesInAscending(dir, tail);
      if IsProfileEntry(e) {
        var name := TrimPrefix(e.name, ProfilePrefix);
        assert ProfilePrefix + name == e.name;
        ProfilesInAbove(dir, tail, name);
        var ps := ProfilesIn(dir, entries);
        assert ps == [ps[0]] + rest && ps[0].name == name;
        PrependDistinct(ps[0], rest, InfoName);
      }
    }
  }

  /** `DiscoverProfiles` over the listing `os.ReadDir` returned: the profile files, sorted by name. */
  function DiscoverProfiles(dir: string, listing: Result<seq<Fs.DirEntry>, Fs.Error>)
    : (r: Result<seq<ProfileInfo>, Fs.Error>)
    ensures listing.Failure? ==> r == Failure(listing.error)
    ensures r.Success? ==> SortedBy(r.value, InfoName)
    ensures r.Success? ==> |r.value| == |Selection.FilterBy(listing.value, IsProfileEntry)|
    ensures r.Success? && Fs.NamesAscending(listing.value) ==>
              forall i, j | 0 <= i < j < |r.value| :: Lt(r.value[i].name, r.value[j].name)
    ensures r.Success? ==> forall p :: p in r.value <==> exists e | e in listing.value && IsProfileEntry(e) ::
              p == ProfileInfo(TrimPrefix(e.name, ProfilePrefix), Fs.PathJoin(dir, e.name))
    ensures r.Success? ==> forall p | p in r.value :: p.name != "" && !Contains(ProfilePrefix + p.name, BackupMarker)
  {
    match listing
    case Failure(e) => Failure(e)
    case Success(entries) =>
      var ps := ProfilesIn(dir, entries);
      var sorted := SortBy(ps, InfoName);
      assert Fs.NamesAscending(entries) ==> forall i, j | 0 <= i < j < |sorted| :: Lt(sorted[i].name, sorted[j].name) by {
        if Fs.NamesAscending(entries) {
          ProfilesInAscending(dir, entries);
          PermKeepsDistinctKeys(ps, sorted, InfoName);
          SortedDistinctKeysStrict(sorted, InfoName);
        }
      }
      assert forall p :: p in sorted <==> p in multiset(sorted);
      assert forall p :: p in ps <==> p in multiset(ps);
      forall p | p in sorted
        ensures p.name != "" && !Contains(ProfilePrefix + p.name, BackupMarker)
      {
        var e :| e in entries && IsProfileEntry(e) &&
          p == ProfileInfo(TrimPrefix(e.name, ProfilePrefix), Fs.PathJoin(dir, e.name));
        assert ProfilePrefix + p.name == e.name;
      }
      Success(sorted)
  }

  /** Over a real directory listing, discovery names each profile once, in ascending order. */
  lemma DiscoverFromReadDir(fs: Fs.FileSystem, dir: string)
    requires Fs.ReadDir(fs).Success?
    ensures var r := DiscoverProfiles(dir, Fs.ReadDir(fs));
      r.Success? && forall i, j | 0 <= i < j < |r.value| :: Lt(r.value[i].name, r.value[j].name)
  {
  }
}

=== FILE: profiles_screen.dfy ===
/**
 * The profile list (internal/tui/model.go and internal/tui/screens_profiles.go):
 * the initial selection, the older key handling of model.go, and the newer
 * profiles screen with its name filter.
 */
module ProfilesScreen {
  import opened Wrappers
  import opened Text
  import opened Keys
  import opened Profile
  import opened Selection
  import opened TuiState
  import Overlays
  import Tea

  // ---------------------------------------------------------------------------
  // model.go

  /** The first index listing `activeName` when `hasActive`; otherwise, or when it is not listed, 0. */
  function InitialSelection(profiles: seq<ProfileInfo>, activeName: string, hasActive: bool): (i: int)
    ensures |profiles| == 0 <==> i == -1
    ensures |profiles| > 0 ==> 0 <= i < |profiles|
  {
    if |profiles| == 0 then -1
    else if !hasActive then 0
    else
      match IndexOf(profiles, InfoName, activeName)
      case None => 0
      case Some(j) => j
  }

  /**
   * `newModel`: selects the active profile when it is listed (its first
   * occurrence), else the first profile, and nothing in an empty list. Every
   * other field starts at its zero value.
   */
  function NewModel(configDir: string, profiles: seq<ProfileInfo>, activeName: string, hasActive: bool): (r: State)
    ensures r.configDir == configDir && r.profiles == profiles
    ensures r.activeName == activeName && r.hasActive == hasActive
    ensures r.selected == -1 <==> |profiles| == 0
    ensures |profiles| > 0 ==> 0 <= r.selected < |profiles|
    ensures hasActive && (exists i | 0 <= i < |profiles| :: profiles[i].name == activeName) ==>
              && 0 <= r.selected < |profiles| && profiles[r.selected].name == activeName
              && forall j | 0 <= j < r.selected :: profiles[j].name != activeName
    ensures |profiles| > 0 && (!hasActive || forall i | 0 <= i < |profiles| :: profiles[i].name != activeName) ==>
              r.selected == 0
    ensures r.(configDir := "", profiles := [], activeName := "", hasActive := false, selected := 0) == Blank
  {
    var selected := InitialSelection(profiles, activeName, hasActive);
    Blank.(configDir := configDir, profiles := profiles, activeName := activeName, hasActive := hasActive,
           selected := selected)
  }

  /** `Init`: the profile list starts without a command. */
  function Init(s: State): (c: Option<Cmd>)
    ensures c.None?
  {
    None
  }

  /**
   * `moveSelection` as written in model.go: bounded by the full profile list,
   * which is what the list model.go itself draws.
   */
  function MoveSelection(s: State, delta: int): (r: State)
    ensures |s.profiles| == 0 ==> r == s
    ensures |s.profiles| > 0 ==> 0 <= r.selected < |s.profiles|
    ensures r.(selected := s.selected) == s
  {
    s.(selected := Move(s.selected, delta, |s.profiles|))
  }

  const ActionsLater: string := "Actions will come in next phase."

  /**
   * `Update` of model.go: `q`, `esc` and `ctrl+c` quit, `j`/`down` and
   * `k`/`up` move, `enter` only sets the status text; nothing else reacts.
   */
  function Update<A>(s: State, msg: Tea.Msg<A>): (r: Step)
    ensures !msg.KeyPress? ==> r == Step(s, None)
    ensures msg.KeyPress? && KeyString(msg.key) in {"q", "esc", "ctrl+c"} ==> r == Step(s, Some(Quit))
    ensures r.cmd.Some? ==> r == Step(s, Some(Quit))
    ensures msg.KeyPress? && KeyString(msg.key) in {"j", "down"} ==> r.state == MoveSelection(s, 1)
    ensures msg.KeyPress? && KeyString(msg.key) in {"k", "up"} ==> r.state == MoveSelection(s, -1)
    ensures msg.KeyPress? && KeyString(msg.key) == "enter" ==> r == Step(s.(statusLine := ActionsLater), None)
    ensures msg.KeyPress? && KeyString(msg.key) !in {"q", "esc", "ctrl+c", "j", "down", "k", "up", "enter"} ==>
              r == Step(s, None)
    ensures || r.state == s || r.state == s.(statusLine := ActionsLater)
            || r.state == MoveSelection(s, 1) || r.state == MoveSelection(s, -1)
  {
    match msg
    case KeyPress(k) =>
      var key := KeyString(k);
      if key == "q" || key == "esc" || key == "ctrl+c" then Step(s, Some(Quit))
      else if key == "j" || key == "down" then Step(MoveSelection(s, 1), None)
      else if key == "k" || key == "up" then Step(MoveSelection(s, -1), None)
      else if key == "enter" then Step(s.(statusLine := ActionsLater), None)
      else Step(s, None)
    case _ => Step(s, None)
  }

  /** In model.go's own terms the selection always indexes the profile list, from `NewModel` on. */
  lemma UpdateKeepsSelection<A>(s: State, msg: Tea.Msg<A>)
    requires ValidIndex(s.selected, |s.profiles|)
    ensures ValidIndex(Update(s, msg).state.selected, |s.profiles|)
    ensures Update(s, msg).state.profiles == s.profiles
  {
    var t := Update(s, msg).state;
    if t == MoveSelection(s, 1) {
      MoveKeepsValid(s.selected, 1, |s.profiles|);
    } else if t == MoveSelection(s, -1) {
      MoveKeepsValid(s.selected, -1, |s.profiles|);
    }
  }

  // ---------------------------------------------------------------------------
  // screens_profiles.go

  /** A profile passes the filter when its lower-cased name contains the lower-cased filter. */
  predicate NameMatches(filter: string, p: ProfileInfo) {
    ContainsFold(p.name, filter)
  }

  /** The visible profiles for a filter: all of them for no filter, else the matching ones in order (`VisibleMatches`). */
  function VisibleFor(profiles: seq<ProfileInfo>, filter: string): (v: seq<ProfileInfo>)
    ensures filter == "" ==> v == profiles
  {
    if filter == "" then profiles else FilterBy(profiles, p => NameMatches(filter, p))
  }

  /** The visible profiles are exactly the matching ones, in their order in the list. */
  lemma VisibleMatches(profiles: seq<ProfileInfo>, filter: string)
    ensures var v := VisibleFor(profiles, filter);
      && (forall i | 0 <= i < |v| :: v[i] in profiles && NameMatches(filter, v[i]))
      && (forall i | 0 <= i < |profiles| && NameMatches(filter, profiles[i]) :: profiles[i] in v)
      && (forall i | 0 <= i < |profiles| ::
            multiset(v)[profiles[i]] == if NameMatches(filter, profiles[i]) then multiset(profiles)[profiles[i]] else 0)
      && IsSubseq(v, profiles)
  {
    if filter == "" {
      forall i | 0 <= i < |profiles|
        ensures NameMatches(filter, profiles[i])
      {
        ContainsEmpty(ToLower(profiles[i].name));
      }
      FilterAllKept(profiles, p => NameMatches(filter, p));
    } else {
      FilterByCounts(profiles, p => NameMatches(filter, p));
    }
  }

  /** The name of the selected visible profile, or "" when the selection is outside the visible list. */
  function SelectedName(s: State): string {
    if 0 <= s.selected < |s.profilesVisible| then s.profilesVisible[s.selected].name else ""
  }

  /**
   * The selection in a recomputed list: the first profile named `name` when
   * there is one, else 0; with no name, a selection still in range is kept.
   */
  function Reanchor(visible: seq<ProfileInfo>, name: string, selected: int): (r: int)
    ensures ValidIndex(r, |visible|)
    ensures name == "" && |visible| > 0 ==> r == if 0 <= selected < |visible| then selected else 0
  {
    if |visible| == 0 then -1
    else if name == "" then (if selected < 0 || selected >= |visible| then 0 else selected)
    else
      match IndexOf(visible, InfoName, name)
      case None => 0
      case Some(i) => i
  }

  /** With a name, the selection lands on its first occurrence in the list, or on 0 when it is not there. */
  lemma ReanchorFinds(visible: seq<ProfileInfo>, name: string, selected: int)
    requires name != ""
    ensures var r := Reanchor(visible, name, selected);
      && ((exists i | 0 <= i < |visible| :: visible[i].name == name) ==>
            && 0 <= r < |visible| && visible[r].name == name
            && forall j | 0 <= j < r :: visible[j].name != name)
      && ((forall i | 0 <= i < |visible| :: visible[i].name != name) && |visible| > 0 ==> r == 0)
  {
  }

  /**
   * `updateProfilesFilter`: recomputes the visible list from the filter and
   * keeps the selected profile selected when it is still visible.
   */
  function UpdateProfilesFilter(s: State): (r: State)
    ensures r.(profilesVisible := s.profilesVisible, selected := s.selected) == s
    ensures r.profiles == s.profiles && r.profileFilter == s.profileFilter && r.confirm == s.confirm
    ensures r.profilesVisible == VisibleFor(s.profiles, s.profileFilter)
    ensures r.selected == Reanchor(r.profilesVisible, SelectedName(s), s.selected)
    ensures ValidIndex(r.selected, |r.profilesVisible|)
  {
    var visible := VisibleFor(s.profiles, s.profileFilter);
    s.(profilesVisible := visible, selected := Reanchor(visible, SelectedName(s), s.selected))
  }

  /** The visible list matches the filter, and the selection indexes it. */
  predicate Coherent(s: State) {
    s.profilesVisible == VisibleFor(s.profiles, s.profileFilter) && ValidIndex(s.selected, |s.profilesVisible|)
  }

  /** `moveSelection` bounded by the visible list, which is the list the profiles screen draws. */
  function MoveVisibleSelection(s: State, delta: int): (r: State)
    ensures |s.profilesVisible| == 0 ==> r == s
    ensures |s.profilesVisible| > 0 ==> 0 <= r.selected < |s.profilesVisible|
    ensures r.(selected := s.selected) == s
  {
    s.(selected := Move(s.selected, delta, |s.profilesVisible|))
  }

  /** What the profiles screen hands on to a handler that is not part of this model. */
  datatype Handoff = ConfirmApplySelected | OpenAgents | OpenBackups | OpenDiffLastBackup

  /** A key's effect: a new model and command, or the handler the key hands the model to. */
  datatype KeyOutcome = Handled(step: Step) | Delegated(state: State, to: Handoff)

  /**
   * `handleProfilesKey` in filter mode: every rune, `j` and `k` included, is
   * typed into the filter; Esc and Enter leave filter mode keeping the filter;
   * only the arrow keys move. No key gives a command.
   */
  function HandleFilterKey(s: State, k: KeyMsg): (r: Step)
    ensures r.cmd.None?
    ensures Overlays.IsCtrlU(k) ==> r.state == UpdateProfilesFilter(s.(profileFilter := ""))
    ensures k.kind in {KeyEsc, KeyEnter} ==> r.state == s.(profileFilterMode := false)
    ensures k.kind in {KeyBackspace, KeyDelete} && s.profileFilter == "" ==> r.state == s
    ensures k.kind in {KeyBackspace, KeyDelete} && s.profileFilter != "" ==>
              r.state == UpdateProfilesFilter(s.(profileFilter := s.profileFilter[..|s.profileFilter| - 1]))
    ensures k.kind == KeyRunes && !Overlays.IsCtrlU(k) ==>
              r.state == UpdateProfilesFilter(s.(profileFilter := s.profileFilter + k.runes))
    ensures k.kind == KeyDown ==> r.state == MoveVisibleSelection(s, 1)
    ensures k.kind == KeyUp ==> r.state == MoveVisibleSelection(s, -1)
    ensures k.kind in {KeyUnknown, KeyCtrlC, KeyPgUp, KeyPgDown} ==> r.state == s
  {
    if Overlays.IsCtrlU(k) then Step(UpdateProfilesFilter(s.(profileFilter := "")), None)
    else
      match k.kind
      case KeyEsc | KeyEnter => Step(s.(profileFilterMode := false), None)
      case KeyBackspace | KeyDelete =>
        if s.profileFilter != "" then
          Step(UpdateProfilesFilter(s.(profileFilter := s.profileFilter[..|s.profileFilter| - 1])), None)
        else Step(s, None)
      case KeyRunes => Step(UpdateProfilesFilter(s.(profileFilter := s.profileFilter + k.runes)), None)
      // Past the rune keys, the key names "j"/"down" and "k"/"up" are those of the arrows.
      case KeyDown => Step(MoveVisibleSelection(s, 1), None)
      case KeyUp => Step(MoveVisibleSelection(s, -1), None)
      case _ => Step(s, None)
  }

  /**
   * `handleProfilesKey` outside filter mode: `esc` quits, `/` starts
   * filtering, `j`/`k` and the arrows move, and the action keys hand over to
   * their handlers. Any other key changes nothing.
   */
  function HandleListKey(s: State, k: KeyMsg): (r: KeyOutcome)
    ensures KeyString(k) == "esc" ==> r == Handled(Step(s, Some(Quit)))
    ensures KeyString(k) == "/" ==> r == Handled(Step(s.(profileFilterMode := true), None))
    ensures KeyString(k) in {"j", "down"} ==> r == Handled(Step(MoveVisibleSelection(s, 1), None))
    ensures KeyString(k) in {"k", "up"} ==> r == Handled(Step(MoveVisibleSelection(s, -1), None))
    ensures KeyString(k) == "enter" ==> r == Delegated(s, ConfirmApplySelected)
    ensures KeyString(k) == "e" ==> r == Delegated(s, OpenAgents)
    ensures KeyString(k) == "b" ==> r == Delegated(s, OpenBackups)
    ensures KeyString(k) == "d" ==> r == Delegated(s, OpenDiffLastBackup)
    ensures KeyString(k) !in {"esc", "/", "j", "down", "k", "up", "enter", "e", "b", "d"} ==> r == Handled(Step(s, None))
    ensures r.Handled? ==> || r.step.state == s || r.step.state == s.(profileFilterMode := true)
                           || r.step.state == MoveVisibleSelection(s, 1) || r.step.state == MoveVisibleSelection(s, -1)
    ensures r.Handled? && r.step.cmd.Some? ==> r.step == Step(s, Some(Quit))
    ensures r.Handled? ==> r.step.state.profiles == s.profiles && r.step.state.confirm == s.confirm
    ensures r.Delegated? ==> r.state == s
  {
    var key := KeyString(k);
    if key == "esc" then Handled(Step(s, Some(Quit)))
    else if key == "/" then Handled(Step(s.(profileFilterMode := true), None))
    else if key == "j" || key == "down" then Handled(Step(MoveVisibleSelection(s, 1), None))
    else if key == "k" || key == "up" then Handled(Step(MoveVisibleSelection(s, -1), None))
    else if key == "enter" then Delegated(s, ConfirmApplySelected)
    else if key == "e" then Delegated(s, OpenAgents)
    else if key == "b" then Delegated(s, OpenBackups)
    else if key == "d" then Delegated(s, OpenDiffLastBackup)
    else Handled(Step(s, None))
  }

  /** `handleProfilesKey`: the filter editor in filter mode, the list keys otherwise. */
  function HandleProfilesKey(s: State, k: KeyMsg): (r: KeyOutcome)
    ensures s.profileFilterMode ==> r == Handled(HandleFilterKey(s, k))
    ensures !s.profileFilterMode ==> r == HandleListKey(s, k)
    ensures r.Handled? && r.step.cmd.Some? ==> r.step == Step(s, Some(Quit))
    ensures r.Delegated? ==> r.state == s
  {
    if s.profileFilterMode then Handled(HandleFilterKey(s, k)) else HandleListKey(s, k)
  }

  /** No key the profiles screen handles itself changes the profile list or the confirmation dialog. */
  lemma ProfilesKeyKeepsList(s: State, k: KeyMsg)
    ensures var r := HandleProfilesKey(s, k);
      r.Handled? ==> r.step.state.profiles == s.profiles && r.step.state.confirm == s.confirm
  {
    if s.profileFilterMode {
      FilterKeyKeeps(s, k);
    } else {
      assert HandleProfilesKey(s, k) == HandleListKey(s, k);
    }
  }

  /** Recomputing the filter always leaves a coherent model. */
  lemma UpdatedIsCoherent(s: State)
    ensures Coherent(UpdateProfilesFilter(s))
  {
  }

  /** A key in filter mode keeps the profile list and the dialog, and a coherent model coherent. */
  lemma FilterKeyKeeps(s: State, k: KeyMsg)
    ensures var t := HandleFilterKey(s, k).state;
      t.profiles == s.profiles && t.confirm == s.confirm && (Coherent(s) ==> Coherent(t))
  {
    if Overlays.IsCtrlU(k) {
      ClearKeeps(s, k);
    } else if k.kind in {KeyBackspace, KeyDelete} {
      DeleteKeeps(s, k);
    } else if k.kind == KeyRunes {
      TypeKeeps(s, k);
    } else if k.kind in {KeyDown, KeyUp} {
      FilterMoveKeeps(s, k);
    } else {
      FilterOtherKeeps(s, k);
    }
  }

  /** ctrl+u clears the filter and recomputes the visible list. */
  lemma ClearKeeps(s: State, k: KeyMsg)
    requires Overlays.IsCtrlU(k)
    ensures var t := HandleFilterKey(s, k).state;
      t.profiles == s.profiles && t.confirm == s.confirm && Coherent(t)
  {
    UpdatedIsCoherent(s.(profileFilter := ""));
  }

  /** Backspace and delete shorten a non-empty filter and recompute the visible list. */
  lemma DeleteKeeps(s: State, k: KeyMsg)
    requires !Overlays.IsCtrlU(k) && k.kind in {KeyBackspace, KeyDelete}
    ensures var t := HandleFilterKey(s, k).state;
      t.profiles == s.profiles && t.confirm == s.confirm && (Coherent(s) ==> Coherent(t))
  {
    if s.profileFilter != "" {
      UpdatedIsCoherent(s.(profileFilter := s.profileFilter[..|s.profileFilter| - 1]));
    }
  }

  /** A typed key extends the filter and recomputes the visible list. */
  lemma TypeKeeps(s: State, k: KeyMsg)
    requires !Overlays.IsCtrlU(k) && k.kind == KeyRunes
    ensures var t := HandleFilterKey(s, k).state;
      t.profiles == s.profiles && t.confirm == s.confirm && Coherent(t)
  {
    UpdatedIsCoherent(s.(profileFilter := s.profileFilter + k.runes));
  }

  /** The arrow keys move within the visible list. */
  lemma FilterMoveKeeps(s: State, k: KeyMsg)
    requires k.kind in {KeyDown, KeyUp}
    ensures var t := HandleFilterKey(s, k).state;
      t.profiles == s.profiles && t.confirm == s.confirm && (Coherent(s) ==> Coherent(t))
  {
    var d := if k.kind == KeyDown then 1 else -1;
    assert HandleFilterKey(s, k).state == MoveVisibleSelection(s, d);
    MoveVisibleKeeps(s, d);
  }

  /** Moving within the visible list keeps the list, the dialog and a coherent model coherent. */
  lemma MoveVisibleKeeps(s: State, delta: int)
    ensures var t := MoveVisibleSelection(s, delta);
      t.profiles == s.profiles && t.confirm == s.confirm && (Coherent(s) ==> Coherent(t))
  {
    if Coherent(s) {
      MoveKeepsValid(s.selected, delta, |s.profilesVisible|);
    }
  }

  /** Every other key at most leaves filter mode. */
  lemma FilterOtherKeeps(s: State, k: KeyMsg)
    requires !Overlays.IsCtrlU(k) && k.kind !in {KeyBackspace, KeyDelete, KeyRunes, KeyDown, KeyUp}
    ensures var t := HandleFilterKey(s, k).state;
      t == s || t == s.(profileFilterMode := false)
  {
  }

  lemma ListKeyKeepsCoherent(s: State, k: KeyMsg)
    requires Coherent(s)
    ensures HandleListKey(s, k).Handled? ==> Coherent(HandleListKey(s, k).step.state)
  {
    var r := HandleListKey(s, k);
    if r.Handled? {
      var t := r.step.state;
      if t == MoveVisibleSelection(s, 1) {
        MoveKeepsValid(s.selected, 1, |s.profilesVisible|);
      } else if t == MoveVisibleSelection(s, -1) {
        MoveKeepsValid(s.selected, -1, |s.profilesVisible|);
      } else {
        assert t.profiles == s.profiles && t.profileFilter == s.profileFilter;
        assert t.profilesVisible == s.profilesVisible && t.selected == s.selected;
      }
    }
  }

  /** Every key the profiles screen handles itself keeps the visible list and the selection coherent. */
  lemma HandleProfilesKeyKeepsCoherent(s: State, k: KeyMsg)
    requires Coherent(s)
    ensures HandleProfilesKey(s, k).Handled? ==> Coherent(HandleProfilesKey(s, k).step.state)
  {
    if s.profileFilterMode {
      FilterKeyKeeps(s, k);
    } else {
      ListKeyKeepsCoherent(s, k);
    }
  }

  /** Typing a filter and clearing it with ctrl+u shows every profile again, in the original order. */
  lemma ClearFilterRestores(s: State, typed: string, k: KeyMsg)
    requires s.profileFilterMode && Overlays.IsCtrlU(k)
    ensures var t := HandleFilterKey(s.(profileFilter := s.profileFilter + typed), k).state;
      t.profilesVisible == s.profiles && t.profileFilter == "" && t.profiles == s.profiles
  {
  }

  // ---------------------------------------------------------------------------
  // The selection bound of model.go against the filtered list.

  const Alpha: ProfileInfo := ProfileInfo("alpha", "")
  const Beta: ProfileInfo := ProfileInfo("beta", "")
  const Gamma: ProfileInfo := ProfileInfo("gamma", "")

  lemma NotContainsFirst(s: string, sub: string)
    requires |sub| > 0 && sub[0] !in s
    ensures !Contains(s, sub)
  {
  }

  lemma LowerOfLower(s: string)
    requires forall i | 0 <= i < |s| :: !('A' <= s[i] <= 'Z')
    ensures ToLower(s) == s
  {
  }

  lemma AlphaNoGa()
    ensures !NameMatches("ga", Alpha)
  {
    LowerOfLower("ga");
    LowerOfLower("alpha");
    NotContainsFirst("alpha", "ga");
  }

  lemma BetaNoGa()
    ensures !NameMatches("ga", Beta)
  {
    LowerOfLower("ga");
    LowerOfLower("beta");
    NotContainsFirst("beta", "ga");
  }

  lemma GammaGa()
    ensures NameMatches("ga", Gamma)
  {
    LowerOfLower("ga");
    LowerOfLower("gamma");
    assert OccursAt("gamma", "ga", 0);
  }

  /** The filter "ga" keeps only `gamma` of `alpha`, `beta`, `gamma`. */
  lemma FilterGa()
    ensures VisibleFor([Alpha, Beta, Gamma], "ga") == [Gamma]
  {
    var ps := [Alpha, Beta, Gamma];
    var keep := p => NameMatches("ga", p);
    AlphaNoGa();
    BetaNoGa();
    GammaGa();
    assert ps[1..] == [Beta, Gamma] && ps[1..][1..] == [Gamma] && [Gamma][1..] == [];
    assert FilterBy([Gamma], keep) == [Gamma];
    assert FilterBy([Beta, Gamma], keep) == [Gamma];
    assert FilterBy(ps, keep) == [Gamma];
  }

  /**
   * Typing "ga" over `alpha`, `beta`, `gamma` shows only `gamma`; Enter keeps
   * the filter while leaving filter mode, and the move of model.go then
   * selects index 1 of a one-element list, while the visible-list move stays
   * on `gamma`.
   */
  lemma MoveSelectionLeavesVisibleList()
    ensures var s0 := Blank.(profiles := [Alpha, Beta, Gamma], profilesVisible := [Alpha, Beta, Gamma], profileFilterMode := true);
      var s1 := HandleFilterKey(s0, KeyMsg(KeyRunes, "ga")).state;
      var s2 := HandleFilterKey(s1, Key(KeyEnter)).state;
      && Coherent(s0) && Coherent(s2)
      && s2.profilesVisible == [Gamma] && !s2.profileFilterMode
      && !ValidIndex(MoveSelection(s2, 1).selected, |s2.profilesVisible|)
      && MoveVisibleSelection(s2, 1).selected == 0
  {
    var ps := [Alpha, Beta, Gamma];
    var s0 := Blank.(profiles := ps, profilesVisible := ps, profileFilterMode := true);
    assert Coherent(s0);
    var t := s0.(profileFilter := "" + "ga");
    assert t.profileFilter == "ga";
    FilterGa();
    var s1 := UpdateProfilesFilter(t);
    assert s1.profilesVisible == [Gamma];
    assert SelectedName(t) == "alpha";
    assert s1.selected == 0;
  }
}

=== FILE: render.dfy ===
/**
 * Text helpers of the terminal UI (internal/tui/overlays.go, internal/tui/theme.go):
 * rune-wise truncation and padding, ANSI stripping, the boxed modal layout and
 * the escape-sequence text styles.
 */
module Render {
  import opened Text

  const Esc: char := '\U{1B}'
  const Ellipsis: char := '\U{2026}'

  function Max(a: int, b: int): int {
    if a >= b then a else b
  }

  // ---------------------------------------------------------------------------
  // Truncation and padding.

  /** `truncateRunes`: at most `maxRunes` runes, the last replaced by `…` when something was cut. */
  function TruncateRunes(s: string, maxRunes: int): (r: string)
    ensures |r| <= Max(0, maxRunes)
    ensures 0 < maxRunes && |s| <= maxRunes ==> r == s
    ensures maxRunes <= 0 ==> r == ""
    ensures 0 < maxRunes < |s| ==> r == s[..maxRunes - 1] + [Ellipsis] && |r| == maxRunes
  {
    if maxRunes <= 0 then ""
    else if |s| <= maxRunes then s
    else if maxRunes == 1 then [Ellipsis]
    else s[..maxRunes - 1] + [Ellipsis]
  }

  /** `padRight`: `s` followed by as many spaces as it takes to reach `width` runes. */
  function PadRight(s: string, width: int): (r: string)
    ensures |r| == Max(width, |s|)
    ensures r[..|s|] == s
    ensures forall i | |s| <= i < |r| :: r[i] == ' '
  {
    if width - |s| <= 0 then s else s + Repeat(' ', width - |s|)
  }

  // ---------------------------------------------------------------------------
  // ANSI stripping.

  /**
   * `stripANSI` with the scanner state made explicit: `inEsc` holds while inside
   * an escape sequence, which runs from ESC up to and including the next `m`.
   */
  function StripFrom(s: string, inEsc: bool): (r: string)
    ensures Esc !in r
    ensures |r| <= |s|
  {
    if |s| == 0 then ""
    else if !inEsc && s[0] == Esc then StripFrom(s[1..], true)
    else if inEsc && s[0] == 'm' then StripFrom(s[1..], false)
    else if !inEsc then [s[0]] + StripFrom(s[1..], false)
    else StripFrom(s[1..], true)
  }

  /** The scanner state after reading `s`. */
  function EndState(s: string, inEsc: bool): bool {
    if |s| == 0 then inEsc
    else if !inEsc && s[0] == Esc then EndState(s[1..], true)
    else if inEsc && s[0] == 'm' then EndState(s[1..], false)
    else EndState(s[1..], inEsc)
  }

  function StripAnsi(s: string): (r: string)
    ensures Esc !in r
  {
    StripFrom(s, false)
  }

  /** Stripping a string without ESC changes nothing. */
  lemma {:induction false} StripPlain(s: string)
    requires Esc !in s
    ensures StripAnsi(s) == s
    ensures EndState(s, false) == false
  {
    if |s| > 0 {
      assert Esc !in s[1..];
      StripPlain(s[1..]);
      assert s == [s[0]] + s[1..];
    }
  }

  /** Stripping distributes over concatenation, threading the scanner state. */
  lemma {:induction false} StripAppend(x: string, y: string, inEsc: bool)
    ensures StripFrom(x + y, inEsc) == StripFrom(x, inEsc) + StripFrom(y, EndState(x, inEsc))
    ensures EndState(x + y, inEsc) == EndState(y, EndState(x, inEsc))
  {
    if |x| > 0 {
      assert (x + y)[0] == x[0];
      assert (x + y)[1..] == x[1..] + y;
      if !inEsc && x[0] == Esc {
        StripAppend(x[1..], y, true);
      } else if inEsc && x[0] == 'm' {
        StripAppend(x[1..], y, false);
      } else {
        StripAppend(x[1..], y, inEsc);
      }
    } else {
      assert x + y == y;
    }
  }

  /** A Select Graphic Rendition sequence: ESC, parameters without `m`, then `m`. */
  predicate IsSgr(s: string) {
    |s| >= 2 && s[0] == Esc && s[|s| - 1] == 'm' && 'm' !in s[1..|s| - 1]
  }

  /** Everything inside an escape sequence up to the closing `m` is dropped. */
  lemma {:induction false} StripInside(body: string)
    requires 'm' !in body
    ensures StripFrom(body + "m", true) == ""
    ensures EndState(body + "m", true) == false
  {
    if |body| > 0 {
      assert (body + "m")[1..] == body[1..] + "m";
      assert 'm' !in body[1..];
      StripInside(body[1..]);
    }
  }

  lemma StripSgr(s: string)
    requires IsSgr(s)
    ensures StripAnsi(s) == "" && EndState(s, false) == false
  {
    var body := s[1..|s| - 1];
    StripInside(body);
    assert s[1..] == body + "m";
  }

  // ---------------------------------------------------------------------------
  // Text styles (internal/tui/theme.go).

  /** An escape-sequence style; an empty `start` means no styling at all. */
  datatype TextStyle = TextStyle(start: string, end: string)

  /** `textStyle.Render`. */
  function RenderStyled(st: TextStyle, text: string): (r: string)
    ensures st.start == "" ==> r == text
    ensures st.start != "" ==> r == st.start + text + st.end
  {
    if st.start == "" then text else st.start + text + st.end
  }

  const AnsiReset: string := "\U{1B}[0m"
  const SelectedStyle: TextStyle := TextStyle("\U{1B}[1m", AnsiReset)
  const ActiveStyle: TextStyle := TextStyle("\U{1B}[4m", AnsiReset)
  const HintStyle: TextStyle := TextStyle("\U{1B}[2m", AnsiReset)
  const MissingStyle: TextStyle := TextStyle("\U{1B}[31m\U{1B}[1m", AnsiReset)
  const DirtyStyle: TextStyle := TextStyle("\U{1B}[1m", AnsiReset)

  /** The unstyled style, used for a status without a kind. */
  const PlainStyle: TextStyle := TextStyle("", "")

  /** A string made of one or more SGR sequences. */
  predicate IsSgrRun(s: string) {
    IsSgr(s) || exists k | 2 <= k < |s| :: IsSgr(s[..k]) && IsSgrRun(s[k..])
  }

  /** The styles the UI defines, each a run of SGR sequences closed by the reset sequence. */
  predicate IsPredefined(st: TextStyle) {
    st in {SelectedStyle, ActiveStyle, HintStyle, MissingStyle, DirtyStyle}
  }

  lemma PredefinedStylesAreSgr(st: TextStyle)
    requires IsPredefined(st)
    ensures IsSgrRun(st.start) && IsSgr(st.end) && st.end == AnsiReset
  {
    assert IsSgr(AnsiReset);
    if st == MissingStyle {
      assert st.start[..5] == "\U{1B}[31m";
      assert st.start[5..] == "\U{1B}[1m";
      assert IsSgr(st.start[..5]) && IsSgrRun(st.start[5..]);
    } else {
      assert IsSgr(st.start);
    }
  }

  /** Stripping a run of SGR sequences leaves nothing and ends outside an escape. */
  lemma {:induction false} StripSgrRun(s: string)
    requires IsSgrRun(s)
    ensures StripAnsi(s) == "" && EndState(s, false) == false
    decreases |s|
  {
    if IsSgr(s) {
      StripSgr(s);
    } else {
      var k :| 2 <= k < |s| && IsSgr(s[..k]) && IsSgrRun(s[k..]);
      StripSgr(s[..k]);
      StripSgrRun(s[k..]);
      StripAppend(s[..k], s[k..], false);
      assert s == s[..k] + s[k..];
    }
  }

  /** Styling is invisible once escapes are stripped: the plain text comes back. */
  lemma StripRendered(st: TextStyle, t: string)
    requires IsPredefined(st) || st.start == ""
    requires Esc !in t
    ensures StripAnsi(RenderStyled(st, t)) == t
  {
    StripPlain(t);
    if st.start != "" {
      PredefinedStylesAreSgr(st);
      StripSgrRun(st.start);
      StripSgr(st.end);
      StripAppend(st.start, t, false);
      StripAppend(st.start + t, st.end, false);
    }
  }

  // ---------------------------------------------------------------------------
  // Boxed modal (`renderBox`).

  /** The widest of the title and the lines, in runes. */
  function Widest(title: string, lines: seq<string>): (w: nat)
    ensures w >= |title|
    ensures forall i | 0 <= i < |lines| :: w >= |lines[i]|
    ensures w == |title| || exists i | 0 <= i < |lines| :: w == |lines[i]|
  {
    if |lines| == 0 then |title|
    else
      var w := Widest(title, lines[..|lines| - 1]);
      var l := |lines[|lines| - 1]|;
      assert forall i | 0 <= i < |lines| - 1 :: lines[..|lines| - 1][i] == lines[i];
      if l > w then l else w
  }

  /** The content width of the box: the widest text, capped at `max(10, width - 4)`; width 0 or less means 80. */
  function ContentWidth(title: string, lines: seq<string>, width: int): (mc: nat)
    ensures var w := if width <= 0 then 80 else width;
      mc == if Widest(title, lines) > Max(10, w - 4) then Max(10, w - 4) else Widest(title, lines)
    ensures mc <= Max(10, (if width <= 0 then 80 else width) - 4)
  {
    var w := if width <= 0 then 80 else width;
    var maxBox := if w - 4 < 10 then 10 else w - 4;
    var wid := Widest(title, lines);
    if wid > maxBox then maxBox else wid
  }

  function Framed(left: char, fill: string, right: char): (r: string)
    ensures |r| == |fill| + 2
  {
    [left] + fill + [right]
  }

  /** One content row: the text cut and padded to exactly `mc` runes between the side borders. */
  function Row(text: string, mc: nat): (r: string)
    ensures |r| == mc + 4
  {
    "\U{2502} " + PadRight(TruncateRunes(text, mc), mc) + " \U{2502}"
  }

  function Rows(lines: seq<string>, mc: nat): (rs: seq<string>)
    ensures |rs| == |lines|
    ensures forall i | 0 <= i < |lines| :: rs[i] == Row(lines[i], mc)
  {
    if |lines| == 0 then [] else [Row(lines[0], mc)] + Rows(lines[1..], mc)
  }

  /** Every row is `w` runes wide. */
  predicate AllWidth(rows: seq<string>, w: nat) {
    forall i | 0 <= i < |rows| :: |rows[i]| == w
  }

  /** Three header rows, the body rows and a closing row, all `w` wide, stacked. */
  lemma Stack(head: seq<string>, body: seq<string>, last: string, w: nat)
    requires |head| == 3 && AllWidth(head, w) && AllWidth(body, w) && |last| == w
    ensures var rows := head + body + [last];
      && |rows| == |body| + 4 && AllWidth(rows, w)
      && rows[0] == head[0] && rows[1] == head[1] && rows[2] == head[2]
      && (forall i | 0 <= i < |body| :: rows[i + 3] == body[i])
      && rows[|rows| - 1] == last
  {
  }

  /** The rows of a box whose content is `mc` runes wide, top border to bottom border. */
  function Frame(title: string, lines: seq<string>, mc: nat): (rows: seq<string>)
    ensures |rows| == |lines| + 4
    ensures forall i | 0 <= i < |rows| :: |rows[i]| == mc + 4
    ensures rows[0] == Framed('\U{250C}', Repeat('\U{2500}', mc + 2), '\U{2510}')
    ensures rows[1] == Row(title, mc)
    ensures rows[2] == Framed('\U{251C}', Repeat('\U{2500}', mc + 2), '\U{2524}')
    ensures forall i | 0 <= i < |lines| :: rows[i + 3] == Row(lines[i], mc)
    ensures rows[|rows| - 1] == Framed('\U{2514}', Repeat('\U{2500}', mc + 2), '\U{2518}')
  {
    var bar := Repeat('\U{2500}', mc + 2);
    var head := [Framed('\U{250C}', bar, '\U{2510}'), Row(title, mc), Framed('\U{251C}', bar, '\U{2524}')];
    var body := Rows(lines, mc);
    var last := Framed('\U{2514}', bar, '\U{2518}');
    Stack(head, body, last, mc + 4);
    head + body + [last]
  }

  /** The rows of the box for a terminal `width` columns wide. */
  function BoxRows(title: string, lines: seq<string>, width: int): (rows: seq<string>)
    ensures |rows| == |lines| + 4
    ensures forall i | 0 <= i < |rows| :: |rows[i]| == ContentWidth(title, lines, width) + 4
  {
    Frame(title, lines, ContentWidth(title, lines, width))
  }

  /** `renderBox`: the rows joined by newlines. */
  function RenderBox(title: string, lines: seq<string>, width: int): (r: string)
    ensures r == Join(BoxRows(title, lines, width), '\n')
  {
    Join(BoxRows(title, lines, width), '\n')
  }

  /** With newline-free title and lines, the rendered box splits back into exactly its rows. */
  lemma RenderBoxRows(title: string, lines: seq<string>, width: int)
    requires '\n' !in title
    requires forall i | 0 <= i < |lines| :: '\n' !in lines[i]
    ensures Split(RenderBox(title, lines, width), '\n') == BoxRows(title, lines, width)
    ensures |Split(RenderBox(title, lines, width), '\n')| == |lines| + 4
  {
    var rows := BoxRows(title, lines, width);
    FrameNewlineFree(title, lines, ContentWidth(title, lines, width));
    SplitJoin(rows, '\n');
  }

  lemma FrameNewlineFree(title: string, lines: seq<string>, mc: nat)
    requires '\n' !in title
    requires forall i | 0 <= i < |lines| :: '\n' !in lines[i]
    ensures forall i | 0 <= i < |lines| + 4 :: '\n' !in Frame(title, lines, mc)[i]
  {
    var rows := Frame(title, lines, mc);
    var bar := Repeat('\U{2500}', mc + 2);
    assert '\n' !in bar;
    forall i | 0 <= i < |rows|
      ensures '\n' !in rows[i]
    {
      if i == 1 {
        NewlineFreeRow(title, mc);
      } else if 3 <= i < |rows| - 1 {
        NewlineFreeRow(lines[i - 3], mc);
      }
    }
  }

  lemma NewlineFreeRow(text: string, mc: nat)
    requires '\n' !in text
    ensures '\n' !in Row(text, mc)
  {
    var t := TruncateRunes(text, mc);
    assert '\n' !in t by {
      if 0 < mc < |text| {
        assert forall i | 0 <= i < mc - 1 :: t[i] == text[i];
      }
    }
    var p := PadRight(t, mc);
    assert forall i | 0 <= i < |p| :: p[i] != '\n' by {
      forall i | 0 <= i < |p|
        ensures p[i] != '\n'
      {
        if i < |t| {
          assert p[i] == p[..|t|][i] == t[i];
        }
      }
    }
  }
}

=== FILE: selection.dfy ===
/**
 * List shapes the screens share (internal/tui): moving a selection index
 * within a list, keeping the elements that match a filter, and finding an
 * element again by its name.
 */
module Selection {
  import opened Wrappers

  /** How far index `j` is from the position `selected + delta` a move aims at. */
  function Gap(j: int, selected: int, delta: int): nat {
    var t := selected + delta;
    if j < t then t - j else j - t
  }

  /**
   * Moving a selection by `delta` in a list of `n` elements (`moveSelection`,
   * `moveAgentsSelection`, `moveModelSelection`): nothing happens in an empty
   * list; otherwise the new index is the index nearest to `selected + delta`.
   */
  function Move(selected: int, delta: int, n: nat): (r: int)
    ensures n == 0 ==> r == selected
    ensures n > 0 ==> 0 <= r < n
    ensures n > 0 ==> forall j | 0 <= j < n :: Gap(r, selected, delta) <= Gap(j, selected, delta)
  {
    if n == 0 then selected
    else
      var s := selected + delta;
      var s1 := if s < 0 then 0 else s;
      if s1 >= n then n - 1 else s1
  }

  /** A selection that is -1 exactly for an empty list and an index into it otherwise. */
  predicate ValidIndex(selected: int, n: nat) {
    (n == 0 ==> selected == -1) && (n > 0 ==> 0 <= selected < n)
  }

  /** Moving keeps a valid selection valid, and a step that stays inside the list is taken exactly. */
  lemma MoveKeepsValid(selected: int, delta: int, n: nat)
    requires ValidIndex(selected, n)
    ensures ValidIndex(Move(selected, delta, n), n)
    ensures n > 0 && 0 <= selected + delta < n ==> Move(selected, delta, n) == selected + delta
  {
    if n > 0 && 0 <= selected + delta < n {
      var r := Move(selected, delta, n);
      assert Gap(r, selected, delta) <= Gap(selected + delta, selected, delta);
    }
  }

  /** `a` is a subsequence of `b`: `b` with some elements left out, the rest in order. */
  predicate IsSubseq<T(==)>(a: seq<T>, b: seq<T>)
    decreases |b|
  {
    |a| == 0 || (|b| > 0 && ((a[0] == b[0] && IsSubseq(a[1..], b[1..])) || IsSubseq(a, b[1..])))
  }

  /** The elements of `xs` that `keep` accepts, in their order in `xs`. */
  function FilterBy<T(==)>(xs: seq<T>, keep: T -> bool): (r: seq<T>)
    ensures forall i | 0 <= i < |r| :: r[i] in xs && keep(r[i])
    ensures forall i | 0 <= i < |xs| && keep(xs[i]) :: xs[i] in r
    ensures |r| <= |xs|
    ensures IsSubseq(r, xs)
  {
    if |xs| == 0 then []
    else
      var rest := FilterBy(xs[1..], keep);
      assert xs == [xs[0]] + xs[1..];
      if keep(xs[0]) then
        var r := [xs[0]] + rest;
        assert r[1..] == rest;
        r
      else
        assert |rest| > 0 ==> rest[0] != xs[0];
        rest
  }

  /** Putting `a` in front adds one occurrence of `a`. */
  lemma ConsCount<T>(a: T, s: seq<T>, x: T)
    ensures multiset([a] + s)[x] == (if a == x then 1 else 0) + multiset(s)[x]
  {
    assert multiset([a] + s) == multiset{a} + multiset(s);
  }

  /** A non-empty list holds `x` once more at its head when the head is `x`. */
  lemma HeadCount<T>(s: seq<T>, x: T)
    requires |s| > 0
    ensures multiset(s)[x] == (if s[0] == x then 1 else 0) + multiset(s[1..])[x]
  {
    assert s == [s[0]] + s[1..];
    ConsCount(s[0], s[1..], x);
  }

  /** How often the filter keeps `x`: as often as `xs` holds it when accepted, else never. */
  lemma {:induction false} FilterCountOf<T>(xs: seq<T>, keep: T -> bool, x: T)
    ensures multiset(FilterBy(xs, keep))[x] == if keep(x) then multiset(xs)[x] else 0
  {
    if |xs| > 0 {
      var rest := xs[1..];
      var kept := FilterBy(rest, keep);
      FilterCountOf(rest, keep, x);
      HeadCount(xs, x);
      if keep(xs[0]) {
        ConsCount(xs[0], kept, x);
      }
    }
  }

  /** The filter keeps every accepted element as often as it occurs, and no rejected one. */
  lemma FilterByCounts<T>(xs: seq<T>, keep: T -> bool)
    ensures forall i | 0 <= i < |xs| ::
              multiset(FilterBy(xs, keep))[xs[i]] == if keep(xs[i]) then multiset(xs)[xs[i]] else 0
  {
    forall i | 0 <= i < |xs|
      ensures multiset(FilterBy(xs, keep))[xs[i]] == if keep(xs[i]) then multiset(xs)[xs[i]] else 0
    {
      FilterCountOf(xs, keep, xs[i]);
    }
  }

  /** A list whose every element is kept passes through the filter unchanged. */
  lemma {:induction false} FilterAllKept<T>(xs: seq<T>, keep: T -> bool)
    requires forall i | 0 <= i < |xs| :: keep(xs[i])
    ensures FilterBy(xs, keep) == xs
  {
    if |xs| > 0 {
      FilterAllKept(xs[1..], keep);
    }
  }

  /** Filtering twice with the same test is filtering once. */
  lemma FilterIdempotent<T>(xs: seq<T>, keep: T -> bool)
    ensures FilterBy(FilterBy(xs, keep), keep) == FilterBy(xs, keep)
  {
    FilterAllKept(FilterBy(xs, keep), keep);
  }

  /** The first index whose key is `k`, if any. */
  function IndexOf<T>(xs: seq<T>, key: T -> string, k: string): (r: Option<nat>)
    ensures r.None? <==> forall j | 0 <= j < |xs| :: key(xs[j]) != k
    ensures r.Some? ==> r.value < |xs| && key(xs[r.value]) == k
    ensures r.Some? ==> forall j | 0 <= j < r.value :: key(xs[j]) != k
  {
    if |xs| == 0 then None
    else if key(xs[0]) == k then Some(0)
    else
      match IndexOf(xs[1..], key, k)
      case None => None
      case Some(i) => Some(i + 1)
  }
}

=== FILE: tea.dfy ===
/**
 * The minimal Elm-style runtime (third_party/bubbletea/tea.go): a model is
 * initialised, then every key read from the terminal is passed to `update`,
 * the commands it returns are run one after another, and the view is redrawn.
 *
 * A model is a value of type `M` with its three operations bundled in a
 * `Program`. A command is a value of type `C`; running it is the `exec`
 * function, so whatever side effect the command has is hidden in `exec`.
 * The terminal is the input byte stream plus the answers the window-size
 * query gives, one per query: `sizes(q)` is what query number `q` reports
 * (query 0 is made before the first frame, then one after every handled key),
 * so a resize between two keys is seen by the next redraw.
 */
module Tea {
  import opened Wrappers
  import Keys

  /** The messages the runtime itself produces, plus the application's own (`App`). */
  datatype Msg<A> =
    | KeyPress(key: Keys.KeyMsg)
    | WindowSize(width: int, height: int)
    | QuitMsg
    | App(payload: A)

  /** The `Model` interface together with the way commands are run. */
  datatype Program<!M, !C, !A> = Program(
    init: M -> Option<C>,
    update: (M, Msg<A>) -> (M, Option<C>),
    view: M -> string,
    exec: C -> Msg<A>)

  /** How a command chain ended: with the model it left and whether it asked to quit. */
  datatype Chain<M> = Finished(model: M, quit: bool) | ChainOutOfFuel

  /**
   * `runCmdChain`: runs the command, feeds its message to `update`, and keeps
   * going while `update` returns another command. A `QuitMsg` stops the chain
   * before `update` sees it. `fuel` bounds the chain, which Go leaves unbounded.
   */
  function RunCmdChain<M, C, A>(p: Program<M, C, A>, m: M, c: C, fuel: nat): (r: Chain<M>)
    ensures p.exec(c).QuitMsg? && fuel > 0 ==> r == Finished(m, true)
    ensures fuel > 0 && !p.exec(c).QuitMsg? && p.update(m, p.exec(c)).1.None? ==>
              r == Finished(p.update(m, p.exec(c)).0, false)
    decreases fuel
  {
    if fuel == 0 then ChainOutOfFuel
    else
      var msg := p.exec(c);
      if msg.QuitMsg? then Finished(m, true)
      else
        var (next, cmd) := p.update(m, msg);
        match cmd
        case None => Finished(next, false)
        case Some(c2) => RunCmdChain(p, next, c2, fuel - 1)
  }

  /** More fuel never changes the outcome of a chain that already finished. */
  lemma {:induction false} ChainFuelMonotone<M, C, A>(p: Program<M, C, A>, m: M, c: C, fuel: nat, more: nat)
    requires RunCmdChain(p, m, c, fuel).Finished?
    requires more >= fuel
    ensures RunCmdChain(p, m, c, more) == RunCmdChain(p, m, c, fuel)
    decreases fuel
  {
    var msg := p.exec(c);
    if !msg.QuitMsg? {
      var (next, cmd) := p.update(m, msg);
      if cmd.Some? {
        ChainFuelMonotone(p, next, cmd.value, fuel - 1, more - 1);
      }
    }
  }

  /** The messages a chain delivers to `update`, in order, up to (excluding) a `QuitMsg`. */
  function Delivered<M, C, A>(p: Program<M, C, A>, m: M, c: C, fuel: nat): (msgs: seq<Msg<A>>)
    ensures |msgs| <= fuel
    ensures forall i | 0 <= i < |msgs| :: !msgs[i].QuitMsg?
    decreases fuel
  {
    if fuel == 0 then []
    else
      var msg := p.exec(c);
      if msg.QuitMsg? then []
      else
        var (next, cmd) := p.update(m, msg);
        match cmd
        case None => [msg]
        case Some(c2) => [msg] + Delivered(p, next, c2, fuel - 1)
  }

  /** Feeds messages to `update` one after another, ignoring the commands it returns. */
  function Fold<M, C, A>(p: Program<M, C, A>, m: M, msgs: seq<Msg<A>>): M
    decreases |msgs|
  {
    if |msgs| == 0 then m else Fold(p, p.update(m, msgs[0]).0, msgs[1..])
  }

  /** A finished chain leaves exactly the model that folding `update` over the delivered messages gives. */
  lemma {:induction false} ChainIsFold<M, C, A>(p: Program<M, C, A>, m: M, c: C, fuel: nat)
    requires RunCmdChain(p, m, c, fuel).Finished?
    ensures RunCmdChain(p, m, c, fuel).model == Fold(p, m, Delivered(p, m, c, fuel))
    decreases fuel
  {
    var msg := p.exec(c);
    if !msg.QuitMsg? {
      var (next, cmd) := p.update(m, msg);
      var d := Delivered(p, m, c, fuel);
      if cmd.Some? {
        ChainIsFold(p, next, cmd.value, fuel - 1);
        assert d == [msg] + Delivered(p, next, cmd.value, fuel - 1);
        assert d[1..] == Delivered(p, next, cmd.value, fuel - 1);
      } else {
        assert d == [msg];
        assert d[1..] == [];
      }
    }
  }

  // ---------------------------------------------------------------------------
  // The program loop.

  datatype RunError =
    | ModelRequired
    | RawMode(reason: string)
    | Read(cause: Keys.ReadError)
    | ChainTooLong

  /**
   * What `Program.Run` returns: the final model (absent when Go returns nil),
   * the error if any, the frames drawn (one view per redraw) and the number of
   * key events handled by the loop.
   */
  datatype RunResult<M> = RunResult(model: Option<M>, err: Option<RunError>, frames: seq<string>, keys: nat)

  function ErrorText(e: RunError): string {
    match e
    case ModelRequired => "model is required"
    case RawMode(reason) => reason
    case Read(_) => "EOF"
    case ChainTooLong => "command chain did not finish"
  }

  /** The size update applied before every redraw; its command is discarded. */
  function Resize<M, C, A>(p: Program<M, C, A>, m: M, size: Option<(int, int)>): M {
    match size
    case None => m
    case Some((w, h)) => p.update(m, WindowSize(w, h)).0
  }

  /**
   * The loop body repeated until reading fails or a command quits; `q` is the
   * number of the next window-size query.
   */
  function Loop<M, C, A>(p: Program<M, C, A>, m: M, input: seq<Keys.byte>, sizes: nat -> Option<(int, int)>, q: nat,
                         fuel: nat)
    : (r: RunResult<M>)
    ensures r.model.Some?
    ensures |r.frames| == r.keys || |r.frames| + 1 == r.keys
    ensures r.keys <= |input|
    ensures r.err.None? ==> r.keys > 0
    decreases |input|
  {
    match Keys.ReadKeyMsg(input)
    case Failure(e) => RunResult(Some(m), Some(Read(e)), [], 0)
    case Success(d) =>
      var (m1, cmd) := p.update(m, KeyPress(d.key));
      var chain := if cmd.Some? then RunCmdChain(p, m1, cmd.value, fuel) else Finished(m1, false);
      match chain
      case ChainOutOfFuel => RunResult(Some(m1), Some(ChainTooLong), [], 1)
      case Finished(m2, quit) =>
        if quit then RunResult(Some(m2), None, [], 1)
        else
          var m3 := Resize(p, m2, sizes(q));
          var rest := Loop(p, m3, input[d.consumed..], sizes, q + 1, fuel);
          RunResult(rest.model, rest.err, [p.view(m3)] + rest.frames, rest.keys + 1)
  }

  /**
   * `Program.Run`. `model` is absent for a nil model; `rawMode` is the result of
   * switching the terminal to raw mode; `sizes(q)` is what window-size query
   * number `q` reports; `input` is everything the user will type.
   */
  function Run<M, C, A>(model: Option<Program<M, C, A>>, start: M, rawMode: Result<(), string>,
                        sizes: nat -> Option<(int, int)>, input: seq<Keys.byte>, fuel: nat): (r: RunResult<M>)
    ensures model.None? ==> r == RunResult(None, Some(ModelRequired), [], 0)
    ensures model.Some? && rawMode.Failure? ==> r == RunResult(None, Some(RawMode(rawMode.error)), [], 0)
    ensures model.Some? && rawMode.Success? ==> |r.frames| >= 1
    ensures r.err.None? ==> r.model.Some?
    ensures model.Some? && rawMode.Success? ==>
              r.frames[0] == model.value.view(Resize(model.value, start, sizes(0)))
    ensures model.Some? && rawMode.Success? && InitFinishes(model.value, start, sizes, fuel) ==>
              var p := model.value;
              var rest := Loop(p, StartModel(p, start, sizes, fuel), input, sizes, 1, fuel);
              && r.frames == StartFrames(p, start, sizes, fuel) + rest.frames
              && r.model == rest.model && r.err == rest.err && r.keys == rest.keys
  {
    match model
    case None => RunResult(None, Some(ModelRequired), [], 0)
    case Some(p) =>
      if rawMode.Failure? then RunResult(None, Some(RawMode(rawMode.error)), [], 0)
      else
        var m0 := Resize(p, start, sizes(0));
        var first := p.view(m0);
        match p.init(m0)
        case None =>
          var rest := Loop(p, m0, input, sizes, 1, fuel);
          RunResult(rest.model, rest.err, [first] + rest.frames, rest.keys)
        case Some(c) =>
          match RunCmdChain(p, m0, c, fuel)
          case ChainOutOfFuel => RunResult(None, Some(ChainTooLong), [first], 0)
          case Finished(m1, quit) =>
            if quit then RunResult(Some(m1), None, [first], 0)
            else
              assert m1 == StartModel(p, start, sizes, fuel) by { ChainIsFold(p, m0, c, fuel); }
              var rest := Loop(p, m1, input, sizes, 1, fuel);
              RunResult(rest.model, rest.err, [first, p.view(m1)] + rest.frames, rest.keys)
  }

  // ---------------------------------------------------------------------------
  // A reference reading of start-up: the first resize, then the init command's chain.

  /** The first redraw's model, sized by window-size query 0. */
  function Sized<M, C, A>(p: Program<M, C, A>, start: M, sizes: nat -> Option<(int, int)>): M {
    Resize(p, start, sizes(0))
  }

  /** The init command, if any, runs to its end without asking to quit. */
  predicate InitFinishes<M, C, A>(p: Program<M, C, A>, start: M, sizes: nat -> Option<(int, int)>, fuel: nat) {
    var m0 := Sized(p, start, sizes);
    p.init(m0).None? || (RunCmdChain(p, m0, p.init(m0).value, fuel).Finished?
                         && !RunCmdChain(p, m0, p.init(m0).value, fuel).quit)
  }

  /** The model the loop starts from: the sized model with the init chain's messages folded in. */
  function StartModel<M, C, A>(p: Program<M, C, A>, start: M, sizes: nat -> Option<(int, int)>, fuel: nat): M {
    var m0 := Sized(p, start, sizes);
    match p.init(m0)
    case None => m0
    case Some(c) => Fold(p, m0, Delivered(p, m0, c, fuel))
  }

  /** The frames drawn before the first key: the sized model, then the model the init chain left. */
  function StartFrames<M, C, A>(p: Program<M, C, A>, start: M, sizes: nat -> Option<(int, int)>, fuel: nat)
    : seq<string>
  {
    var m0 := Sized(p, start, sizes);
    if p.init(m0).None? then [p.view(m0)] else [p.view(m0), p.view(StartModel(p, start, sizes, fuel))]
  }

  // ---------------------------------------------------------------------------
  // A reference reading of the loop for programs that issue commands.

  /** The model after `update` handles the key and the chain it starts has delivered its messages. */
  function AfterKey<M, C, A>(p: Program<M, C, A>, m: M, k: Keys.KeyMsg, fuel: nat): M {
    var (m1, cmd) := p.update(m, KeyPress(k));
    match cmd
    case None => m1
    case Some(c) => Fold(p, m1, Delivered(p, m1, c, fuel))
  }

  /** The chain the key starts, if any, runs to its end without asking to quit. */
  predicate KeyFinishes<M, C, A>(p: Program<M, C, A>, m: M, k: Keys.KeyMsg, fuel: nat) {
    var (m1, cmd) := p.update(m, KeyPress(k));
    cmd.None? || (RunCmdChain(p, m1, cmd.value, fuel).Finished? && !RunCmdChain(p, m1, cmd.value, fuel).quit)
  }

  /**
   * The model drawn after each key: the key handled with its chain, then the
   * resize answered by the next window-size query.
   */
  function Trace<M, C, A>(p: Program<M, C, A>, m: M, ks: seq<Keys.KeyMsg>, sizes: nat -> Option<(int, int)>,
                          q: nat, fuel: nat): (t: seq<M>)
    ensures |t| == |ks|
    decreases |ks|
  {
    if |ks| == 0 then []
    else
      var m3 := Resize(p, AfterKey(p, m, ks[0], fuel), sizes(q));
      [m3] + Trace(p, m3, ks[1..], sizes, q + 1, fuel)
  }

  /** No key of the sequence starts a chain that quits or does not finish. */
  predicate Calm<M, C, A>(p: Program<M, C, A>, m: M, ks: seq<Keys.KeyMsg>, sizes: nat -> Option<(int, int)>,
                          q: nat, fuel: nat)
    decreases |ks|
  {
    |ks| == 0
    || (KeyFinishes(p, m, ks[0], fuel)
        && Calm(p, Resize(p, AfterKey(p, m, ks[0], fuel), sizes(q)), ks[1..], sizes, q + 1, fuel))
  }

  /** The frames of a sequence of models. */
  function Views<M, C, A>(p: Program<M, C, A>, ms: seq<M>): (vs: seq<string>)
    ensures |vs| == |ms|
    ensures forall i | 0 <= i < |ms| :: vs[i] == p.view(ms[i])
    decreases |ms|
  {
    if |ms| == 0 then [] else [p.view(ms[0])] + Views(p, ms[1..])
  }

  /** The last model of a trace that starts from `m`. */
  function Last<M>(m: M, t: seq<M>): M {
    if |t| == 0 then m else t[|t| - 1]
  }

  /**
   * As long as no key's chain quits, the loop handles every key the input
   * decodes to: `update`, then the chain's messages, then the resize answered
   * by that key's own window-size query, then one frame of that model. It ends
   * with the read error at the end of the input, holding the last model drawn.
   */
  lemma {:induction false} LoopFollowsTrace<M, C, A>(p: Program<M, C, A>, m: M, input: seq<Keys.byte>,
                                                     sizes: nat -> Option<(int, int)>, q: nat, fuel: nat)
    requires Calm(p, m, DecodeAll(input), sizes, q, fuel)
    ensures var t := Trace(p, m, DecodeAll(input), sizes, q, fuel);
      && Loop(p, m, input, sizes, q, fuel).keys == |DecodeAll(input)|
      && Loop(p, m, input, sizes, q, fuel).frames == Views(p, t)
      && Loop(p, m, input, sizes, q, fuel).model == Some(Last(m, t))
      && Loop(p, m, input, sizes, q, fuel).err == Some(Read(Keys.EOF))
    decreases |input|
  {
    var ks := DecodeAll(input);
    var t := Trace(p, m, ks, sizes, q, fuel);
    match Keys.ReadKeyMsg(input)
    case Failure(e) =>
      assert ks == [] && e == Keys.EOF;
    case Success(d) =>
      var k := d.key;
      assert ks[0] == k && ks[1..] == DecodeAll(input[d.consumed..]);
      var (m1, cmd) := p.update(m, KeyPress(k));
      if cmd.Some? {
        ChainIsFold(p, m1, cmd.value, fuel);
      }
      var m3 := Resize(p, AfterKey(p, m, k, fuel), sizes(q));
      LoopFollowsTrace(p, m3, input[d.consumed..], sizes, q + 1, fuel);
      var rest := Trace(p, m3, ks[1..], sizes, q + 1, fuel);
      assert t == [m3] + rest;
      assert Views(p, t) == [p.view(m3)] + Views(p, rest) by {
        assert t[1..] == rest;
      }
      assert Last(m, t) == Last(m3, rest);
  }

  /**
   * The whole run of a program whose init chain and key chains never quit:
   * the frames drawn before the first key, then one per decoded key, following
   * the reference trace from the model the init chain left.
   */
  lemma RunFollowsTrace<M, C, A>(p: Program<M, C, A>, start: M, sizes: nat -> Option<(int, int)>,
                                 input: seq<Keys.byte>, fuel: nat)
    requires InitFinishes(p, start, sizes, fuel)
    requires Calm(p, StartModel(p, start, sizes, fuel), DecodeAll(input), sizes, 1, fuel)
    ensures var m := StartModel(p, start, sizes, fuel);
      var t := Trace(p, m, DecodeAll(input), sizes, 1, fuel);
      var r := Run(Some(p), start, Success(()), sizes, input, fuel);
      && r.frames == StartFrames(p, start, sizes, fuel) + Views(p, t)
      && r.model == Some(Last(m, t))
      && r.keys == |DecodeAll(input)|
      && r.err == Some(Read(Keys.EOF))
  {
    LoopFollowsTrace(p, StartModel(p, start, sizes, fuel), input, sizes, 1, fuel);
  }

  /**
   * A key whose command quits ends the loop at once: the model `update` left is
   * returned as it is, with no resize, no redraw and no error.
   */
  lemma QuitKeyEndsLoop<M, C, A>(p: Program<M, C, A>, m: M, input: seq<Keys.byte>,
                                 sizes: nat -> Option<(int, int)>, q: nat, fuel: nat)
    requires Keys.ReadKeyMsg(input).Success? && fuel > 0
    requires var out := p.update(m, KeyPress(Keys.ReadKeyMsg(input).value.key));
      out.1.Some? && p.exec(out.1.value).QuitMsg?
    ensures Loop(p, m, input, sizes, q, fuel) ==
            RunResult(Some(p.update(m, KeyPress(Keys.ReadKeyMsg(input).value.key)).0), None, [], 1)
  {
  }

  // ---------------------------------------------------------------------------
  // A reference reading of the loop: decode all keys, then replay them.

  /** The key events the input decodes to, in order, up to the first read error. */
  function DecodeAll(input: seq<Keys.byte>): (ks: seq<Keys.KeyMsg>)
    ensures |ks| <= |input|
    decreases |input|
  {
    match Keys.ReadKeyMsg(input)
    case Failure(_) => []
    case Success(d) => [d.key] + DecodeAll(input[d.consumed..])
  }

  /**
   * Handles each key as the loop does when no command is ever returned: update,
   * then resize with the answer of the next window-size query.
   */
  function Replay<M, C, A>(p: Program<M, C, A>, m: M, ks: seq<Keys.KeyMsg>, sizes: nat -> Option<(int, int)>,
                           q: nat): M
    decreases |ks|
  {
    if |ks| == 0 then m
    else Replay(p, Resize(p, p.update(m, KeyPress(ks[0])).0, sizes(q)), ks[1..], sizes, q + 1)
  }

  /** `update` never returns a command. */
  ghost predicate Quiet<M(!new), C, A(!new)>(p: Program<M, C, A>) {
    forall m: M, msg: Msg<A> :: p.update(m, msg).1.None?
  }

  /**
   * When the model never issues commands, the loop handles every key the input
   * decodes to, in order, and stops with a read error once the input is used up.
   */
  lemma {:induction false} QuietLoopReplaysInput<M(!new), C, A(!new)>(p: Program<M, C, A>, m: M, input: seq<Keys.byte>,
                                                          sizes: nat -> Option<(int, int)>, q: nat, fuel: nat)
    requires Quiet(p)
    ensures Loop(p, m, input, sizes, q, fuel).keys == |DecodeAll(input)|
    ensures Loop(p, m, input, sizes, q, fuel).model == Some(Replay(p, m, DecodeAll(input), sizes, q))
    ensures Loop(p, m, input, sizes, q, fuel).err.Some? && Loop(p, m, input, sizes, q, fuel).err.value.Read?
    decreases |input|
  {
    match Keys.ReadKeyMsg(input)
    case Failure(e) =>
    case Success(d) =>
      var ks := DecodeAll(input);
      var m1 := p.update(m, KeyPress(d.key)).0;
      assert p.update(m, KeyPress(d.key)).1.None?;
      QuietLoopReplaysInput(p, Resize(p, m1, sizes(q)), input[d.consumed..], sizes, q + 1, fuel);
      assert ks[0] == d.key && ks[1..] == DecodeAll(input[d.consumed..]);
  }
}

=== FILE: text.dfy ===
/**
 * String helpers shared by every package of the tool, standing in for Go's
 * `strings` functions. A Go string is modelled by the sequence of its runes
 * (`seq<char>`), so a rune count is `|s|`.
 */
module Text {
  import Selection

  /** `strings.HasPrefix`. */
  predicate HasPrefix(s: string, prefix: string) {
    |prefix| <= |s| && s[..|prefix|] == prefix
  }

  /** `strings.TrimPrefix`: drops `prefix` when `s` starts with it. */
  function TrimPrefix(s: string, prefix: string): (r: string)
    ensures HasPrefix(s, prefix) ==> prefix + r == s
    ensures !HasPrefix(s, prefix) ==> r == s
  {
    if HasPrefix(s, prefix) then s[|prefix|..] else s
  }

  /** `strings.Contains`: `sub` occurs somewhere in `s`. */
  predicate Contains(s: string, sub: string) {
    exists i | 0 <= i <= |s| - |sub| :: OccursAt(s, sub, i)
  }

  /** `sub` occurs in `s` starting at index `i`. */
  predicate OccursAt(s: string, sub: string, i: int)
    requires 0 <= i <= |s| - |sub|
  {
    s[i..i + |sub|] == sub
  }

  lemma ContainsEmpty(s: string)
    ensures Contains(s, "")
  {
    assert OccursAt(s, "", 0);
  }

  /** `strings.Repeat` of a single rune. */
  function Repeat(c: char, n: nat): (r: string)
    ensures |r| == n
    ensures forall i | 0 <= i < n :: r[i] == c
  {
    if n == 0 then "" else [c] + Repeat(c, n - 1)
  }

  /** Go's `unicode.IsSpace`: the Latin-1 spaces plus the other Unicode White_Space runes. */
  predicate IsSpace(c: char) {
    c == ' ' || c == '\t' || c == '\n' || c == '\r' || c == '\U{0B}' || c == '\U{0C}'
    || c == '\U{85}' || c == '\U{A0}' || c == '\U{1680}'
    || ('\U{2000}' <= c <= '\U{200A}')
    || c == '\U{2028}' || c == '\U{2029}' || c == '\U{202F}' || c == '\U{205F}' || c == '\U{3000}'
  }

  /** A string is already trimmed when it has no white space at either end. */
  predicate IsTrimmed(s: string) {
    |s| == 0 || (!IsSpace(s[0]) && !IsSpace(s[|s| - 1]))
  }

  /** Blank: white space only, so that `strings.TrimSpace` leaves nothing (`TrimSpaceEmpty`). */
  predicate IsBlank(s: string) {
    forall i | 0 <= i < |s| :: IsSpace(s[i])
  }

  /**
   * `strings.TrimSpace`: white space is cut from both ends until neither end
   * is white space. Cutting the front first, as Go does, gives the same slice.
   */
  function TrimSpace(s: string): (r: string)
    ensures |r| <= |s|
    ensures IsTrimmed(r)
    decreases |s|
  {
    if |s| > 0 && IsSpace(s[0]) then TrimSpace(s[1..])
    else if |s| > 0 && IsSpace(s[|s| - 1]) then TrimSpace(s[..|s| - 1])
    else s
  }

  /** `r` is the slice of `s` starting at `lo`, and only white space lies around it. */
  predicate SpaceAround(s: string, r: string, lo: nat) {
    && lo + |r| <= |s| && r == s[lo..lo + |r|]
    && (forall i | 0 <= i < lo :: IsSpace(s[i]))
    && (forall i | lo + |r| <= i < |s| :: IsSpace(s[i]))
  }

  /**
   * The trimmed string is the slice of `s` between a white-space prefix and a
   * white-space suffix: `lo` is where it starts.
   */
  lemma {:induction false} TrimSpaceSlice(s: string) returns (lo: nat)
    ensures SpaceAround(s, TrimSpace(s), lo)
    decreases |s|
  {
    if |s| > 0 && IsSpace(s[0]) {
      var t := s[1..];
      assert TrimSpace(s) == TrimSpace(t);
      var k := TrimSpaceSlice(t);
      lo := k + 1;
      FrontStep(s, TrimSpace(t), k);
    } else if |s| > 0 && IsSpace(s[|s| - 1]) {
      var t := s[..|s| - 1];
      assert TrimSpace(s) == TrimSpace(t);
      lo := TrimSpaceSlice(t);
      BackStep(s, TrimSpace(t), lo);
    } else {
      lo := 0;
    }
  }

  /** White space around a slice of `s[1..]` stays around it in `s` when `s[0]` is white space. */
  lemma FrontStep(s: string, r: string, k: nat)
    requires |s| > 0 && IsSpace(s[0])
    requires SpaceAround(s[1..], r, k)
    ensures SpaceAround(s, r, k + 1)
  {
    SliceOfTail(s, k, |r|);
  }

  /** White space around a slice of `s` without its last character stays around it in `s` when that character is white space. */
  lemma BackStep(s: string, r: string, k: nat)
    requires |s| > 0 && IsSpace(s[|s| - 1])
    requires SpaceAround(s[..|s| - 1], r, k)
    ensures SpaceAround(s, r, k)
  {
    SliceOfFront(s, k, |r|);
  }

  lemma SliceOfTail(s: string, k: nat, n: nat)
    requires |s| > 0 && k + n <= |s| - 1
    ensures s[1..][k..k + n] == s[k + 1..k + 1 + n]
    ensures forall i | 1 <= i < |s| :: s[i] == s[1..][i - 1]
  {
  }

  lemma SliceOfFront(s: string, k: nat, n: nat)
    requires |s| > 0 && k + n <= |s| - 1
    ensures s[..|s| - 1][k..k + n] == s[k..k + n]
    ensures forall i | 0 <= i < |s| - 1 :: s[i] == s[..|s| - 1][i]
  {
  }

  /** Trimming only cuts from the ends: what is left occurs in the string. */
  lemma TrimSpaceOccurs(s: string)
    ensures Contains(s, TrimSpace(s))
  {
    var lo := TrimSpaceSlice(s);
    assert OccursAt(s, TrimSpace(s), lo);
  }

  /** `strings.TrimSpace(s) == ""` holds exactly for the blank strings. */
  lemma {:induction false} TrimSpaceEmpty(s: string)
    ensures TrimSpace(s) == "" <==> IsBlank(s)
    decreases |s|
  {
    if |s| > 0 && IsSpace(s[0]) {
      TrimSpaceEmpty(s[1..]);
      assert IsBlank(s) <==> IsBlank(s[1..]) by {
        if IsBlank(s[1..]) {
          assert forall i | 1 <= i < |s| :: s[i] == s[1..][i - 1];
        }
      }
    } else if |s| > 0 && IsSpace(s[|s| - 1]) {
      TrimSpaceEmpty(s[..|s| - 1]);
      assert |s| >= 2;
      assert s[..|s| - 1][0] == s[0];
    } else if |s| > 0 {
      assert !IsSpace(s[0]);
    }
  }

  lemma TrimSpaceOfTrimmed(s: string)
    requires IsTrimmed(s)
    ensures TrimSpace(s) == s
  {
  }

  lemma TrimSpaceIdempotent(s: string)
    ensures TrimSpace(TrimSpace(s)) == TrimSpace(s)
  {
    TrimSpaceOfTrimmed(TrimSpace(s));
  }

  /** Trimming never brings in a rune the string did not have. */
  lemma TrimSpaceWithout(s: string, c: char)
    requires c !in s
    ensures c !in TrimSpace(s)
  {
    var lo := TrimSpaceSlice(s);
    assert forall i | 0 <= i < |TrimSpace(s)| :: TrimSpace(s)[i] == s[lo + i];
  }

  /** `x` is what trimming one of `lines` gives. */
  predicate TrimOfSome(x: string, lines: seq<string>) {
    exists l | l in lines :: x == TrimSpace(l)
  }

  /** A trim of some line is the trim of the first line or of one of the others. */
  lemma TrimOfSomeSplit(x: string, lines: seq<string>)
    requires |lines| > 0
    ensures TrimOfSome(x, lines) <==> x == TrimSpace(lines[0]) || TrimOfSome(x, lines[1..])
  {
    if TrimOfSome(x, lines) {
      var l :| l in lines && x == TrimSpace(l);
      if l != lines[0] {
        var i :| 0 <= i < |lines| && lines[i] == l;
        assert lines[1..][i - 1] == l;
      }
    }
    if TrimOfSome(x, lines[1..]) {
      var l :| l in lines[1..] && x == TrimSpace(l);
      assert l in lines;
    }
    if x == TrimSpace(lines[0]) {
      assert lines[0] in lines;
    }
  }

  /** Every line with its surrounding white space cut. */
  function TrimEach(lines: seq<string>): (r: seq<string>)
    ensures |r| == |lines|
    ensures forall i | 0 <= i < |lines| :: r[i] == TrimSpace(lines[i])
  {
    if |lines| == 0 then [] else [TrimSpace(lines[0])] + TrimEach(lines[1..])
  }

  predicate NonBlank(t: string) {
    t != ""
  }

  /** The trimmed lines that are not blank, in order: the loop shared by `parseLines` and `parseModels`. */
  function TrimmedLines(lines: seq<string>): (r: seq<string>)
    ensures |r| <= |lines|
    ensures forall i | 0 <= i < |r| :: r[i] != "" && IsTrimmed(r[i])
  {
    if |lines| == 0 then []
    else
      var t := TrimSpace(lines[0]);
      var rest := TrimmedLines(lines[1..]);
      if t == "" then rest else [t] + rest
  }

  /**
   * The loop keeps each trimmed line exactly when it is not empty: repeats
   * survive and the order is the file's.
   */
  lemma {:induction false} TrimmedLinesIsFilter(lines: seq<string>)
    ensures TrimmedLines(lines) == Selection.FilterBy(TrimEach(lines), NonBlank)
  {
    if |lines| > 0 {
      TrimmedLinesIsFilter(lines[1..]);
      var te := TrimEach(lines);
      assert te[0] == TrimSpace(lines[0]);
      assert te[1..] == TrimEach(lines[1..]);
    }
  }

  lemma {:induction false} TrimmedLinesMembers(lines: seq<string>)
    ensures forall x :: x in TrimmedLines(lines) <==> x != "" && TrimOfSome(x, lines)
  {
    if |lines| > 0 {
      TrimmedLinesMembers(lines[1..]);
      forall x
        ensures x in TrimmedLines(lines) <==> x != "" && TrimOfSome(x, lines)
      {
        TrimOfSomeSplit(x, lines);
      }
    }
  }

  /** Lines that are already trimmed and non-blank come through unchanged; blank lines vanish. */
  lemma {:induction false} TrimmedLinesKeeps(ms: seq<string>, tail: seq<string>)
    requires forall i | 0 <= i < |ms| :: ms[i] != "" && IsTrimmed(ms[i])
    requires forall i | 0 <= i < |tail| :: IsBlank(tail[i])
    ensures TrimmedLines(ms + tail) == ms
    decreases |ms| + |tail|
  {
    if |ms| > 0 {
      TrimSpaceOfTrimmed(ms[0]);
      assert (ms + tail)[1..] == ms[1..] + tail;
      TrimmedLinesKeeps(ms[1..], tail);
    } else if |tail| > 0 {
      TrimSpaceEmpty(tail[0]);
      assert (ms + tail)[1..] == [] + tail[1..];
      TrimmedLinesKeeps([], tail[1..]);
    } else {
      assert ms + tail == [];
    }
  }

  /** `unicode.ToLower` restricted to the ASCII letters. */
  function LowerRune(c: char): (r: char)
    ensures 'A' <= c <= 'Z' ==> r as int == c as int + 32
    ensures !('A' <= c <= 'Z') ==> r == c
  {
    if 'A' <= c <= 'Z' then (c as int + 32) as char else c
  }

  /** `strings.ToLower`, rune by rune. */
  function ToLower(s: string): (r: string)
    ensures |r| == |s|
    ensures forall i | 0 <= i < |s| :: r[i] == LowerRune(s[i])
  {
    if |s| == 0 then "" else [LowerRune(s[0])] + ToLower(s[1..])
  }

  /** `strings.Contains(strings.ToLower(s), strings.ToLower(query))`. */
  predicate ContainsFold(s: string, query: string) {
    Contains(ToLower(s), ToLower(query))
  }

  /** `strings.Split(s, string(sep))`: the pieces between separators, always at least one. */
  function Split(s: string, sep: char): (parts: seq<string>)
    ensures |parts| >= 1
    ensures forall i | 0 <= i < |parts| :: sep !in parts[i]
  {
    if |s| == 0 then [""]
    else
      var rest := Split(s[1..], sep);
      if s[0] == sep then [""] + rest else [[s[0]] + rest[0]] + rest[1..]
  }

  /** `strings.Join(parts, string(sep))`. */
  function Join(parts: seq<string>, sep: char): string {
    if |parts| == 0 then ""
    else if |parts| == 1 then parts[0]
    else parts[0] + [sep] + Join(parts[1..], sep)
  }

  /** Splitting yields one more piece than there are separators. */
  lemma {:induction false} SplitCount(s: string, sep: char)
    ensures |Split(s, sep)| == multiset(s)[sep] + 1
  {
    if |s| > 0 {
      SplitCount(s[1..], sep);
      assert s == [s[0]] + s[1..];
      assert multiset(s) == multiset{s[0]} + multiset(s[1..]);
    }
  }

  /** Joining the pieces of a split gives the original string back. */
  lemma {:induction false} JoinSplit(s: string, sep: char)
    ensures Join(Split(s, sep), sep) == s
  {
    if |s| > 0 {
      var rest := Split(s[1..], sep);
      JoinSplit(s[1..], sep);
      if s[0] == sep {
        assert Split(s, sep) == [""] + rest;
        assert Join(Split(s, sep), sep) == "" + [sep] + Join(rest, sep);
      } else {
        var parts := [[s[0]] + rest[0]] + rest[1..];
        assert Split(s, sep) == parts;
        if |rest| == 1 {
          assert Join(parts, sep) == [s[0]] + rest[0];
        } else {
          assert Join(rest, sep) == rest[0] + [sep] + Join(rest[1..], sep);
          assert parts[1..] == rest[1..];
          assert Join(parts, sep) == [s[0]] + rest[0] + [sep] + Join(rest[1..], sep);
        }
        assert s == [s[0]] + s[1..];
      }
    }
  }

  lemma SplitNoSep(s: string, sep: char)
    requires sep !in s
    ensures Split(s, sep) == [s]
  {
    JoinSplit(s, sep);
    SplitCount(s, sep);
    assert multiset(s)[sep] == 0;
  }

  lemma {:induction false} SplitPrepend(x: string, sep: char, rest: string)
    requires sep !in x
    ensures Split(x + [sep] + rest, sep) == [x] + Split(rest, sep)
    decreases |x|
  {
    if |x| == 0 {
      assert x + [sep] + rest == [sep] + rest;
      assert ([sep] + rest)[1..] == rest;
    } else {
      var s := x + [sep] + rest;
      assert s[0] == x[0];
      assert s[1..] == x[1..] + [sep] + rest;
      SplitPrepend(x[1..], sep, rest);
      assert [x[0]] + x[1..] == x;
    }
  }

  /** Splitting a join of separator-free pieces gives the pieces back. */
  lemma {:induction false} SplitJoin(parts: seq<string>, sep: char)
    requires |parts| >= 1
    requires forall i | 0 <= i < |parts| :: sep !in parts[i]
    ensures Split(Join(parts, sep), sep) == parts
  {
    if |parts| == 1 {
      SplitNoSep(parts[0], sep);
    } else {
      SplitJoin(parts[1..], sep);
      SplitPrepend(parts[0], sep, Join(parts[1..], sep));
      assert [parts[0]] + parts[1..] == parts;
    }
  }

  /** Joining one more piece adds a separator and the piece at the end. */
  lemma {:induction false} JoinAppend(parts: seq<string>, last: string, sep: char)
    requires |parts| >= 1
    ensures Join(parts + [last], sep) == Join(parts, sep) + [sep] + last
    decreases |parts|
  {
    var all := parts + [last];
    assert all[0] == parts[0];
    if |parts| == 1 {
      assert all[1..] == [last];
      assert Join(all, sep) == parts[0] + [sep] + last;
    } else {
      assert all[1..] == parts[1..] + [last];
      JoinAppend(parts[1..], last, sep);
      assert Join(all, sep) == parts[0] + [sep] + (Join(parts[1..], sep) + [sep] + last);
      assert Join(parts, sep) == parts[0] + [sep] + Join(parts[1..], sep);
    }
  }

  /** Go's string order: byte-wise, which for valid UTF-8 is the code point order used here. */
  predicate Le(a: string, b: string)
    decreases |a|
  {
    |a| == 0 || (|b| > 0 && (a[0] < b[0] || (a[0] == b[0] && Le(a[1..], b[1..]))))
  }

  predicate Lt(a: string, b: string) {
    Le(a, b) && a != b
  }

  lemma LeRefl(a: string)
    ensures Le(a, a)
  {
  }

  lemma LeTotal(a: string, b: string)
    ensures Le(a, b) || Le(b, a)
  {
  }

  lemma LeTrans(a: string, b: string, c: string)
    requires Le(a, b) && Le(b, c)
    ensures Le(a, c)
  {
  }

  lemma {:induction false} LeAntisym(a: string, b: string)
    requires Le(a, b) && Le(b, a)
    ensures a == b
    decreases |a|
  {
    if |a| > 0 {
      LeAntisym(a[1..], b[1..]);
      assert a == [a[0]] + a[1..];
      assert b == [b[0]] + b[1..];
    }
  }

  /** A shared prefix does not change the order: it is decided by what follows. */
  lemma {:induction false} LtDropPrefix(p: string, a: string, b: string)
    requires Lt(p + a, p + b)
    ensures Lt(a, b)
    decreases |p|
  {
    if |p| == 0 {
      assert p + a == a && p + b == b;
    } else {
      assert (p + a)[1..] == p[1..] + a;
      assert (p + b)[1..] == p[1..] + b;
      LtDropPrefix(p[1..], a, b);
    }
  }

  lemma LeIsTotalOrder()
    ensures forall a, b :: Le(a, b) && Le(b, a) ==> a == b
    ensures forall a, b :: Le(a, b) || Le(b, a)
  {
    forall a, b | Le(a, b) && Le(b, a)
      ensures a == b
    {
      LeAntisym(a, b);
    }
    forall a, b
      ensures Le(a, b) || Le(b, a)
    {
      LeTotal(a, b);
    }
  }
  // ---------------------------------------------------------------------------
  // Decimal numerals, as `%d` writes them.

  function DigitChar(d: nat): (c: char)
    requires d < 10
    ensures '0' <= c <= '9'
  {
    ('0' as int + d) as char
  }

  /** The decimal numeral of `n`, without leading zeros. */
  function Itoa(n: nat): (s: string)
    ensures |s| >= 1
    ensures forall i | 0 <= i < |s| :: '0' <= s[i] <= '9'
  {
    if n < 10 then [DigitChar(n)] else Itoa(n / 10) + [DigitChar(n % 10)]
  }

  /** Reads a string of decimal digits back as a number. */
  function ParseDecimal(s: string): nat
    requires forall i | 0 <= i < |s| :: '0' <= s[i] <= '9'
  {
    if |s| == 0 then 0
    else ParseDecimal(s[..|s| - 1]) * 10 + (s[|s| - 1] as int - '0' as int)
  }

  lemma {:induction false} ParseItoa(n: nat)
    ensures ParseDecimal(Itoa(n)) == n
  {
    if n >= 10 {
      ParseItoa(n / 10);
      var s := Itoa(n);
      assert s[..|s| - 1] == Itoa(n / 10);
    }
  }

  /** Different numbers have different numerals. */
  lemma ItoaInjective(m: nat, n: nat)
    requires Itoa(m) == Itoa(n)
    ensures m == n
  {
    ParseItoa(m);
    ParseItoa(n);
  }
}

=== FILE: tui_state.dfy ===
/**
 * The terminal UI's model (internal/tui): one record holding every field the
 * screens read and write, updated by copy. The deferred work a handler asks
 * for is a `Cmd` value; running it is a separate function over its inputs.
 */
module TuiState {
  import opened Wrappers
  import opened Profile

  datatype Screen = ScreenProfiles | ScreenBackups | ScreenDiff | ScreenAgents | ScreenModels

  datatype StatusKind = StatusNone | StatusInfo | StatusSuccess | StatusError

  /** `statusBarState`. */
  datatype StatusBar = StatusBar(kind: StatusKind, message: string, clearOnNextKey: bool)

  /**
   * `confirmState`. The callback run on "yes" is named by an action number;
   * `None` stands for a nil callback.
   */
  datatype Confirm = Confirm(open: bool, prompt: string, onYes: Option<nat>)

  /** `agentEntry`: one row of the agents screen. */
  datatype AgentEntry = AgentEntry(name: string, model: string, missing: bool)

  /**
   * The model. `status` is the status bar of the overlays; `statusLine` is
   * the plain status text that the older profile list and the agents loader
   * set.
   */
  datatype State = State(
    configDir: string,
    enableAutofill: bool,
    profiles: seq<ProfileInfo>,
    profilesVisible: seq<ProfileInfo>,
    activeName: string,
    hasActive: bool,
    selected: int,
    profileFilter: string,
    profileFilterMode: bool,
    screen: Screen,
    status: StatusBar,
    statusLine: string,
    confirm: Confirm,
    helpOpen: bool,
    agentsProfile: ProfileInfo,
    agentsConfig: Option<RootConfig>,
    agentsEntries: seq<AgentEntry>,
    agentsSelected: int,
    agentsDirty: bool,
    agentsStatus: string,
    modelTargetAgent: string,
    modelAll: seq<string>,
    modelSearch: string,
    modelFiltered: seq<string>,
    modelSelected: int,
    modelStatus: string)

  /** Deferred work a handler returns instead of doing it. */
  datatype Cmd =
    | Quit
    | LoadAgents(profile: ProfileInfo)
    | SaveCmd(dir: string, profile: ProfileInfo, cfg: Option<RootConfig>)
    | AutofillCmd(dir: string, profile: ProfileInfo, cfg: Option<RootConfig>, preset: Preset)

  /** A handler's result: the new model and the command, if any. */
  datatype Step = Step(state: State, cmd: Option<Cmd>)

  const ZeroStatus: StatusBar := StatusBar(StatusNone, "", false)
  const ZeroConfirm: Confirm := Confirm(false, "", None)
  const NoProfile: ProfileInfo := ProfileInfo("", "")

  /** Every field at Go's zero value. */
  const Blank: State := State(
    "", false, [], [], "", false, 0, "", false, ScreenProfiles, ZeroStatus, "", ZeroConfirm, false,
    NoProfile, None, [], 0, false, "", "", [], "", [], 0, "")
}

=== FILE: util.dfy ===
/**
 * `ExpandUser` (internal/util/fs.go): a leading `~` names the home directory.
 * The home directory lookup is an input, as its result or its error.
 */
module Util {
  import opened Wrappers
  import opened Text
  import opened Fs

  /** The two forms that expand: `~` alone and `~/...`; `~user` is not one of them. */
  predicate IsTildePath(path: string) {
    path == "~" || HasPrefix(path, "~/")
  }

  function ExpandUser(path: string, home: Result<string, Error>): (r: Result<string, Error>)
    ensures !IsTildePath(path) ==> r == Success(path)
    ensures r.Failure? <==> IsTildePath(path) && home.Failure?
    ensures r.Failure? ==> r.error == home.error
    ensures path == "~" && home.Success? ==> r == Success(home.value)
    ensures HasPrefix(path, "~/") && home.Success? && home.value != "" && |path| > 2 ==>
              r == Success(home.value + "/" + path[2..])
  {
    if IsTildePath(path) then
      match home
      case Failure(e) => Failure(e)
      case Success(h) =>
        if path == "~" then Success(h) else Success(PathJoin(h, TrimPrefix(path, "~/")))
    else Success(path)
  }

  /** Expansion never leaves a tilde form behind when the home directory is absolute. */
  lemma ExpandedIsAbsolute(path: string, home: string)
    requires IsTildePath(path) && IsAbs(home)
    ensures ExpandUser(path, Success(home)).Success? && IsAbs(ExpandUser(path, Success(home)).value)
  {
    var r := ExpandUser(path, Success(home)).value;
    if path != "~" && TrimPrefix(path, "~/") != "" {
      assert r == home + "/" + TrimPrefix(path, "~/");
      assert r[..1] == home[..1];
    }
  }
}

=== FILE: viewport.dfy ===
/**
 * The scrolling viewport of the diff screen (internal/tui/viewport.go): the
 * content split into lines, a window `height` lines tall and the index `y` of
 * the first visible line.
 */
module Viewport {
  import opened Text

  datatype DiffViewport = DiffViewport(content: string, lines: seq<string>, width: int, height: int, y: int)

  /** The largest offset that still fills the window (0 when everything fits). */
  function MaxOffset(v: DiffViewport): (m: nat)
    ensures v.height > 0 ==> m + v.height >= |v.lines| && (m == 0 || m + v.height == |v.lines|)
  {
    if |v.lines| - v.height < 0 then 0 else |v.lines| - v.height
  }

  /** The offset invariant `clamp` establishes. */
  predicate Valid(v: DiffViewport) {
    if v.height <= 0 then v.y == 0 else 0 <= v.y <= MaxOffset(v)
  }

  /** `newDiffViewport`: a one-by-one window over no content. */
  function NewDiffViewport(): (v: DiffViewport)
    ensures v.width == 1 && v.height == 1 && v.y == 0 && v.lines == [] && v.content == ""
    ensures Valid(v)
  {
    DiffViewport("", [], 1, 1, 0)
  }

  /** `clamp`: pulls the offset back into range, touching nothing else. */
  function Clamp(v: DiffViewport): (r: DiffViewport)
    ensures Valid(r)
    ensures r == v.(y := r.y)
    ensures Valid(v) ==> r == v
    ensures v.height > 0 && v.y < 0 ==> r.y == 0
    ensures v.height > 0 && v.y > MaxOffset(v) ==> r.y == MaxOffset(v)
  {
    if v.height <= 0 then v.(y := 0)
    else if v.y < 0 then v.(y := 0)
    else if v.y > MaxOffset(v) then v.(y := MaxOffset(v))
    else v
  }

  /** `SetContent`: the lines are the newline-separated pieces of the content. */
  function SetContent(v: DiffViewport, content: string): (r: DiffViewport)
    ensures r.content == content && r.lines == Split(content, '\n')
    ensures r.width == v.width && r.height == v.height
    ensures Valid(r)
  {
    Clamp(v.(content := content, lines := Split(content, '\n')))
  }

  /** One line per newline, plus one. */
  lemma SetContentLineCount(v: DiffViewport, content: string)
    ensures |SetContent(v, content).lines| == multiset(content)['\n'] + 1
  {
    SplitCount(content, '\n');
  }

  /**
   * Moving the offset by `delta` and clamping, from any offset: the target
   * `y + delta` is taken when it is in range and otherwise pulled to the
   * nearer end; from a valid offset the move never goes the wrong way.
   */
  function Scroll(v: DiffViewport, delta: int): (r: DiffViewport)
    ensures Valid(r) && r == v.(y := r.y)
    ensures v.height <= 0 ==> r.y == 0
    ensures v.height > 0 && 0 <= v.y + delta <= MaxOffset(v) ==> r.y == v.y + delta
    ensures v.height > 0 && v.y + delta < 0 ==> r.y == 0
    ensures v.height > 0 && v.y + delta > MaxOffset(v) ==> r.y == MaxOffset(v)
    ensures Valid(v) && v.height > 0 && delta >= 0 ==> v.y <= r.y <= v.y + delta
    ensures Valid(v) && v.height > 0 && delta <= 0 ==> v.y + delta <= r.y <= v.y
  {
    Clamp(v.(y := v.y + delta))
  }

  /** `LineDown`: `n` lines further down, clamped. */
  function LineDown(v: DiffViewport, n: int): (r: DiffViewport)
    ensures Valid(r) && r == v.(y := r.y)
    ensures v.height <= 0 ==> r.y == 0
    ensures v.height > 0 && 0 <= v.y + n <= MaxOffset(v) ==> r.y == v.y + n
    ensures v.height > 0 && v.y + n < 0 ==> r.y == 0
    ensures v.height > 0 && v.y + n > MaxOffset(v) ==> r.y == MaxOffset(v)
    ensures Valid(v) && v.height > 0 && n >= 0 ==> v.y <= r.y <= v.y + n
  {
    Scroll(v, n)
  }

  /** `LineUp`: `n` lines further up, clamped. */
  function LineUp(v: DiffViewport, n: int): (r: DiffViewport)
    ensures Valid(r) && r == v.(y := r.y)
    ensures v.height <= 0 ==> r.y == 0
    ensures v.height > 0 && 0 <= v.y - n <= MaxOffset(v) ==> r.y == v.y - n
    ensures v.height > 0 && v.y - n < 0 ==> r.y == 0
    ensures v.height > 0 && v.y - n > MaxOffset(v) ==> r.y == MaxOffset(v)
    ensures Valid(v) && v.height > 0 && n >= 0 ==> v.y - n <= r.y <= v.y
  {
    Scroll(v, -n)
  }

  /** `PageDown`: one window height further down, clamped. */
  function PageDown(v: DiffViewport): (r: DiffViewport)
    ensures Valid(r) && r == v.(y := r.y)
    ensures v.height <= 0 ==> r.y == 0
    ensures v.height > 0 && 0 <= v.y + v.height <= MaxOffset(v) ==> r.y == v.y + v.height
    ensures v.height > 0 && v.y + v.height < 0 ==> r.y == 0
    ensures v.height > 0 && v.y + v.height > MaxOffset(v) ==> r.y == MaxOffset(v)
    ensures Valid(v) && v.height > 0 ==> v.y <= r.y
  {
    Scroll(v, v.height)
  }

  /** `PageUp`: one window height further up, clamped. */
  function PageUp(v: DiffViewport): (r: DiffViewport)
    ensures Valid(r) && r == v.(y := r.y)
    ensures v.height <= 0 ==> r.y == 0
    ensures v.height > 0 && 0 <= v.y - v.height <= MaxOffset(v) ==> r.y == v.y - v.height
    ensures v.height > 0 && v.y - v.height < 0 ==> r.y == 0
    ensures v.height > 0 && v.y - v.height > MaxOffset(v) ==> r.y == MaxOffset(v)
    ensures Valid(v) && v.height > 0 ==> r.y <= v.y
  {
    Scroll(v, -v.height)
  }

  /** `GotoTop`: offset 0, which never breaks the invariant. */
  function GotoTop(v: DiffViewport): (r: DiffViewport)
    ensures Valid(r)
    ensures r == v.(y := 0)
  {
    v.(y := 0)
  }

  /** Paging down then up returns to the start when both moves stay within range. */
  lemma PageDownUp(v: DiffViewport)
    requires Valid(v) && v.height > 0 && v.y + v.height <= MaxOffset(v)
    ensures PageUp(PageDown(v)) == v
  {
  }

  /** The index one past the last visible line. */
  function WindowEnd(v: DiffViewport): (e: int)
    requires 0 <= v.y <= |v.lines| && v.height > 0
    ensures v.y <= e <= |v.lines| && e - v.y <= v.height
  {
    if v.y + v.height > |v.lines| then |v.lines| else v.y + v.height
  }

  /**
   * `View`: the visible lines joined by newlines. Go slices `lines[y:end]`,
   * which needs the offset to be within the lines.
   */
  function View(v: DiffViewport): (r: string)
    requires v.height <= 0 || |v.lines| == 0 || 0 <= v.y <= |v.lines|
    ensures v.height <= 0 || |v.lines| == 0 ==> r == ""
    ensures v.height > 0 && |v.lines| > 0 ==> r == Join(v.lines[v.y..WindowEnd(v)], '\n')
  {
    if v.height <= 0 || |v.lines| == 0 then ""
    else Join(v.lines[v.y..WindowEnd(v)], '\n')
  }

  /** A valid viewport can always be drawn. */
  lemma ValidCanView(v: DiffViewport)
    requires Valid(v)
    ensures v.height <= 0 || |v.lines| == 0 || 0 <= v.y <= |v.lines|
  {
  }

  /** The window shows at most `height` lines: they are exactly the lines from `y` on. */
  lemma {:induction false} ViewShowsWindow(v: DiffViewport)
    requires Valid(v) && v.height > 0 && |v.lines| > 0
    requires forall i | 0 <= i < |v.lines| :: '\n' !in v.lines[i]
    ensures Split(View(v), '\n') == v.lines[v.y..WindowEnd(v)]
    ensures |Split(View(v), '\n')| <= v.height
  {
    var w := v.lines[v.y..WindowEnd(v)];
    assert |w| >= 1 by {
      assert v.y < |v.lines|;
    }
    SplitJoin(w, '\n');
  }

  /** A window at the top that is tall enough shows the whole content, character for character. */
  lemma ViewWholeContent(v: DiffViewport, content: string)
    requires v.height > multiset(content)['\n']
    ensures View(GotoTop(SetContent(v, content))) == content
  {
    var t := GotoTop(SetContent(v, content));
    SplitCount(content, '\n');
    assert t.lines == Split(content, '\n') && t.height > 0 && |t.lines| > 0;
    assert WindowEnd(t) == |t.lines|;
    assert t.lines[t.y..WindowEnd(t)] == t.lines;
    JoinSplit(content, '\n');
  }
}

=== FILE: wrappers.dfy ===
/** Failure-carrying return values: Go's `(T, error)` pairs and nil-able results. */
module Wrappers {

  /** A value that may be absent (a nil pointer, a nil command). */
  datatype Option<+T> = None | Some(value: T) {
    predicate IsFailure() {
      None?
    }

    function PropagateFailure<U>(): Option<U>
      requires None?
    {
      None
    }

    function Extract(): T
      requires Some?
    {
      value
    }
  }

  /** Either a result or an error. */
  datatype Result<+T, +E> = Success(value: T) | Failure(error: E) {
    predicate IsFailure() {
      Failure?
    }

    function PropagateFailure<U>(): Result<U, E>
      requires Failure?
    {
      Failure(error)
    }

    function Extract(): T
      requires Success?
    {
      value
    }
  }
}
